=== FILE: README.md ===
# Résumé automation: the client core

This project is a Dafny model of the client of a résumé-automation web application. A user drops a
résumé file on the upload component. The file is streamed to a server, which answers with
server-sent events. The last event carries the extracted résumé record, and the record is
normalised into a fixed shape. The user reviews and edits the record in a form. From the
submitted record the application builds an on-screen preview and a Word document. A three-step
application shell (upload, edit, generated résumé) connects the three views.

The model covers:

- **Upload and streaming** (`upload.dfy`, `sse.dfy`, `events.dfy`). This covers the file-acceptance
  rule of `onDrop`. It covers the blank-line framing of the event stream over arbitrarily cut
  chunks. It also covers the reducer `handleStreamingEvent`: progress, status message, detected
  and completed sections, the error, and the records handed to the parent.
- **Normalisation** (`json.dfy`, `sanitize.dfy`). `sanitizeResumeData` is modelled on a
  JavaScript-like `Json` value. Truthiness is explicit, and objects keep their key insertion
  order. Each record kind is a schema of per-property rules. A throw inside the normaliser is an
  `Option` `None`, which the outer function turns into the default record.
- **The typed record** (`record.dfy`, `encode.dfy`). The form, the preview and the document builder
  work on a typed `Resume`. `Encode` writes a `Resume` as the JSON object the normaliser produces.
  The normaliser leaves every encoded record unchanged. Not every record the normaliser leaves
  unchanged is an encoding: a text held as a number, a non-boolean `wasAwarded` or a non-empty
  `additionalFields` is kept as it is but has no typed counterpart.
- **The edit form** (`forminit.dfy`, `form.dfy`, `skilltext.dfy`). `forminit.dfy` models the
  effect that reshapes the incoming record and the submit handler that carries the missing-points
  report. `form.dfy` models every change, add and remove handler. `skilltext.dfy` models the
  comma-separated skills box: the list is shown joined by `", "` and read back by splitting at
  commas and trimming.
- **Output** (`document.dfy`, `preview.dfy`). The Word document is modelled as an ordered list of
  abstract blocks. The preview is modelled as a tree of abstract nodes.
- **The application shell** (`wizard.dfy`).

`base.dfy` and `strings.dfy` hold the generic sequence and string helpers: JavaScript's
`split`, `trim`, `join` and ASCII `toLowerCase`.

Source paths below are relative to the repository root.

## Model

| member | source | states |
|---|---|---|
| Upload.OnDrop | src/components/FileUpload.js:22-46 | Only the first dropped file can become the selection. |
| Upload.DropRule | src/components/FileUpload.js:29-41 | A drop selects a file exactly when it has a first file, the lower-cased text after the last dot of that file's name (prefixed by a dot) is one of .pdf/.docx/.doc/.txt, and the file is at most 10 MiB. A wrong type gives the type message, checked before the size; a right type that is too big gives the size message. |
| Upload.RejectionKeepsFile | src/components/FileUpload.js:22-46 | An empty or rejected drop leaves the previously selected file in place. |
| Upload.LastSegmentIsLast | src/components/FileUpload.js:30 | `split('.').pop()` is the dot-free suffix after the last dot, or the whole name when it has no dot. |
| Upload.LastSegmentUnique | src/components/FileUpload.js:30 | That suffix is unique, so the extension is well defined. |
| Upload.LastDotDecides | src/components/FileUpload.js:30 | Whatever precedes the last dot has no influence on the extension. |
| Upload.ExtensionIgnoresCase | src/components/FileUpload.js:30 | Lower-casing the file name first does not change the extension. |
| Upload.BareNameAccepted | src/components/FileUpload.js:29-32 | A file named just `pdf`, with no dot, passes the type check. |
| Sse.Receive | src/components/FileUpload.js:95-121 | The read loop, for any cutting of the stream into chunks, handles exactly the complete pieces of the whole stream split at blank lines, in order. It keeps the last piece as the buffer. The state is the reducer run over their payloads. |
| Sse.FrameStep | src/components/FileUpload.js:105-109 | Appending a chunk to the buffer and re-splitting continues the split of the whole stream, so chunk boundaries do not matter. |
| Sse.DispatchAll | src/components/FileUpload.js:111-120 | Handling the complete events one by one equals running the reducer over their parsed `data:` payloads. |
| Sse.Dispatch | src/components/FileUpload.js:112-119 | An event is handed to the reducer only when it starts with `data: ` and the rest parses. |
| Sse.ReceiveAgrees | src/components/FileUpload.js:95-121 | The state the chunked loop reaches equals reading the whole stream at once. |
| Sse.PiecesHaveNoSeparator | src/components/FileUpload.js:108 | No piece of the split contains a blank line. |
| Sse.UnterminatedIgnored | src/components/FileUpload.js:108-109 | A stream with no blank line handles nothing: text left in the buffer at the end is dropped. |
| Sse.TerminatedHandled | src/components/FileUpload.js:108-115 | A complete event followed by a blank line is handled exactly as its payload dictates. |
| StreamEvents.ReduceCompleted | src/components/FileUpload.js:155-166 | One event only appends to the completed sections. It appends its section for `section_complete`, and for `section_skip` only when that section is `certifications`. |
| StreamEvents.RunCompleted | src/components/FileUpload.js:132-207 | Over a run, the completed sections are the earlier ones followed by the events' completions, in event order. |
| StreamEvents.ErrorOnlyFromErrorEvents | src/components/FileUpload.js:200-202 | Only an `error` event changes the error, and it always sets a truthy one. |
| StreamEvents.ReduceDispatch | src/components/FileUpload.js:173-198 | `final_data` events are handled by the final-data step; no other event changes the delivered records. |
| StreamEvents.FinalDataCompletes | src/components/FileUpload.js:173-176 | After `final_data`, progress is 100 and the message starts with the completion message. |
| StreamEvents.FinalMessageStarts | src/components/FileUpload.js:175-192 | The final message always starts with the completion message; a missing-points count can only be appended to it. |
| StreamEvents.FinalDelivery | src/components/FileUpload.js:177-196 | The final-data step hands over at most one record. It does so exactly when `data` is truthy and, if there are truthy missing points, both counts can be read. The record is the normalised `data` plus those missing points. |
| StreamEvents.Delivery | src/components/FileUpload.js:132-207 | Any event hands over at most one record, and only a `final_data` event meeting those conditions does. Earlier records stay as they were. |
| StreamEvents.CountNote | src/components/FileUpload.js:190-192 | The note is empty exactly when neither count is positive; a `NaN` count next to a positive one shows as "NaN". |
| StreamEvents.MissingNoteCount | src/components/FileUpload.js:183-192 | With a record and truthy missing points whose counts read as numbers a and b, the final message reports a + b exactly when one of them is positive, and adds nothing otherwise. |
| StreamEvents.MissingNoteNaN | src/components/FileUpload.js:187-192 | A count that is `undefined` never adds the note by itself; next to a positive count the sum shows as "NaN". |
| StreamEvents.MissingNoteBoolLength | src/components/FileUpload.js:187-192 | `summary: {length: true}` and `experience: [1]` report 2 missing points, because `true` counts as 1. |
| StreamEvents.NoteOnlyOnHandover | src/components/FileUpload.js:178-196 | A missing-points note appears only when a record is handed over. |
| StreamEvents.MissingPointsNotSanitized | src/components/FileUpload.js:213-225 | The normaliser's output never carries `missingPoints`, so only the stream handler attaches it. |
| Normalise.Apply | src/components/FileUpload.js:228-301 | Each property rule: texts `x \|\| ''`; lists kept only if arrays; responsibilities wrapped; `additionalFields` `x \|\| {}`; `wasAwarded` true only when undefined; record lists normalised entry by entry. The rule throws exactly when some entry does. |
| Normalise.NormRecord | src/components/FileUpload.js:228-256 | A normalised entry has exactly its schema's keys, in literal order. Each property is the raw one under its rule. It throws on a `null`/`undefined` entry or a throwing property. |
| Normalise.TrySanitize | src/components/FileUpload.js:212-303 | `null`/`undefined` input throws. Any object the try block returns has the eleven résumé keys in order. Exactly when it throws is `Throws`, as Normalise.SanitizeFallback states. |
| Normalise.Sanitize | src/components/FileUpload.js:210-322 | The normaliser never throws and always returns an object with exactly the eleven résumé keys in order. |
| Normalise.SanitizeOnlyResumeKeys | src/components/FileUpload.js:213-225 | No other property survives normalisation. |
| Normalise.SkillsObject | src/components/FileUpload.js:223 | `technicalSkills` survives only when it is a truthy array or object; otherwise it becomes `{}`. |
| Normalise.ConformsFixed | src/components/FileUpload.js:228-301 | A value already of its rule's output shape is left unchanged by the rule. |
| Normalise.RecordConformsFixed | src/components/FileUpload.js:228-256 | An entry already of its schema's shape is left unchanged. |
| Normalise.ApplyConforms | src/components/FileUpload.js:228-301 | What a rule outputs has the rule's shape. |
| Normalise.NormRecordConforms | src/components/FileUpload.js:228-256 | A normalised entry has its schema's shape. |
| Normalise.ApplyIdempotent | src/components/FileUpload.js:228-301 | Normalising a property twice gives the same as normalising it once. |
| Normalise.ApplyThrows | src/components/FileUpload.js:228-301 | A rule throws exactly when some entry it maps over, at any depth, is `null`/`undefined`. |
| Normalise.NormRecordThrows | src/components/FileUpload.js:228-256 | The same for one record. |
| Normalise.SanitizeFixed | src/components/FileUpload.js:210-303 | A record whose properties all have their normal shapes is returned unchanged. |
| Normalise.NormFieldsNormal | src/components/FileUpload.js:212-303 | Every property of a successfully normalised record has its normal shape. |
| Normalise.SanitizeIdempotent | src/components/FileUpload.js:210-322 | Normalising an already normalised record returns it unchanged. |
| Normalise.SanitizeFallback | src/components/FileUpload.js:305-321 | The catch path is taken exactly when the input is `null`/`undefined` or some mapped entry at any depth is, and it yields the all-empty default record. |
| Normalise.NullFallback | src/components/FileUpload.js:228-229 | A `null` input or a `null` employment entry yields the default record. |
| Normalise.NullProjectFallback | src/components/FileUpload.js:241-242 | A `null` client project inside an employment entry yields the default record. |
| Normalise.SummaryBridge | src/components/FileUpload.js:259-270 | An array `summarySections` is normalised, and `subsections` is kept only if it is an array. Failing that, an array `subsections` is normalised into both. Otherwise both are empty. |
| Normalise.SanitizeTopFields | src/components/FileUpload.js:213-225 | Top-level texts keep a truthy value or become `''`. `professionalSummary` is kept only if it is an array. Every list property comes out as an array. |
| Normalise.RecordField | src/components/FileUpload.js:228-256 | Reading property i of a normalised entry gives the raw property normalised by rule i. |
| Normalise.JobResponsibilities | src/components/FileUpload.js:239-255 | An employment entry's responsibilities: an array is kept, another truthy value becomes a one-element array, anything else `[]`. `additionalFields` defaults to `{}`. |
| Normalise.ProjectResponsibilities | src/components/FileUpload.js:245 | A client project's responsibilities are kept only if they are an array; they are never wrapped. |
| Normalise.EducationAwarded | src/components/FileUpload.js:291 | `wasAwarded` is true exactly when the raw value is undefined; otherwise it is the raw value, not cast to a boolean. |
| Normalise.ReadResumeObject | src/components/FileUpload.js:213-225 | Reading the top-level properties of the written object literal gives back what was written. |
| Encoding.EncodeNormal | src/components/FileUpload.js:228-301 | Every property of an encoded typed record has the shape the normaliser gives it. |
| Encoding.EncodeFixed | src/components/FileUpload.js:210-322 | The normaliser returns every encoded typed record unchanged. |
| Encoding.Encode | src/components/FileUpload.js:213-225 | An encoded record is an object with the eleven résumé keys, in the normaliser's order. |
| SkillText.ParseSkills | src/components/ResumeForm.js:319 | Typed skills are the comma-separated pieces, each trimmed: one per piece and never none. |
| SkillText.ParseShow | src/components/ResumeForm.js:1553 | For a non-empty list of comma-free, trimmed skills, reading back the shown text `join(', ')` gives the list. |
| SkillText.ParsedPlain | src/components/ResumeForm.js:666 | The parser always yields a non-empty list of comma-free, trimmed skills. |
| SkillText.ParseNormal | src/components/ResumeForm.js:666 | Showing what was parsed and parsing it again changes nothing. |
| SkillText.EmptyBoxOneSkill | src/components/ResumeForm.js:677 | Clearing the box gives one empty skill, not an empty list. |
| SkillText.SplitShown | src/components/ResumeForm.js:1598 | Splitting the shown text at commas gives the skills back, each after the first carrying the blank the separator left. |
| FormInit.Start | src/components/ResumeForm.js:6 | The form starts from the given record when it is truthy, otherwise from `{}`. |
| FormInit.Spread | src/components/ResumeForm.js:13 | Spreading an object copies it. |
| FormInit.SpreadArray | src/components/ResumeForm.js:17 | Spreading into an array succeeds exactly for arrays and strings; an array gives its own elements. |
| FormInit.NormCategory | src/components/ResumeForm.js:23-27 | A category throws exactly when it is `null`/`undefined`. Otherwise it comes out as an object with array `subCategories`, keeping an existing array and every other property. |
| FormInit.NormCategories | src/components/ResumeForm.js:22-28 | The list succeeds exactly when no category is `null`/`undefined`, and each category is normalised in place. |
| FormInit.InitEffect | src/components/ResumeForm.js:9-36 | A falsy record leaves the form state as it is. |
| FormInit.InitThrows | src/components/ResumeForm.js:9-36 | The effect throws exactly when the summary copy meets non-spreadable subsections, or the skill categories are truthy but not an array, or one of them is `null`/`undefined`. |
| FormInit.InitShape | src/components/ResumeForm.js:13-31 | The output copies subsections into summary sections when there are subsections and no summary sections. Its skill categories are objects with subcategory arrays, `[]` when missing. Every other property is as given. |
| FormInit.SetPropSame | src/components/ResumeForm.js:24-27 | Spreading an object and writing back one of its own properties gives the same object. |
| FormInit.NormCategoryFixed | src/components/ResumeForm.js:23-27 | A category that already has array subcategories is unchanged. |
| FormInit.NormCategoriesFixed | src/components/ResumeForm.js:22-28 | A list of such categories is unchanged. |
| FormInit.SummaryCopySettles | src/components/ResumeForm.js:15-18 | After the summary copy, copying again would give the same summary sections. |
| FormInit.InitIdempotent | src/components/ResumeForm.js:9-36 | Re-running the effect on its own output returns that output. |
| FormInit.Submit | src/components/ResumeForm.js:39-49 | Submitting throws exactly when the original record is `null`/`undefined`. |
| FormInit.SubmitCarriesPoints | src/components/ResumeForm.js:43-47 | The submitted record has truthy missing points exactly when the form's or the original's are. The form's own report wins, and nothing else changes. |
| FormInit.SubmitIdempotent | src/components/ResumeForm.js:43-47 | Submitting the submitted record again changes nothing. |
| FormInit.PointsSurviveForm | src/components/ResumeForm.js:9-47 | A record's missing-points report survives the init effect and an unedited submit. |
| Form.Change | src/components/ResumeForm.js:51-57 | Name, title or requisition number takes the typed value; the other two and the rest of the record are unchanged. |
| Form.ChangeEducation | src/components/ResumeForm.js:60-70 | Only entry i changes, and only in the named field. A text takes the value; `wasAwarded` becomes true exactly for `"true"`. |
| Form.AddEducation | src/components/ResumeForm.js:73-88 | One entry is appended, with empty texts and `wasAwarded` false; nothing else changes. |
| Form.RemoveEducation | src/components/ResumeForm.js:91-98 | Entry i is removed and the others keep their order; an index out of range changes nothing. |
| Form.ChangeCertification | src/components/ResumeForm.js:101-111 | Only certification i changes, and only in the named field. |
| Form.AddCertification | src/components/ResumeForm.js:114-128 | One all-empty certification is appended. |
| Form.RemoveCertification | src/components/ResumeForm.js:131-138 | Certification i is removed and the others keep their order. |
| Form.ChangeEmployment | src/components/ResumeForm.js:141-151 | Only entry i changes, only in the named text field; its lists are untouched. |
| Form.ChangeResponsibility | src/components/ResumeForm.js:154-168 | Only responsibility k of entry i changes, to the value. |
| Form.AddResponsibility | src/components/ResumeForm.js:171-185 | An empty responsibility is appended to entry i only. |
| Form.RemoveResponsibility | src/components/ResumeForm.js:188-202 | Responsibility k of entry i is removed, the rest kept in order. |
| Form.ChangeAchievement | src/components/ResumeForm.js:205-217 | Only achievement k of entry i changes, to the value. |
| Form.AddAchievement | src/components/ResumeForm.js:220-232 | An empty achievement is appended to entry i only. |
| Form.RemoveAchievement | src/components/ResumeForm.js:235-243 | Achievement k of entry i is removed, the rest kept in order. |
| Form.AddEmployment | src/components/ResumeForm.js:246-272 | An entry with empty texts, one empty responsibility and no projects, subsections or achievements is appended. |
| Form.RemoveEmployment | src/components/ResumeForm.js:275-282 | Entry i is removed and the others keep their order. |
| Form.ChangeSummary | src/components/ResumeForm.js:285-293 | Only summary point k changes, to the value. |
| Form.AddSummaryPoint | src/components/ResumeForm.js:296-301 | An empty summary point is appended. |
| Form.RemoveSummaryPoint | src/components/ResumeForm.js:304-311 | Summary point k is removed, the rest kept in order. |
| Form.ChangeSkillCategory | src/components/ResumeForm.js:314-322 | Category k maps to the parsed skills. Other categories' lookups are unchanged, and an existing category keeps its place. |
| Form.AddSkillCategory | src/components/ResumeForm.js:325-337 | A non-empty answer that is neither a category nor an inherited property name adds that category last with no skills. Any other answer, or a cancel, changes nothing. |
| Form.RemoveSkillCategory | src/components/ResumeForm.js:340-346 | Category k can no longer be looked up; the others are unchanged. |
| Form.SetGroup | src/components/ResumeForm.js:317-320 | The object spread writes one key: an existing key keeps its place and a new key goes last. |
| Form.DeleteGroup | src/components/ResumeForm.js:341-344 | Rest destructuring removes one key and keeps the others in order. |
| Form.LookupListed | src/components/ResumeForm.js:328 | A category can be looked up exactly when it is listed. |
| Form.ChangeSubsection | src/components/ResumeForm.js:349-364 | Only the title of subsection k of entry i changes. |
| Form.AddSubsection | src/components/ResumeForm.js:366-381 | A subsection with an empty title and no items is appended to entry i only. |
| Form.RemoveSubsection | src/components/ResumeForm.js:383-391 | Subsection k of entry i is removed, the rest kept in order. |
| Form.ChangeSubsectionItem | src/components/ResumeForm.js:393-401 | Only item n of subsection k of entry i changes. |
| Form.AddSubsectionItem | src/components/ResumeForm.js:403-411 | An empty item is appended to that subsection only. |
| Form.RemoveSubsectionItem | src/components/ResumeForm.js:413-421 | Item n of that subsection is removed. |
| Form.ChangeClientProject | src/components/ResumeForm.js:424-439 | Only the named field of project p of entry i changes. |
| Form.AddClientProject | src/components/ResumeForm.js:442-460 | A project with empty texts and no responsibilities is appended to entry i only. |
| Form.RemoveClientProject | src/components/ResumeForm.js:463-471 | Project p of entry i is removed, the rest kept in order. |
| Form.ChangeClientProjectResponsibility | src/components/ResumeForm.js:474-482 | Only responsibility k of that project changes. |
| Form.AddClientProjectResponsibility | src/components/ResumeForm.js:485-497 | An empty responsibility is appended to that project only. |
| Form.RemoveClientProjectResponsibility | src/components/ResumeForm.js:500-508 | Responsibility k of that project is removed. |
| Form.ChangeSummarySection | src/components/ResumeForm.js:511-522 | Only the title of summary section k changes. |
| Form.AddSummarySection | src/components/ResumeForm.js:525-536 | A summary section with an empty title and no items is appended. |
| Form.RemoveSummarySection | src/components/ResumeForm.js:539-547 | Summary section k is removed, the rest kept in order. |
| Form.ChangeSummarySectionItem | src/components/ResumeForm.js:550-558 | Only item n of summary section k changes. |
| Form.AddSummarySectionItem | src/components/ResumeForm.js:561-569 | An empty item is appended to summary section k only. |
| Form.RemoveSummarySectionItem | src/components/ResumeForm.js:572-580 | Item n of summary section k is removed. |
| Form.ChangeSkillSubcategory | src/components/ResumeForm.js:583-598 | Only the name of subcategory k of category c changes. |
| Form.AddNestedSkillCategory | src/components/ResumeForm.js:601-617 | A truthy answer appends a category of that name with no skills or subcategories; anything else changes nothing. |
| Form.RemoveNestedSkillCategory | src/components/ResumeForm.js:620-628 | Category c is removed, the rest kept in order. |
| Form.AddSkillSubcategory | src/components/ResumeForm.js:631-650 | A truthy answer appends an empty subcategory of that name to category c only; anything else changes nothing. |
| Form.RemoveSkillSubcategory | src/components/ResumeForm.js:653-661 | Subcategory k of category c is removed. |
| Form.ChangeNestedSkillCategory | src/components/ResumeForm.js:664-672 | Only category c's skills change, to the parsed text. |
| Form.ChangeSubcategorySkills | src/components/ResumeForm.js:675-683 | Only subcategory k's skills change, to the parsed text. |
| Form.RenameSkillCategory | src/components/ResumeForm.js:1529-1536 | Only category c's name changes. |
| Form.FilterDistinct | src/components/ResumeForm.js:341-344 | Removing keys from a list of distinct keys keeps them distinct. |
| Form.SkillEditsKeepValid | src/components/ResumeForm.js:314-346 | No legacy skill edit lists a category twice, so the list still stands for an object. |
| Form.SetGroupSame | src/components/ResumeForm.js:317-320 | Setting a category to the skills it has changes nothing. |
| Form.DeleteSetFresh | src/components/ResumeForm.js:325-346 | Deleting a freshly added category gives the categories back. |
| Form.AddThenRemoveCategory | src/components/ResumeForm.js:325-346 | Adding a category through the prompt and then removing it restores the record. |
| Form.AddThenRemove | src/components/ResumeForm.js:73-311 | Each top-level add button followed by removing the entry it added restores the record. This covers education, certifications, employment, summary points, summary sections and nested categories. |
| Form.AddThenRemoveInEntry | src/components/ResumeForm.js:171-508 | The same inside an employment entry, for responsibilities, achievements, subsections and client projects. |
| Form.RetypeUnchanged | src/components/ResumeForm.js:664-672 | Plain skills shown in a category's box and typed back unchanged leave the record as it was. |
| Form.RetypeLegacyUnchanged | src/components/ResumeForm.js:314-322 | The same for a legacy category's box. |
| Form.EditSettles | src/components/ResumeForm.js:664-672 | After one edit of a category's skills, retyping the shown text is a no-op. |
| Document.EducationTableShape | src/components/GeneratedResume.js:49-270 | A header row, then one row per entry in order. No entries give a single dash across all six columns. Every row spans six columns. |
| Document.EducationRowShows | src/components/GeneratedResume.js:219-252 | A data row shows its entry completely, including Yes/No for `wasAwarded`. A date of `'-'` reads back as no date. |
| Document.CertificationsTableShape | src/components/GeneratedResume.js:310-505 | The same for certifications, with five columns. |
| Document.CertificationRowShows | src/components/GeneratedResume.js:465-495 | A row shows its certification completely. A number or expiry of `'-'` reads back as none. |
| Document.LabelLinesShow | src/components/GeneratedResume.js:683-845 | The detail lines under an entry are, in order, exactly the fields with a value. |
| Document.ProjectTitle | src/components/GeneratedResume.js:868-870 | A project title is never empty. It begins with the client and ends with the project name when present, and is `'Client Project'` when both are missing. |
| Document.ProjectBullets | src/components/GeneratedResume.js:923-946 | A project's bullets are its non-blank responsibilities, in order, one level deep. |
| Document.ResponsibilityRule | src/components/GeneratedResume.js:950-988 | The label appears exactly when some responsibility is non-blank; the bullets are the non-blank ones in order. |
| Document.SubsectionRule | src/components/GeneratedResume.js:990-1039 | A subsection without a title shows nothing. With a title it shows `title:` and one bullet per non-blank item. |
| Document.AchievementRule | src/components/GeneratedResume.js:1093-1134 | The achievements label appears whenever the list is non-empty, even when all items are blank; the bullets are the non-blank ones. |
| Document.LabelRulesDiffer | src/components/GeneratedResume.js:950-1134 | The three rules disagree: one blank responsibility shows nothing, one blank achievement shows the label, and an untitled subsection hides its items. |
| Document.EmploymentFrame | src/components/GeneratedResume.js:544-1149 | Entries appear in order, each framed by its two banners, with one blank separator between consecutive entries. No entries give 'No employment history'. |
| Document.FramesCount | src/components/GeneratedResume.js:551-681 | The frame has two banners per entry and one separator fewer than entries, and every banner belongs to an entry. |
| Document.SkillsShape | src/components/GeneratedResume.js:1152-1256 | For legacy skills held as lists: first come the legacy categories, one line each with the skills joined by `", "`. Then come a line per category and per subcategory. 'No skills provided' appears exactly when both are empty. |
| Document.CategoryLinesAreLines | src/components/GeneratedResume.js:1180-1238 | Every nested-skill block is a caption-and-skills line. |
| Document.FileName | src/components/GeneratedResume.js:1540 | The file is `<name>.docx`, or `Resume.docx` without a name. |
| Document.DocumentStart | src/components/GeneratedResume.js:1279-1379 | The document opens with the name in bold, or 'Full Name', followed by the title table. |
| Document.EmploymentNoHeadings | src/components/GeneratedResume.js:544-1149 | No section heading occurs inside the employment history. |
| Document.DocumentHeadings | src/components/GeneratedResume.js:1259-1536 | The section headings are, in order, education, certifications, employment history, professional summary and technical skills. |
| Document.SummaryUnfiltered | src/components/GeneratedResume.js:1454-1472 | Right after the summary heading come all the summary points as bullets, blank ones included. |
| Preview.SectionOrder | src/components/GeneratedResume.js:1581-1885 | The preview shows exactly the sections whose data is present, each once, in the order summary, employment, education, certifications, skills. |
| Preview.PreviewSummaryFirst | src/components/GeneratedResume.js:1592-1635 | With a summary and employment, the preview shows the summary first. |
| Preview.SummaryPlacementDiffers | src/components/GeneratedResume.js:1592-1635 | The preview puts the summary before employment, while the document puts it after. |
| Preview.SummaryMayBeBare | src/components/GeneratedResume.js:1593-1628 | With only legacy `subsections`, the summary section appears, but its box lists no sections. |
| Preview.NameAgrees | src/components/GeneratedResume.js:1584 | Preview and document show the same name, with the same 'Full Name' fallback. |
| Preview.ProjectHeading | src/components/GeneratedResume.js:1702-1704 | A project heading in the preview is never empty. |
| Preview.ProjectHeadingAgrees | src/components/GeneratedResume.js:1702-1704 | A named project gets the same heading in the preview and the document. An unnamed one is 'Project n' in the preview and 'Client Project' in the document. |
| Preview.BlankResponsibilitiesDiffer | src/components/GeneratedResume.js:1724-1733 | The preview lists all-blank responsibilities under its label; the document shows nothing for them. |
| Preview.AwardAgrees | src/components/GeneratedResume.js:1798 | 'Degree awarded' shows exactly when the table says Yes, and 'Degree in progress' exactly when it says No. |
| Preview.IssuedLineStart | src/components/GeneratedResume.js:1812-1815 | The issue line starts with the issuer caption or with the blanks before the date caption. |
| Preview.ExpiryAgrees | src/components/GeneratedResume.js:1816-1818 | For an expiry other than "-", the preview shows it exactly when the document's cell holds something other than a dash. |
| Preview.NumberAgrees | src/components/GeneratedResume.js:1819-1821 | The same for a certification number other than "-". |
| Preview.DashExpiryDiffers | src/components/GeneratedResume.js:1816-1818 | An expiry of "-" is where the views part: the preview shows "Expires: -" while the document's cell holds the dash it also uses for a missing date (line 481). |
| Preview.DashNumberDiffers | src/components/GeneratedResume.js:1819-1821 | The same for a certification number of "-" (document cell at line 477). |
| Preview.LegacySkillsAgree | src/components/GeneratedResume.js:1832-1843 | A legacy category whose skills are a list shows its name and the same joined skills as its document line. |
| Preview.SubcategorySkillsDiffer | src/components/GeneratedResume.js:1860-1876 | A subcategory lists its skills one bullet each in the preview, and only when it has any. The document joins them on one line. |
| Wizard.Handle | src/App.js:17-33 | The record changes only to the one a callback passes, and back keeps it. A step from 1 to 3 stays in that range. Back lowers the step by at most one and leaves the state alone only on step 1. |
| Wizard.Shown | src/App.js:71-91 | Step 1 shows the upload. Steps 2 and 3 show the form and the preview only with a truthy record, and the view receives that record. |
| Wizard.StepInRange | src/App.js:8-33 | The step stays within 1 to 3 whatever the callbacks do. |
| Wizard.NothingShownOnlyWithoutRecord | src/App.js:71-91 | From the start, nothing is shown exactly on step 2 or 3 with a falsy record. |
| Wizard.Flow | src/App.js:17-91 | Extracting shows the form on the record and generating shows the preview. Back from the preview shows the form on the submitted record. Back from the form returns to the upload with the record kept. |

## Left out

- File transfer and rendering: `fetch`, the response reader and `TextDecoder` are left out; the
  stream arrives as a sequence of already decoded text chunks.
- `JSON.parse` is a parameter (`parse`) that returns a value or fails. An unparsable event is
  ignored, as in the source.
- The Word library (`docx`), `Packer`, `saveAs` and `window.print` are left out. The document is
  modelled as the ordered blocks handed to the library.
- Fonts, sizes, colours, borders, spacing and widths are left out, and so is the JSX styling of the
  preview.
- The `window.prompt` answers of the add-category handlers are a parameter (`Option<string>`, with
  `None` for cancel).
- The token-cost estimate and elapsed time of the upload view are left out. They involve floating
  point and the clock.
- The missing-points tracker view is left out; `missingPoints` is modelled only as carried data.
- Numbers are integers. Object keys keep plain insertion order: JavaScript's placement of
  integer-like keys first is not modelled.
- `Lower` folds ASCII letters only; `toLowerCase` of other scripts is left out.
- The drop zone's own `accept` filter, which runs before `onDrop`, is not modelled. `onDrop` is
  modelled on the files the drop zone passes.
- The title and requisition-number table of the document is modelled as one block. Its cell content
  is not detailed.
- Form handlers that take a field name are modelled for the names the form's inputs pass, as
  enumerations. Arbitrary names creating new properties are left out.
- Form handlers are modelled as pure updates of a typed record. The source's shallow copies share
  nested arrays, and that aliasing is not modelled.
- Form.ChangeEducation: requires an index of an existing entry, because the form only calls it with
  the index of a rendered entry. The same holds for the other change handlers and the
  `requires i < |…|` of the nested add and remove handlers.
- Form.ChangeSubsection: the guards that create a missing `subsections`, `clientProjects` or
  `subCategories` array before writing are unnecessary on the typed record, where every entry
  has those lists. The same holds for Form.AddSubsection, Form.AddClientProject and
  Form.ChangeSkillSubcategory.
- The typed record holds strings where the JSON may hold any value. The form, document and preview
  are modelled on records whose texts are strings.
- The typed record abstracts the key order and the extra keys of the objects the form builds. In the
  source, `addEmploymentItem` gives a new entry no `additionalFields`, and `addEducationItem` writes
  `wasAwarded` before `date`, the reverse of the normaliser's order. `handleSubmit` also adds
  `missingPoints`, which the normaliser would drop. Encoding.EncodeFixed is therefore a statement about the
  encoding of the form's state, not about the exact objects the form hands on.
- Legacy skills: the typed record holds `technicalSkills` as an object whose every value is a list
  of strings. The normaliser keeps any truthy object or array there, so a value such as
  `{"Languages": "Java, Python"}`, or an array as `technicalSkills` itself, can reach the builders. The
  builders' branch for a value that is not an array, which shows the value as it is, is not modelled.
  Document.SkillsShape and Preview.LegacySkillsAgree therefore speak only of list values.
- StreamEvents.MissingNote: a `length` property whose value is a string, an array or an object is
  taken as `NaN`. JavaScript coerces it instead: with `length: "2"`, `"2" > 0` holds and `"2" + 0` is
  `"20"`. `null` and booleans are coerced as JavaScript does. A string's length counts characters
  (code points), not the UTF-16 units JavaScript counts.
- FormInit.InitEffect: a non-numeric `length` of `summarySections` is modelled as whatever the
  object's `length` property holds, and only the value `0` counts as empty.

## Notes on the code

- The preview shows a legacy skill category as its name above the joined skills, in two elements.
- The event stream is split at the leftmost blank line each time, as `split('\n\n')` does. After
  a run of three or more newlines, the next event therefore starts with a newline.
- `addSkillCategory` checks `!technicalSkills[name]`. A name inherited from `Object.prototype`,
  such as `toString`, is therefore never added.
- A file named `pdf` (or `txt`, …) with no dot passes the type check, because `split('.').pop()`
  returns the whole name.
- The last event of a stream is handled only when a blank line follows it. Text left in the
  buffer when the stream ends is dropped.
- The form shows a legacy skill category with `(technicalSkills[category] || []).join(', ')`. A
  string value such as `"Java, Python"` makes that call throw, so the form fails on a record the
  builders display.
- Clearing a skills box gives `[""]`, one empty skill, not an empty list.
- The document takes summary sections from `summarySections || subsections`. After
  normalisation `summarySections` is always an array, so the `subsections` fallback is never
  reached on a normalised record.
- When `summarySections` is an array, the normaliser keeps the raw `subsections` only if it too
  is an array; otherwise it becomes `[]`.

=== FILE: base.dfy ===
/** Failure-compatible option and the index-addressed list edits shared by every module. */
module Base {

  /** A value that may be absent; `None` also stands for a JavaScript throw inside a `try`. */
  datatype Option<+T> = None | Some(value: T) {

    predicate IsFailure() {
      None?
    }

    function PropagateFailure<U>(): Option<U>
      requires None?
    {
      None
    }

    function Extract(): T
      requires Some?
    {
      value
    }
  }

  /** `b` is `a` with the element at `i` taken out and the later elements shifted down by one. */
  ghost predicate RemovedAt<T>(a: seq<T>, b: seq<T>, i: nat) {
    && i < |a|
    && |b| == |a| - 1
    && (forall j :: 0 <= j < i ==> b[j] == a[j])
    && (forall j :: i <= j < |b| ==> b[j] == a[j + 1])
  }

  /** `b` is `a` with only the element at `i` replaced by `x`. */
  ghost predicate ReplacedAt<T>(a: seq<T>, b: seq<T>, i: nat, x: T) {
    && i < |a|
    && |b| == |a|
    && b[i] == x
    && (forall j :: 0 <= j < |a| && j != i ==> b[j] == a[j])
  }

  /** `b` is `a` with at most the element at `i` changed. */
  ghost predicate OnlyAt<T>(a: seq<T>, b: seq<T>, i: nat) {
    && i < |a|
    && |b| == |a|
    && (forall j :: 0 <= j < |a| && j != i ==> b[j] == a[j])
  }

  /** `Array.prototype.splice(i, 1)` for a non-negative index: past the end it removes nothing. */
  function RemoveAt<T>(s: seq<T>, i: nat): (r: seq<T>)
    ensures i < |s| ==> RemovedAt(s, r, i)
    ensures i >= |s| ==> r == s
  {
    if i < |s| then s[..i] + s[i + 1..] else s
  }

  /** Flattening of a sequence of sequences, in order. */
  function Concat<T>(xss: seq<seq<T>>): (r: seq<T>)
    ensures xss == [] ==> r == []
  {
    if xss == [] then [] else Concat(xss[..|xss| - 1]) + xss[|xss| - 1]
  }

  lemma {:induction false} ConcatAppend<T>(xss: seq<seq<T>>, yss: seq<seq<T>>)
    ensures Concat(xss + yss) == Concat(xss) + Concat(yss)
    decreases |yss|
  {
    if yss == [] {
      assert xss + yss == xss;
    } else {
      var last := yss[|yss| - 1];
      var init := yss[..|yss| - 1];
      assert xss + yss == (xss + init) + [last];
      assert (xss + yss)[..|xss + yss| - 1] == xss + init;
      ConcatAppend(xss, init);
      assert Concat(xss + yss) == Concat(xss + init) + last;
      assert Concat(yss) == Concat(init) + last;
    }
  }

  /** The concatenation of a prefix one longer adds the next item. */
  lemma ConcatPrefix<T>(xss: seq<seq<T>>, i: nat)
    requires i < |xss|
    ensures Concat(xss[..i + 1]) == Concat(xss[..i]) + xss[i]
  {
    assert xss[..i + 1][..i] == xss[..i];
  }

  /** A non-empty list is its front followed by its last item. */
  lemma FrontLast<T>(xs: seq<T>, ys: seq<T>)
    requires xs != []
    ensures (ys + xs[..|xs| - 1]) + [xs[|xs| - 1]] == ys + xs
  {
    assert xs == xs[..|xs| - 1] + [xs[|xs| - 1]];
  }

  /** The results of mapping a list through a step that may throw: the first throw aborts the whole map. */
  function AllSome<T>(os: seq<Option<T>>): (r: Option<seq<T>>)
    ensures r.Some? ==> |r.value| == |os| && forall i :: 0 <= i < |os| ==> os[i] == Some(r.value[i])
    ensures r.None? <==> exists i :: 0 <= i < |os| && os[i].None?
  {
    if os == [] then Some([])
    else
      var y :- os[0];
      var ys :- AllSome(os[1..]);
      assert forall i :: 1 <= i < |os| ==> os[i] == os[1..][i - 1];
      Some([y] + ys)
  }

  /** When every step yields a value, the values are collected in order. */
  lemma AllSomeValues<T>(os: seq<Option<T>>, xs: seq<T>)
    requires |os| == |xs| && forall i :: 0 <= i < |os| ==> os[i] == Some(xs[i])
    ensures AllSome(os) == Some(xs)
  {
    var r := AllSome(os);
    assert r.Some?;
    assert forall i :: 0 <= i < |xs| ==> r.value[i] == xs[i];
    assert r.value == xs;
  }

  /** The elements of `s` that satisfy `f`, in order (`Array.prototype.filter`). */
  function Filter<T(!new)>(s: seq<T>, f: T -> bool): (r: seq<T>)
    ensures |r| <= |s|
  {
    if s == [] then [] else (if f(s[0]) then [s[0]] else []) + Filter(s[1..], f)
  }

  /** The filtered list holds exactly the elements that pass, and is empty exactly when none does. */
  lemma {:induction false} FilterMembers<T(!new)>(s: seq<T>, f: T -> bool)
    ensures forall x :: x in Filter(s, f) <==> x in s && f(x)
    ensures Filter(s, f) == [] <==> forall x :: x in s ==> !f(x)
    decreases |s|
  {
    if s != [] {
      FilterMembers(s[1..], f);
      assert s == [s[0]] + s[1..];
    }
  }

  /** Filtering keeps a list whose every element passes. */
  lemma {:induction false} FilterAll<T(!new)>(s: seq<T>, f: T -> bool)
    requires forall x :: x in s ==> f(x)
    ensures Filter(s, f) == s
    decreases |s|
  {
    if s != [] {
      assert s[0] in s;
      assert forall x :: x in s[1..] ==> x in s;
      FilterAll(s[1..], f);
      assert s == [s[0]] + s[1..];
    }
  }

  lemma {:induction false} FilterAppend<T(!new)>(a: seq<T>, b: seq<T>, f: T -> bool)
    ensures Filter(a + b, f) == Filter(a, f) + Filter(b, f)
    decreases |a|
  {
    if a == [] {
      assert a + b == b;
    } else {
      var head := if f(a[0]) then [a[0]] else [];
      assert (a + b)[0] == a[0] && (a + b)[1..] == a[1..] + b;
      FilterAppend(a[1..], b, f);
      calc {
        Filter(a + b, f);
        head + Filter(a[1..] + b, f);
        head + (Filter(a[1..], f) + Filter(b, f));
        (head + Filter(a[1..], f)) + Filter(b, f);
        Filter(a, f) + Filter(b, f);
      }
    }
  }
}

=== FILE: document.dfy ===
/** The Word document that `handleDownloadWord` assembles from a résumé record, as an ordered list of
    abstract blocks: headings, paragraphs, label lines, bullets and tables. Fonts, sizes, colours,
    borders and spacing are not part of the model; bullet level, bold/italic and column span are. */
module Document {
  import opened Base
  import opened Strings
  import opened Records

  datatype Style = Plain | Bold | Italic

  /** A table cell: the texts of its paragraphs and the number of columns it spans. */
  datatype Cell = Cell(lines: seq<string>, span: nat)

  datatype Block =
    | Heading(text: string)                   // a section heading of the document
    | Para(text: string, style: Style)        // a paragraph of one run
    | Line(caption: string, value: string)    // a bold caption run followed by a value run
    | Indented(caption: string, value: string)  // a caption line indented one step
    | Bullet(level: nat, text: string)        // a bulleted paragraph; level 1 is nested under level 0
    | Table(rows: seq<seq<Cell>>)
    | Banner(left: string, right: string)     // a borderless one-row table: bold text left, bold text right
    | Blank                                   // an empty paragraph

  predicate IsHeading(b: Block) {
    b.Heading?
  }

  /** The blocks that frame the employment entries: their header banners and the blank separators. */
  predicate IsFrame(b: Block) {
    b.Banner? || b.Blank?
  }

  predicate IsBullet(b: Block) {
    b.Bullet?
  }

  /** Text content inside an entry: neither a heading nor a frame nor a table. */
  predicate Inline(b: Block) {
    b.Para? || b.Line? || b.Indented? || b.Bullet?
  }

  /** A single-paragraph cell one column wide. */
  function Text(s: string): Cell {
    Cell([s], 1)
  }

  /** The text of a single-paragraph cell. */
  function CellText(c: Cell): string {
    if |c.lines| == 1 then c.lines[0] else ""
  }

  /** The number of columns a row covers. */
  function Width(row: seq<Cell>): nat {
    if row == [] then 0 else row[0].span + Width(row[1..])
  }

  /** A row of one-column cells is as wide as it is long. */
  lemma {:induction false} WidthOfTexts(row: seq<Cell>)
    requires forall k :: 0 <= k < |row| ==> row[k].span == 1
    ensures Width(row) == |row|
    decreases |row|
  {
    if row != [] {
      WidthOfTexts(row[1..]);
    }
  }

  /** One bullet per text, in order. */
  function Bullets(level: nat, xs: seq<string>): (r: seq<Block>)
    ensures |r| == |xs| && forall i :: 0 <= i < |xs| ==> r[i] == Bullet(level, xs[i])
  {
    seq(|xs|, i requires 0 <= i < |xs| => Bullet(level, xs[i]))
  }

  /** Every block is text content. */
  ghost predicate AllInline(bs: seq<Block>) {
    forall b :: b in bs ==> Inline(b)
  }

  lemma InlineAppend(a: seq<Block>, b: seq<Block>)
    requires AllInline(a) && AllInline(b)
    ensures AllInline(a + b)
  {
  }

  lemma BulletsInline(level: nat, xs: seq<string>)
    ensures AllInline(Bullets(level, xs))
  {
  }

  // ---------------------------------------------------------------- education and certifications

  const EducationHeader: seq<Cell> := [
    Text("Degree (AA/AS, BA/BS, MA/MS/MBA, PhD, JD)"), Text("Area of Study"), Text("School/College/University"),
    Text("Location"), Text("Was the degree awarded? (Yes/No)"), Text("OPTIONAL: Date (MM/YY)")
  ]

  /** `x || '-'`, and the reading that undoes it wherever it can. */
  function OrDash(s: string): string {
    OrElse(s, "-")
  }

  function Undash(s: string): string {
    if s == "-" then "" else s
  }

  function EducationRow(e: Education): seq<Cell> {
    [Text(e.degree), Text(e.areaOfStudy), Text(e.school), Text(e.location),
     Text(if e.wasAwarded then "Yes" else "No"), Text(OrDash(e.date))]
  }

  /** `createEducationTable`. */
  function EducationTable(es: seq<Education>): Block {
    var body := if es == [] then [[Cell(["-"], 6)]] else seq(|es|, i requires 0 <= i < |es| => EducationRow(es[i]));
    Table([EducationHeader] + body)
  }

  /** A header row, then one row per entry in order, or a single dash across all six columns when there
      is none; every row covers the six columns. */
  lemma EducationTableShape(es: seq<Education>)
    ensures var r := EducationTable(es);
      && r.Table? && |r.rows| == 1 + (if es == [] then 1 else |es|)
      && r.rows[0] == EducationHeader
      && (es == [] ==> r.rows[1] == [Cell(["-"], 6)])
      && (forall i :: 0 <= i < |es| ==> r.rows[i + 1] == EducationRow(es[i]))
      && (forall k :: 0 <= k < |r.rows| ==> Width(r.rows[k]) == 6)
  {
    var rows := EducationTable(es).rows;
    forall k | 0 <= k < |rows|
      ensures Width(rows[k]) == 6
    {
      if k == 0 || es != [] {
        WidthOfTexts(rows[k]);
      }
    }
  }

  /** The entry a data row shows. */
  function ReadEducationRow(row: seq<Cell>): Option<Education> {
    if |row| != 6 then None
    else Some(Education(CellText(row[0]), CellText(row[1]), CellText(row[2]), CellText(row[3]),
                        Undash(CellText(row[5])), CellText(row[4]) == "Yes"))
  }

  /** A row shows its entry completely, except that a date of `'-'` reads back as no date. */
  lemma EducationRowShows(e: Education)
    ensures ReadEducationRow(EducationRow(e)) == Some(e.(date := Undash(e.date)))
  {
  }

  const CertificationHeader: seq<Cell> := [
    Text("Certification"), Text("Issued By"), Text("Date Obtained (MM/YY)"),
    Text("Certification Number (If Applicable)"), Text("Expiration Date (If Applicable)")
  ]

  function CertificationRow(c: Certification): seq<Cell> {
    [Text(c.name), Text(c.issuedBy), Text(c.dateObtained), Text(OrDash(c.certificationNumber)),
     Text(OrDash(c.expirationDate))]
  }

  /** `createCertificationsTable`. */
  function CertificationsTable(cs: seq<Certification>): Block {
    var body := if cs == [] then [[Cell(["-"], 5)]] else seq(|cs|, i requires 0 <= i < |cs| => CertificationRow(cs[i]));
    Table([CertificationHeader] + body)
  }

  /** As the education table, with five columns. */
  lemma CertificationsTableShape(cs: seq<Certification>)
    ensures var r := CertificationsTable(cs);
      && r.Table? && |r.rows| == 1 + (if cs == [] then 1 else |cs|)
      && r.rows[0] == CertificationHeader
      && (cs == [] ==> r.rows[1] == [Cell(["-"], 5)])
      && (forall i :: 0 <= i < |cs| ==> r.rows[i + 1] == CertificationRow(cs[i]))
      && (forall k :: 0 <= k < |r.rows| ==> Width(r.rows[k]) == 5)
  {
    var rows := CertificationsTable(cs).rows;
    forall k | 0 <= k < |rows|
      ensures Width(rows[k]) == 5
    {
      if k == 0 || cs != [] {
        WidthOfTexts(rows[k]);
      }
    }
  }

  function ReadCertificationRow(row: seq<Cell>): Option<Certification> {
    if |row| != 5 then None
    else Some(Certification(CellText(row[0]), CellText(row[1]), CellText(row[2]),
                            Undash(CellText(row[3])), Undash(CellText(row[4]))))
  }

  /** A row shows its certification completely, except that a number or expiration date of `'-'` reads
      back as none. */
  lemma CertificationRowShows(c: Certification)
    ensures ReadCertificationRow(CertificationRow(c)) ==
      Some(c.(certificationNumber := Undash(c.certificationNumber), expirationDate := Undash(c.expirationDate)))
  {
  }

  // ---------------------------------------------------------------- employment history

  /** Label lines for the pairs whose value is non-empty, in the order given; the value run is the value
      after one space. */
  function LabelLines(fields: seq<(string, string)>): seq<Block> {
    if fields == [] then []
    else (if fields[0].1 != "" then [Line(fields[0].0, " " + fields[0].1)] else []) + LabelLines(fields[1..])
  }

  function HasValue(field: (string, string)): bool {
    field.1 != ""
  }

  function AsLine(field: (string, string)): Block {
    Line(field.0, " " + field.1)
  }

  /** The label lines are, in order, exactly the pairs with a value. */
  lemma {:induction false} LabelLinesShow(fields: seq<(string, string)>)
    ensures var shown := Filter(fields, HasValue);
      LabelLines(fields) == seq(|shown|, i requires 0 <= i < |shown| => AsLine(shown[i]))
    decreases |fields|
  {
    if fields != [] {
      LabelLinesShow(fields[1..]);
      var rest := Filter(fields[1..], HasValue);
      var tail := seq(|rest|, i requires 0 <= i < |rest| => AsLine(rest[i]));
      var head := if HasValue(fields[0]) then [fields[0]] else [];
      assert Filter(fields, HasValue) == head + rest;
      var shown := head + rest;
      var lines := seq(|shown|, i requires 0 <= i < |shown| => AsLine(shown[i]));
      assert lines == seq(|head|, i requires 0 <= i < |head| => AsLine(head[i])) + tail;
    }
  }

  lemma {:induction false} LabelLinesInline(fields: seq<(string, string)>)
    ensures AllInline(LabelLines(fields))
    decreases |fields|
  {
    if fields != [] {
      LabelLinesInline(fields[1..]);
    }
  }

  /** The optional lines under an entry's header, in the order they are written. */
  function DetailFields(j: Job): seq<(string, string)> {
    [("Project:", j.project), ("Project Role:", j.projectRole), ("Project Description:", j.projectDescription),
     ("Project Environment:", j.projectEnvironment), ("Client:", j.client), ("Customer:", j.customer),
     ("Description:", j.description)]
  }

  /** The optional lines after the subsections. */
  function TechFields(j: Job): seq<(string, string)> {
    [("Key Technologies/Skills:", j.keyTechnologies), ("Environment:", j.environment)]
  }

  /** `"client - project"` when both are present, else whichever is present, else `'Client Project'`. */
  function ProjectTitle(p: ClientProject): (t: string)
    ensures t != ""
    ensures p.clientName != "" ==> StartsWith(t, p.clientName)
    ensures p.projectName != "" ==> EndsWith(t, p.projectName)
    ensures p.clientName == "" && p.projectName == "" ==> t == "Client Project"
  {
    if p.clientName != "" && p.projectName != "" then
      var t := p.clientName + " - " + p.projectName;
      assert t[..|p.clientName|] == p.clientName;
      assert t[|t| - |p.projectName|..] == p.projectName;
      t
    else OrElse(p.clientName, OrElse(p.projectName, "Client Project"))
  }

  /** One client project: its title, the period and the description when present, then a nested bullet
      per responsibility that is not blank. */
  function ProjectBlocks(p: ClientProject): seq<Block> {
    ProjectHead(p) + Bullets(1, NonBlank(p.responsibilities))
  }

  /** The title of a client project, then its period and its description when present. */
  function ProjectHead(p: ClientProject): seq<Block> {
    [Para(ProjectTitle(p), Bold)]
    + (if p.period != "" then [Para("Duration: " + p.period, Italic)] else [])
    + (if p.projectDescription != "" then [Para(p.projectDescription, Plain)] else [])
  }

  lemma ProjectHeadText(p: ClientProject)
    ensures forall b :: b in ProjectHead(p) ==> b.Para?
  {
    var title := [Para(ProjectTitle(p), Bold)];
    var period := if p.period != "" then [Para("Duration: " + p.period, Italic)] else [];
    var description := if p.projectDescription != "" then [Para(p.projectDescription, Plain)] else [];
    assert ProjectHead(p) == title + period + description;
    forall b | b in ProjectHead(p)
      ensures b.Para?
    {
      assert b in title || b in period || b in description;
    }
  }

  function ProjectsBlocks(ps: seq<ClientProject>): seq<Block> {
    if ps == [] then [] else ProjectBlocks(ps[0]) + ProjectsBlocks(ps[1..])
  }

  function ClientProjectBlocks(ps: seq<ClientProject>): seq<Block> {
    if ps == [] then [] else [Para("Client Projects:", Bold)] + ProjectsBlocks(ps)
  }

  lemma ProjectInline(p: ClientProject)
    ensures AllInline(ProjectBlocks(p))
  {
    ProjectHeadText(p);
    BulletsInline(1, NonBlank(p.responsibilities));
    InlineAppend(ProjectHead(p), Bullets(1, NonBlank(p.responsibilities)));
  }

  lemma {:induction false} ProjectsInline(ps: seq<ClientProject>)
    ensures AllInline(ProjectsBlocks(ps))
    decreases |ps|
  {
    if ps != [] {
      ProjectsInline(ps[1..]);
      ProjectInline(ps[0]);
      InlineAppend(ProjectBlocks(ps[0]), ProjectsBlocks(ps[1..]));
    }
  }

  /** The bullets of a client project are its non-blank responsibilities, nested one level. */
  lemma ProjectBullets(p: ClientProject)
    ensures Filter(ProjectBlocks(p), IsBullet) == Bullets(1, NonBlank(p.responsibilities))
  {
    ProjectHeadText(p);
    BulletsAfterText(ProjectHead(p), Bullets(1, NonBlank(p.responsibilities)));
  }

  /** Text paragraphs followed by bullets: the bullets are what the filter keeps. */
  lemma BulletsAfterText(head: seq<Block>, bullets: seq<Block>)
    requires forall b :: b in head ==> !IsBullet(b)
    requires forall b :: b in bullets ==> IsBullet(b)
    ensures Filter(head + bullets, IsBullet) == bullets
  {
    FilterMembers(head, IsBullet);
    FilterAll(bullets, IsBullet);
    FilterAppend(head, bullets, IsBullet);
  }

  /** `rs.some(r => r.trim())`. */
  predicate AnyText(rs: seq<string>) {
    exists i :: 0 <= i < |rs| && HasText(rs[i])
  }

  function ResponsibilityBlocks(rs: seq<string>): seq<Block> {
    if |rs| > 0 && AnyText(rs) then [Para("Responsibilities", Bold)] + Bullets(0, NonBlank(rs)) else []
  }

  /** The bullets of a labelled list are its non-blank items. */
  lemma LabelledBullets(caption: Block, xs: seq<string>)
    requires !caption.Bullet? && Inline(caption)
    ensures Filter([caption] + Bullets(0, NonBlank(xs)), IsBullet) == Bullets(0, NonBlank(xs))
    ensures AllInline([caption] + Bullets(0, NonBlank(xs)))
  {
    FilterAll(Bullets(0, NonBlank(xs)), IsBullet);
    FilterAppend([caption], Bullets(0, NonBlank(xs)), IsBullet);
    BulletsInline(0, NonBlank(xs));
    InlineAppend([caption], Bullets(0, NonBlank(xs)));
  }

  /** Some item has text exactly when the non-blank filter keeps one. */
  lemma AnyTextNonBlank(rs: seq<string>)
    ensures AnyText(rs) <==> NonBlank(rs) != []
  {
    FilterMembers(rs, HasText);
    if AnyText(rs) {
      var i :| 0 <= i < |rs| && HasText(rs[i]);
      assert rs[i] in NonBlank(rs);
    }
  }

  /** The responsibilities label appears exactly when some responsibility is not blank; the blank ones
      get no bullet. */
  lemma ResponsibilityRule(rs: seq<string>)
    ensures Para("Responsibilities", Bold) in ResponsibilityBlocks(rs) <==> NonBlank(rs) != []
    ensures Filter(ResponsibilityBlocks(rs), IsBullet) == Bullets(0, NonBlank(rs))
    ensures AllInline(ResponsibilityBlocks(rs))
  {
    AnyTextNonBlank(rs);
    if |rs| > 0 && AnyText(rs) {
      LabelledBullets(Para("Responsibilities", Bold), rs);
    }
  }

  /** A subsection with a title shows it, then a bullet per non-blank item; one without a title shows
      nothing, not even its items. */
  function SubsectionPart(s: Subsection): seq<Block> {
    if s.title != "" then [Para(s.title + ":", Bold)] + Bullets(0, NonBlank(s.content)) else []
  }

  function SubsectionBlocks(ss: seq<Subsection>): seq<Block> {
    if ss == [] then [] else SubsectionPart(ss[0]) + SubsectionBlocks(ss[1..])
  }

  lemma SubsectionRule(s: Subsection)
    ensures s.title == "" ==> SubsectionPart(s) == []
    ensures s.title != "" ==> Para(s.title + ":", Bold) in SubsectionPart(s)
    ensures Filter(SubsectionPart(s), IsBullet) == (if s.title == "" then [] else Bullets(0, NonBlank(s.content)))
  {
    if s.title != "" {
      LabelledBullets(Para(s.title + ":", Bold), s.content);
    }
  }

  lemma {:induction false} SubsectionsInline(ss: seq<Subsection>)
    ensures AllInline(SubsectionBlocks(ss))
    decreases |ss|
  {
    if ss != [] {
      SubsectionsInline(ss[1..]);
    }
  }

  function AchievementBlocks(a: seq<string>): seq<Block> {
    if a != [] then [Para("Achievements:", Bold)] + Bullets(0, NonBlank(a)) else []
  }

  /** The achievements label appears whenever the list is non-empty, even when every item is blank;
      only the non-blank items get a bullet. */
  lemma AchievementRule(a: seq<string>)
    ensures Para("Achievements:", Bold) in AchievementBlocks(a) <==> a != []
    ensures Filter(AchievementBlocks(a), IsBullet) == Bullets(0, NonBlank(a))
    ensures AllInline(AchievementBlocks(a))
  {
    if a != [] {
      LabelledBullets(Para("Achievements:", Bold), a);
    } else {
      assert NonBlank(a) == [];
    }
  }

  /** The three label rules side by side: a list of one blank responsibility shows nothing, a list of
      one blank achievement still shows its label, and a subsection without a title hides its items. */
  lemma LabelRulesDiffer()
    ensures ResponsibilityBlocks([" "]) == []
    ensures AchievementBlocks([" "]) == [Para("Achievements:", Bold)]
    ensures SubsectionBlocks([Subsection("", ["Led the migration"])]) == []
  {
    BlankResponsibilityHidden();
    BlankAchievementLabelled();
    UntitledSubsectionHidden();
  }

  lemma BlankResponsibilityHidden()
    ensures ResponsibilityBlocks([" "]) == []
  {
    BlankHasNoText();
  }

  lemma BlankAchievementLabelled()
    ensures AchievementBlocks([" "]) == [Para("Achievements:", Bold)]
  {
    BlankHasNoText();
    assert Bullets(0, NonBlank([" "])) == [];
  }

  lemma UntitledSubsectionHidden()
    ensures SubsectionBlocks([Subsection("", ["Led the migration"])]) == []
  {
    var ss := [Subsection("", ["Led the migration"])];
    assert SubsectionPart(ss[0]) == [];
    assert ss[1..] == [];
  }

  /** A single blank item: no text, so nothing survives the filter. */
  lemma BlankHasNoText()
    ensures NonBlank([" "]) == [] && !AnyText([" "])
  {
    var blank := [" "];
    assert !HasText(blank[0]) by {
      assert IsBlank(blank[0]);
    }
    assert Filter(blank[1..], HasText) == [];
  }

  /** The two header banners of an entry: company (or `'Company'`) with the period, then role (or
      `'Role'`) with the location. */
  function Banners(j: Job): seq<Block> {
    [Banner(OrElse(j.companyName, "Company"), j.workPeriod), Banner(OrElse(j.roleName, "Role"), j.location)]
  }

  /** Everything an entry shows below its banners. */
  function EntryBody(j: Job): seq<Block> {
    LabelLines(DetailFields(j)) + ClientProjectBlocks(j.clientProjects) + ResponsibilityBlocks(j.responsibilities)
    + SubsectionBlocks(j.subsections) + LabelLines(TechFields(j)) + AchievementBlocks(j.achievements)
  }

  lemma EntryBodyInline(j: Job)
    ensures AllInline(EntryBody(j))
  {
    LabelLinesInline(DetailFields(j));
    ProjectsInline(j.clientProjects);
    ResponsibilityRule(j.responsibilities);
    SubsectionsInline(j.subsections);
    LabelLinesInline(TechFields(j));
    AchievementRule(j.achievements);
  }

  /** Entry number `index`: a blank separator before every entry but the first, the banners, the body. */
  function JobBlocks(j: Job, index: nat): seq<Block> {
    (if index > 0 then [Blank] else []) + Banners(j) + EntryBody(j)
  }

  function JobsFrom(jobs: seq<Job>, k: nat): seq<Block>
    decreases |jobs| - k
  {
    if k >= |jobs| then [] else JobBlocks(jobs[k], k) + JobsFrom(jobs, k + 1)
  }

  /** `createEmploymentHistory`. */
  function EmploymentBlocks(jobs: seq<Job>): seq<Block> {
    if jobs == [] then [Para("No employment history", Plain)] else JobsFrom(jobs, 0)
  }

  /** The frame of entries `k..`: separators and banners only. */
  function FramesFrom(jobs: seq<Job>, k: nat): seq<Block>
    decreases |jobs| - k
  {
    if k >= |jobs| then [] else (if k > 0 then [Blank] else []) + Banners(jobs[k]) + FramesFrom(jobs, k + 1)
  }

  /** Frame blocks followed by text content: the frame is what the filter keeps. */
  lemma FramedBody(head: seq<Block>, body: seq<Block>)
    requires forall b :: b in head ==> IsFrame(b)
    requires AllInline(body)
    ensures Filter(head + body, IsFrame) == head
  {
    FilterAll(head, IsFrame);
    FilterMembers(body, IsFrame);
    FilterAppend(head, body, IsFrame);
  }

  lemma JobFrame(j: Job, index: nat)
    ensures Filter(JobBlocks(j, index), IsFrame) == (if index > 0 then [Blank] else []) + Banners(j)
  {
    EntryBodyInline(j);
    FramedBody((if index > 0 then [Blank] else []) + Banners(j), EntryBody(j));
  }

  lemma {:induction false} FramesFromJobs(jobs: seq<Job>, k: nat)
    ensures Filter(JobsFrom(jobs, k), IsFrame) == FramesFrom(jobs, k)
    decreases |jobs| - k
  {
    if k < |jobs| {
      JobFrame(jobs[k], k);
      FramesFromJobs(jobs, k + 1);
      FilterAppend(JobBlocks(jobs[k], k), JobsFrom(jobs, k + 1), IsFrame);
    }
  }

  /** The entries appear in order, each framed by its company and role banners, with one blank separator
      before every entry but the first; no entries give the single 'No employment history' paragraph. */
  lemma EmploymentFrame(jobs: seq<Job>)
    ensures jobs != [] ==> Filter(EmploymentBlocks(jobs), IsFrame) == FramesFrom(jobs, 0)
    ensures jobs == [] ==> EmploymentBlocks(jobs) == [Para("No employment history", Plain)]
  {
    if jobs != [] {
      FramesFromJobs(jobs, 0);
    }
  }

  /** From entry `k` on, the frame holds two banners per entry and a separator per entry after the
      first: `n` entries are separated by `n - 1` blanks. */
  lemma {:induction false} FramesCount(jobs: seq<Job>, k: nat)
    requires k <= |jobs|
    ensures |FramesFrom(jobs, k)| == 2 * (|jobs| - k) + (if k == 0 && jobs != [] then |jobs| - 1 else |jobs| - k)
    ensures forall b :: b in FramesFrom(jobs, k) && b.Banner? ==> exists i :: k <= i < |jobs| && b in Banners(jobs[i])
    decreases |jobs| - k
  {
    if k < |jobs| {
      FramesCount(jobs, k + 1);
    }
  }

  // ---------------------------------------------------------------- technical skills

  function LegacyLines(groups: seq<SkillGroup>): (r: seq<Block>)
    ensures |r| == |groups|
  {
    seq(|groups|, i requires 0 <= i < |groups| => Line(groups[i].category + ": ", Join(groups[i].skills, ", ")))
  }

  /** A category line, then one indented line per subcategory. */
  function CategoryPart(c: SkillCategory): (r: seq<Block>)
    ensures |r| == 1 + |c.subCategories|
  {
    [Line(OrElse(c.categoryName, "Category") + ": ", Join(c.skills, ", "))]
    + seq(|c.subCategories|, k requires 0 <= k < |c.subCategories| =>
        Indented(OrElse(c.subCategories[k].name, "Subcategory") + ": ", Join(c.subCategories[k].skills, ", ")))
  }

  /** The number of lines the categories take: one each, plus one per subcategory. */
  function CategoryLineCount(cs: seq<SkillCategory>): nat {
    if cs == [] then 0 else 1 + |cs[0].subCategories| + CategoryLineCount(cs[1..])
  }

  function CategoryLines(cs: seq<SkillCategory>): (r: seq<Block>)
    ensures |r| == CategoryLineCount(cs)
  {
    if cs == [] then [] else CategoryPart(cs[0]) + CategoryLines(cs[1..])
  }

  /** A skills line: a caption and the joined skills, indented or not. */
  predicate IsSkillLine(b: Block) {
    b.Line? || b.Indented?
  }

  lemma {:induction false} CategoryLinesAreLines(cs: seq<SkillCategory>)
    ensures forall b :: b in CategoryLines(cs) ==> IsSkillLine(b)
    decreases |cs|
  {
    if cs != [] {
      CategoryLinesAreLines(cs[1..]);
      assert CategoryLines(cs) == CategoryPart(cs[0]) + CategoryLines(cs[1..]);
    }
  }

  /** `createTechnicalSkills`. */
  function SkillBlocks(r: Resume): seq<Block> {
    var lines := LegacyLines(r.technicalSkills) + CategoryLines(r.skillCategories);
    if lines == [] then [Para("No skills provided", Plain)] else lines
  }

  /** The legacy groups come first, one line each, then a line per category and per subcategory;
      'No skills provided' appears exactly when both collections are empty. */
  lemma SkillsShape(r: Resume)
    ensures var out := SkillBlocks(r);
      && |out| == (if r.technicalSkills == [] && r.skillCategories == [] then 1
                   else |r.technicalSkills| + CategoryLineCount(r.skillCategories))
      && (Para("No skills provided", Plain) in out <==> r.technicalSkills == [] && r.skillCategories == [])
      && (forall i :: 0 <= i < |r.technicalSkills| ==>
            out[i] == Line(r.technicalSkills[i].category + ": ", Join(r.technicalSkills[i].skills, ", ")))
      && AllInline(out)
  {
    var legacy := LegacyLines(r.technicalSkills);
    var lines := legacy + CategoryLines(r.skillCategories);
    CategoryLinesAreLines(r.skillCategories);
    assert forall b :: b in legacy ==> IsSkillLine(b);
    assert forall b :: b in lines ==> IsSkillLine(b);
    if r.skillCategories != [] {
      assert CategoryLineCount(r.skillCategories) >= 1;
    }
  }

  // ---------------------------------------------------------------- the document

  /** The one-row table under the name: the title and the requisition number, each after its label. */
  function TitleTable(r: Resume): Block {
    Table([[Cell(["Title/Role: ", r.title], 1), Cell(["VectorVMS Requisition Number: ", r.requisitionNumber], 1)]])
  }

  /** Each summary section as its title (possibly empty) and a bullet per item, blank items included. */
  function SummaryBlocks(ss: seq<Subsection>): seq<Block> {
    if ss == [] then [] else [Para(ss[0].title, Bold)] + Bullets(0, ss[0].content) + SummaryBlocks(ss[1..])
  }

  lemma {:induction false} SummaryInline(ss: seq<Subsection>)
    ensures AllInline(SummaryBlocks(ss))
    decreases |ss|
  {
    if ss != [] {
      SummaryInline(ss[1..]);
    }
  }

  /** The blocks before the employment heading. */
  function Head(r: Resume): seq<Block> {
    [Para(OrElse(r.name, "Full Name"), Bold), TitleTable(r),
     Heading("Education:"), EducationTable(r.education),
     Heading("Certifications and Certificates:"), CertificationsTable(r.certifications)]
  }

  /** The blocks from the employment heading on. */
  function Tail(r: Resume): seq<Block> {
    [Heading("Employment History:")] + EmploymentBlocks(r.employmentHistory)
    + [Heading("Professional Summary")] + Bullets(0, r.professionalSummary) + SummaryBlocks(r.summarySections)
    + [Heading("Technical Skills")] + SkillBlocks(r)
  }

  /** The `children` of the document `handleDownloadWord` builds. The summary sections are taken from
      `summarySections`: `summarySections || subsections` never reaches `subsections`, since an array,
      even an empty one, is truthy. */
  function WordDocument(r: Resume): seq<Block> {
    Head(r) + Tail(r)
  }

  /** The file the document is saved as. */
  function FileName(r: Resume): (f: string)
    ensures EndsWith(f, ".docx")
    ensures r.name != "" ==> StartsWith(f, r.name)
    ensures r.name == "" ==> f == "Resume.docx"
  {
    var f := OrElse(r.name, "Resume") + ".docx";
    assert f[|f| - 5..] == ".docx";
    assert r.name != "" ==> f[..|r.name|] == r.name;
    f
  }

  /** The document opens with the name (or 'Full Name') in bold and the title table. */
  lemma DocumentStart(r: Resume)
    ensures |WordDocument(r)| > 2
    ensures WordDocument(r)[0] == Para(OrElse(r.name, "Full Name"), Bold) && WordDocument(r)[1] == TitleTable(r)
  {
  }

  lemma {:induction false} JobsFromInline(jobs: seq<Job>, k: nat)
    ensures forall b :: b in JobsFrom(jobs, k) ==> !b.Heading?
    decreases |jobs| - k
  {
    if k < |jobs| {
      JobsFromInline(jobs, k + 1);
      EntryBodyInline(jobs[k]);
      assert JobBlocks(jobs[k], k) == ((if k > 0 then [Blank] else []) + Banners(jobs[k])) + EntryBody(jobs[k]);
    }
  }

  /** No section heading occurs inside the employment history. */
  lemma EmploymentNoHeadings(jobs: seq<Job>)
    ensures Filter(EmploymentBlocks(jobs), IsHeading) == []
  {
    if jobs != [] {
      JobsFromInline(jobs, 0);
    }
    FilterMembers(EmploymentBlocks(jobs), IsHeading);
  }

  lemma HeadHeadings(r: Resume)
    ensures Filter(Head(r), IsHeading) == [Heading("Education:"), Heading("Certifications and Certificates:")]
  {
    var h := Head(r);
    assert h == [h[0], h[1]] + [h[2]] + [h[3]] + [h[4]] + [h[5]];
    FilterMembers([h[0], h[1]], IsHeading);
    FilterAppend([h[0], h[1]], [h[2]], IsHeading);
    FilterAppend([h[0], h[1]] + [h[2]], [h[3]], IsHeading);
    FilterAppend([h[0], h[1]] + [h[2]] + [h[3]], [h[4]], IsHeading);
    FilterAppend([h[0], h[1]] + [h[2]] + [h[3]] + [h[4]], [h[5]], IsHeading);
  }

  lemma SummaryNoHeadings(r: Resume)
    ensures Filter(Bullets(0, r.professionalSummary) + SummaryBlocks(r.summarySections), IsHeading) == []
  {
    BulletsInline(0, r.professionalSummary);
    SummaryInline(r.summarySections);
    InlineAppend(Bullets(0, r.professionalSummary), SummaryBlocks(r.summarySections));
    FilterMembers(Bullets(0, r.professionalSummary) + SummaryBlocks(r.summarySections), IsHeading);
  }

  lemma SkillsNoHeadings(r: Resume)
    ensures Filter(SkillBlocks(r), IsHeading) == []
  {
    SkillsShape(r);
    FilterMembers(SkillBlocks(r), IsHeading);
  }

  /** Three headings, each followed by parts without headings, as the tail of the document lays them
      out. */
  lemma ThreeSections(h1: Block, e: seq<Block>, h2: Block, b: seq<Block>, s: seq<Block>, h3: Block, k: seq<Block>)
    requires h1.Heading? && h2.Heading? && h3.Heading?
    requires Filter(e, IsHeading) == [] && Filter(b + s, IsHeading) == [] && Filter(k, IsHeading) == []
    ensures Filter([h1] + e + [h2] + b + s + [h3] + k, IsHeading) == [h1, h2, h3]
  {
    FilterAppend([h1], e, IsHeading);
    FilterAppend([h1] + e, [h2], IsHeading);
    FilterAppend([h1] + e + [h2], b + s, IsHeading);
    assert [h1] + e + [h2] + b + s == ([h1] + e + [h2]) + (b + s);
    FilterAppend([h1] + e + [h2] + b + s, [h3], IsHeading);
    FilterAppend([h1] + e + [h2] + b + s + [h3], k, IsHeading);
  }

  lemma TailHeadings(r: Resume)
    ensures Filter(Tail(r), IsHeading) ==
      [Heading("Employment History:"), Heading("Professional Summary"), Heading("Technical Skills")]
  {
    EmploymentNoHeadings(r.employmentHistory);
    SummaryNoHeadings(r);
    SkillsNoHeadings(r);
    ThreeSections(Heading("Employment History:"), EmploymentBlocks(r.employmentHistory),
                  Heading("Professional Summary"), Bullets(0, r.professionalSummary), SummaryBlocks(r.summarySections),
                  Heading("Technical Skills"), SkillBlocks(r));
  }

  /** The section headings of the document, in order: education, certifications, employment history,
      professional summary, technical skills. */
  lemma DocumentHeadings(r: Resume)
    ensures Filter(WordDocument(r), IsHeading) == [
      Heading("Education:"), Heading("Certifications and Certificates:"), Heading("Employment History:"),
      Heading("Professional Summary"), Heading("Technical Skills")]
  {
    HeadHeadings(r);
    TailHeadings(r);
    FilterAppend(Head(r), Tail(r), IsHeading);
  }

  /** Right after the 'Professional Summary' heading come the summary points as bullets, all of them,
      blank ones included. */
  lemma SummaryUnfiltered(r: Resume)
    ensures var d := WordDocument(r); var ps := r.professionalSummary;
      exists k :: 0 <= k && k + 1 + |ps| <= |d| && d[k] == Heading("Professional Summary")
        && d[k + 1..k + 1 + |ps|] == Bullets(0, ps)
  {
    var ps := r.professionalSummary;
    var a := [Heading("Employment History:")] + EmploymentBlocks(r.employmentHistory);
    var m := Heading("Professional Summary");
    var rest := SummaryBlocks(r.summarySections) + [Heading("Technical Skills")] + SkillBlocks(r);
    Regroup(Head(r), a, m, Bullets(0, ps), SummaryBlocks(r.summarySections), [Heading("Technical Skills")],
      SkillBlocks(r));
    var before := Head(r) + a;
    MarkedRun(before, m, Bullets(0, ps), rest);
    var d, k := WordDocument(r), |before|;
    assert d[k] == m && d[k + 1..k + 1 + |ps|] == Bullets(0, ps);
  }

  /** `h + (a + [m] + b + s + t + u)` regrouped around the mark `m`. */
  lemma Regroup<T>(h: seq<T>, a: seq<T>, m: T, b: seq<T>, s: seq<T>, t: seq<T>, u: seq<T>)
    ensures h + (a + [m] + b + s + t + u) == (h + a) + [m] + b + (s + t + u)
  {
  }

  /** In `before + [mark] + run + after`, the mark sits at `|before|` and the run follows it. */
  lemma MarkedRun<T>(before: seq<T>, mark: T, run: seq<T>, after: seq<T>)
    ensures var d := before + [mark] + run + after; var k := |before|;
      k + 1 + |run| <= |d| && d[k] == mark && d[k + 1..k + 1 + |run|] == run
  {
    var d := before + [mark] + run + after;
    assert d == before + ([mark] + run + after);
    assert d[|before| + 1..] == run + after;
  }
}

=== FILE: encode.dfy ===
/** The typed résumé record written out as the JSON object the rest of the application passes around,
    property names and order as the normaliser writes them. Every such object is a fixed point of the
    normaliser. The converse does not hold: the normaliser also leaves unchanged a text property holding a
    number, a `wasAwarded` that is not a boolean, and an `additionalFields` that is not `{}`, none of
    which an encoded record has. */
module Encoding {
  import opened Base
  import opened JsonModel
  import opened Records
  import opened Normalise

  /** A list of texts as a JSON array of strings. */
  function Texts(xs: seq<string>): (r: Json)
    ensures r.Arr? && |r.items| == |xs| && forall i :: 0 <= i < |xs| ==> r.items[i] == Str(xs[i])
  {
    Arr(seq(|xs|, i requires 0 <= i < |xs| => Str(xs[i])))
  }

  function SubsectionValues(s: Subsection): seq<Json> {
    [Str(s.title), Texts(s.content)]
  }

  function EncodeSubsection(s: Subsection): JsonObject {
    LeafSchemasWellFormed();
    Fields(SubsectionSchema.keys, SubsectionValues(s))
  }

  function ProjectValues(p: ClientProject): seq<Json> {
    [Str(p.clientName), Str(p.projectName), Str(p.projectDescription), Texts(p.responsibilities), Str(p.period)]
  }

  function EncodeProject(p: ClientProject): JsonObject {
    LeafSchemasWellFormed();
    Fields(ProjectSchema.keys, ProjectValues(p))
  }

  function EncodeProjects(ps: seq<ClientProject>): (r: Json)
    ensures r.Arr? && |r.items| == |ps| && forall i :: 0 <= i < |ps| ==> r.items[i] == EncodeProject(ps[i])
  {
    Arr(seq(|ps|, i requires 0 <= i < |ps| => EncodeProject(ps[i])))
  }

  function EncodeSubsections(ss: seq<Subsection>): (r: Json)
    ensures r.Arr? && |r.items| == |ss| && forall i :: 0 <= i < |ss| ==> r.items[i] == EncodeSubsection(ss[i])
  {
    Arr(seq(|ss|, i requires 0 <= i < |ss| => EncodeSubsection(ss[i])))
  }

  /** The eighteen normalised properties of an employment entry; the typed entry has no
      `additionalFields`, which is written as `{}`. */
  function JobValues(j: Job): seq<Json> {
    [Str(j.companyName), Str(j.roleName), Str(j.workPeriod), Str(j.location), Str(j.description),
     Str(j.project), Str(j.customer), Str(j.projectRole), Str(j.projectDescription), Str(j.projectEnvironment),
     Texts(j.responsibilities), Str(j.client), EncodeProjects(j.clientProjects), EncodeSubsections(j.subsections),
     Str(j.keyTechnologies), Str(j.environment), Texts(j.achievements), EmptyObj]
  }

  function EncodeJob(j: Job): JsonObject {
    JobKeysDistinct();
    Fields(JobSchema.keys, JobValues(j))
  }

  function EducationValues(e: Education): seq<Json> {
    [Str(e.degree), Str(e.areaOfStudy), Str(e.school), Str(e.location), Str(e.date), Bool(e.wasAwarded)]
  }

  function EncodeEducation(e: Education): JsonObject {
    LeafSchemasWellFormed();
    Fields(EducationSchema.keys, EducationValues(e))
  }

  function CertificationValues(c: Certification): seq<Json> {
    [Str(c.name), Str(c.issuedBy), Str(c.dateObtained), Str(c.certificationNumber), Str(c.expirationDate)]
  }

  function EncodeCertification(c: Certification): JsonObject {
    LeafSchemasWellFormed();
    Fields(CertificationSchema.keys, CertificationValues(c))
  }

  function EncodeSubcategory(s: SkillSubcategory): JsonObject {
    LeafSchemasWellFormed();
    Fields(SubcategorySchema.keys, [Str(s.name), Texts(s.skills)])
  }

  function EncodeSubcategories(ss: seq<SkillSubcategory>): (r: Json)
    ensures r.Arr? && |r.items| == |ss| && forall i :: 0 <= i < |ss| ==> r.items[i] == EncodeSubcategory(ss[i])
  {
    Arr(seq(|ss|, i requires 0 <= i < |ss| => EncodeSubcategory(ss[i])))
  }

  function CategoryValues(c: SkillCategory): seq<Json> {
    [Str(c.categoryName), Texts(c.skills), EncodeSubcategories(c.subCategories)]
  }

  function EncodeCategory(c: SkillCategory): JsonObject {
    CategorySchemaWellFormed();
    Fields(CategorySchema.keys, CategoryValues(c))
  }

  /** The legacy skills object: one property per category, in order. */
  function EncodeSkills(groups: seq<SkillGroup>): JsonObject
    requires Distinct(Categories(groups))
  {
    Fields(Categories(groups), seq(|groups|, i requires 0 <= i < |groups| => Texts(groups[i].skills)))
  }

  function EncodeJobs(js: seq<Job>): (r: Json)
    ensures r.Arr? && |r.items| == |js| && forall i :: 0 <= i < |js| ==> r.items[i] == EncodeJob(js[i])
  {
    Arr(seq(|js|, i requires 0 <= i < |js| => EncodeJob(js[i])))
  }

  function EncodeEducations(es: seq<Education>): (r: Json)
    ensures r.Arr? && |r.items| == |es| && forall i :: 0 <= i < |es| ==> r.items[i] == EncodeEducation(es[i])
  {
    Arr(seq(|es|, i requires 0 <= i < |es| => EncodeEducation(es[i])))
  }

  function EncodeCertifications(cs: seq<Certification>): (r: Json)
    ensures r.Arr? && |r.items| == |cs| && forall i :: 0 <= i < |cs| ==> r.items[i] == EncodeCertification(cs[i])
  {
    Arr(seq(|cs|, i requires 0 <= i < |cs| => EncodeCertification(cs[i])))
  }

  function EncodeCategories(cs: seq<SkillCategory>): (r: Json)
    ensures r.Arr? && |r.items| == |cs| && forall i :: 0 <= i < |cs| ==> r.items[i] == EncodeCategory(cs[i])
  {
    Arr(seq(|cs|, i requires 0 <= i < |cs| => EncodeCategory(cs[i])))
  }

  function EncodeFields(r: Resume): ResumeFields
    requires Valid(r)
  {
    ResumeFields(
      Str(r.name), Str(r.title), Str(r.requisitionNumber), Texts(r.professionalSummary),
      EncodeSubsections(r.summarySections), EncodeSubsections(r.subsections),
      EncodeJobs(r.employmentHistory), EncodeEducations(r.education), EncodeCertifications(r.certifications),
      EncodeSkills(r.technicalSkills), EncodeCategories(r.skillCategories))
  }

  /** The record as a JSON object; `missingPoints` travels beside it and is not written. */
  function Encode(r: Resume): (j: Json)
    requires Valid(r)
    ensures j.Obj? && j.keys == ResumeKeys
  {
    ResumeObject(EncodeFields(r))
  }

  /** An object literal whose every property has its rule's shape has the schema's shape. */
  lemma FieldsConform(s: Schema, vs: seq<Json>)
    requires WellFormed(s) && |vs| == |s.keys|
    requires forall i :: 0 <= i < |vs| ==> Conforms(s.rules[i], vs[i])
    ensures RecordConforms(s, Fields(s.keys, vs))
  {
    SlotsFields(s, vs);
    forall i | 0 <= i < |vs|
      ensures Conforms(s.rules[i], Get(Fields(s.keys, vs), s.keys[i]))
    {
      GetFields(s.keys, vs, i);
    }
  }

  lemma SubsectionsConform(ss: seq<Subsection>)
    ensures (LeafSchemasWellFormed(); Conforms(Each(SubsectionSchema), EncodeSubsections(ss)))
  {
    LeafSchemasWellFormed();
    forall i | 0 <= i < |ss|
      ensures RecordConforms(SubsectionSchema, EncodeSubsection(ss[i]))
    {
      FieldsConform(SubsectionSchema, SubsectionValues(ss[i]));
    }
  }

  lemma ProjectsConform(ps: seq<ClientProject>)
    ensures (LeafSchemasWellFormed(); Conforms(Each(ProjectSchema), EncodeProjects(ps)))
  {
    LeafSchemasWellFormed();
    forall i | 0 <= i < |ps|
      ensures RecordConforms(ProjectSchema, EncodeProject(ps[i]))
    {
      FieldsConform(ProjectSchema, ProjectValues(ps[i]));
    }
  }

  /** Property `i` of an encoded employment entry, other than the two lists of records, has the shape of
      rule `i`. */
  lemma JobConformsAt(j: Job, i: nat)
    requires i < |JobSchema.rules| && i != 12 && i != 13
    ensures JobSchema.rules[i] != Each(ProjectSchema) && JobSchema.rules[i] != Each(SubsectionSchema)
    ensures !JobSchema.rules[i].Each? && Conforms(JobSchema.rules[i], JobValues(j)[i])
  {
    if i == 0 { assert JobSchema.rules[0] == Text; }
    else if i == 1 { assert JobSchema.rules[1] == Text; }
    else if i == 2 { assert JobSchema.rules[2] == Text; }
    else if i == 3 { assert JobSchema.rules[3] == Text; }
    else if i == 4 { assert JobSchema.rules[4] == Text; }
    else if i == 5 { assert JobSchema.rules[5] == Text; }
    else if i == 6 { assert JobSchema.rules[6] == Text; }
    else if i == 7 { assert JobSchema.rules[7] == Text; }
    else if i == 8 { assert JobSchema.rules[8] == Text; }
    else if i == 9 { assert JobSchema.rules[9] == Text; }
    else if i == 10 { assert JobSchema.rules[10] == Wrap; }
    else if i == 11 { assert JobSchema.rules[11] == Text; }
    else if i == 14 { assert JobSchema.rules[14] == Text; }
    else if i == 15 { assert JobSchema.rules[15] == Text; }
    else if i == 16 { assert JobSchema.rules[16] == List; }
    else if i == 17 { assert JobSchema.rules[17] == ObjectDefault; }
  }

  lemma JobListsAt(j: Job)
    ensures JobSchema.rules[12] == Each(ProjectSchema) && JobValues(j)[12] == EncodeProjects(j.clientProjects)
    ensures JobSchema.rules[13] == Each(SubsectionSchema) && JobValues(j)[13] == EncodeSubsections(j.subsections)
  {
  }

  lemma JobConforms(j: Job)
    ensures (JobSchemaWellFormed(); RecordConforms(JobSchema, EncodeJob(j)))
  {
    ProjectsConform(j.clientProjects);
    SubsectionsConform(j.subsections);
    JobListsAt(j);
    JobSchemaWellFormed();
    forall i | 0 <= i < |JobSchema.rules|
      ensures Conforms(JobSchema.rules[i], JobValues(j)[i])
    {
      if i != 12 && i != 13 {
        JobConformsAt(j, i);
      }
    }
    FieldsConform(JobSchema, JobValues(j));
  }

  lemma JobsConform(js: seq<Job>)
    ensures (JobSchemaWellFormed(); Conforms(Each(JobSchema), EncodeJobs(js)))
  {
    JobSchemaWellFormed();
    forall i | 0 <= i < |js|
      ensures RecordConforms(JobSchema, EncodeJob(js[i]))
    {
      JobConforms(js[i]);
    }
  }

  lemma EducationsConform(es: seq<Education>)
    ensures (LeafSchemasWellFormed(); Conforms(Each(EducationSchema), EncodeEducations(es)))
  {
    LeafSchemasWellFormed();
    forall i | 0 <= i < |es|
      ensures RecordConforms(EducationSchema, EncodeEducation(es[i]))
    {
      FieldsConform(EducationSchema, EducationValues(es[i]));
    }
  }

  lemma CertificationsConform(cs: seq<Certification>)
    ensures (LeafSchemasWellFormed(); Conforms(Each(CertificationSchema), EncodeCertifications(cs)))
  {
    LeafSchemasWellFormed();
    forall i | 0 <= i < |cs|
      ensures RecordConforms(CertificationSchema, EncodeCertification(cs[i]))
    {
      FieldsConform(CertificationSchema, CertificationValues(cs[i]));
    }
  }

  lemma SubcategoryConforms(sc: SkillSubcategory)
    ensures (LeafSchemasWellFormed(); RecordConforms(SubcategorySchema, EncodeSubcategory(sc)))
  {
    LeafSchemasWellFormed();
    FieldsConform(SubcategorySchema, [Str(sc.name), Texts(sc.skills)]);
  }

  lemma SubcategoriesConform(ss: seq<SkillSubcategory>)
    ensures (LeafSchemasWellFormed(); Conforms(Each(SubcategorySchema), EncodeSubcategories(ss)))
  {
    LeafSchemasWellFormed();
    forall k | 0 <= k < |ss|
      ensures RecordConforms(SubcategorySchema, EncodeSubcategory(ss[k]))
    {
      SubcategoryConforms(ss[k]);
    }
  }

  lemma CategoryConforms(c: SkillCategory)
    ensures (CategorySchemaWellFormed(); RecordConforms(CategorySchema, EncodeCategory(c)))
  {
    CategorySchemaWellFormed();
    SubcategoriesConform(c.subCategories);
    FieldsConform(CategorySchema, CategoryValues(c));
  }

  lemma CategoriesConform(cs: seq<SkillCategory>)
    ensures (CategorySchemaWellFormed(); Conforms(Each(CategorySchema), EncodeCategories(cs)))
  {
    CategorySchemaWellFormed();
    forall i | 0 <= i < |cs|
      ensures RecordConforms(CategorySchema, EncodeCategory(cs[i]))
    {
      CategoryConforms(cs[i]);
    }
  }

  /** Every property of an encoded record has the shape the normaliser gives it. */
  lemma EncodeNormal(r: Resume)
    requires Valid(r)
    ensures Normal(EncodeFields(r))
  {
    SubsectionsConform(r.summarySections);
    JobsConform(r.employmentHistory);
    EducationsConform(r.education);
    CertificationsConform(r.certifications);
    CategoriesConform(r.skillCategories);
  }

  /** The normaliser returns an encoded record unchanged. */
  lemma EncodeFixed(r: Resume)
    requires Valid(r)
    ensures Sanitize(Encode(r)) == Encode(r)
  {
    EncodeNormal(r);
    SanitizeFixed(EncodeFields(r));
  }
}

=== FILE: events.dfy ===
/** The bookkeeping `handleStreamingEvent` does for each parsed server event: progress, the status
    message, the detected and completed sections, the error, and the records handed to the parent. The
    values the server sends are JSON values and are stored as they come, with the component's
    defaults. */
module StreamEvents {
  import opened Base
  import opened Strings
  import opened JsonModel
  import opened Normalise

  /** The component state the reducer writes. `delivered` lists, in order, the records passed to
      `onResumeDataExtracted`. */
  datatype StreamState = StreamState(
    progress: Json,
    message: Json,
    detected: Json,
    completed: seq<Json>,
    error: Json,
    delivered: seq<Json>)

  /** The state right after a streaming upload starts: everything reset. */
  const Initial: StreamState := StreamState(Num(0), Str(""), Arr([]), [], Str(""), [])

  const Done: string := "Processing complete! \U{1F389}"

  /** The number `>` and `+` turn a value of `length` into: `null` is 0, a boolean 0 or 1, and `undefined`
      is `NaN` (`None`). A string, array or object value is not modelled and is also taken as `NaN`. */
  function NumberOf(l: Json): Option<int> {
    match l
    case Num(n) => Some(n)
    case Null => Some(0)
    case Bool(b) => Some(if b then 1 else 0)
    case _ => None
  }

  /** `v.length`: `None` when it throws (`v` is `null` or `undefined`); `Some(None)` when the result, as
      a number, is `NaN`. */
  function LengthOf(v: Json): Option<Option<int>> {
    match v
    case Undef => None
    case Null => None
    case Str(s) => Some(Some(|s|))
    case Arr(xs) => Some(Some(|xs|))
    case Obj(_, _) => Some(NumberOf(Get(v, "length")))
    case _ => Some(None)
  }

  /** `a > 0` for a length that may be `NaN`. */
  predicate Positive(n: Option<int>) {
    n.Some? && n.value > 0
  }

  /** `${a + b}` for two lengths: a `NaN` on either side makes the sum `NaN`. */
  function SumText(a: Option<int>, b: Option<int>): string {
    if a.Some? && b.Some? then IntToString(a.value + b.value) else "NaN"
  }

  /** The note for two counts read as numbers: their sum when one of them is positive, and nothing
      otherwise. */
  function CountNote(a: Option<int>, b: Option<int>): (r: string)
    ensures r == "" <==> !Positive(a) && !Positive(b)
    ensures a == None && Positive(b) ==> r == " (Found NaN missing points)"
  {
    if Positive(a) || Positive(b) then " (Found " + SumText(a, b) + " missing points)" else ""
  }

  /** What the status message after `final_data` adds to the completion message: the number of missing
      points when there are any and both counts could be read, and nothing otherwise. */
  function MissingNote(data: Json): string {
    var points := Get(data, "missingPoints");
    if !Truthy(Get(data, "data")) || !Truthy(points) then ""
    else match (LengthOf(Get(points, "summary")), LengthOf(Get(points, "experience")))
      case (Some(a), Some(b)) => CountNote(a, b)
      case _ => ""
  }

  /** The status message after `final_data`. */
  function FinalMessage(data: Json): string {
    Done + MissingNote(data)
  }

  /** The record `final_data` hands to the parent: `None` when `data` is falsy or reading the counts of
      truthy missing points throws. */
  function Handover(data: Json): Option<Json> {
    var payload := Get(data, "data");
    var points := Get(data, "missingPoints");
    if !Truthy(payload) then None
    else if !Truthy(points) then Some(Sanitize(payload))
    else if LengthOf(Get(points, "summary")).Some? && LengthOf(Get(points, "experience")).Some? then
      Some(SetProp(Sanitize(payload), "missingPoints", points))
    else None
  }

  /** The `final_data` case. Progress and message are set first; a throw while counting the missing
      points leaves them set and hands nothing over. */
  function FinalData(s: StreamState, data: Json): StreamState {
    var h := Handover(data);
    s.(progress := Num(100), message := Str(FinalMessage(data)),
       delivered := if h.Some? then s.delivered + [h.value] else s.delivered)
  }

  /** `handleStreamingEvent(data)`. Reading `type` of `null` throws before anything changes; the throw is
      swallowed by the caller. An unknown type changes nothing. */
  function Reduce(s: StreamState, data: Json): StreamState {
    if Nullish(data) then s
    else
      var kind := Get(data, "type");
      var msg := Get(data, "message");
      var progress := Get(data, "progress");
      var section := Get(data, "section");
      if kind == Str("connection") then s.(message := Str("Connected to streaming server"))
      else if kind == Str("progress") then s.(progress := Or(progress, Num(0)), message := OrEmpty(msg))
      else if kind == Str("sections_detected") then
        s.(detected := Or(Get(data, "sections"), Arr([])), message := OrEmpty(msg), progress := Or(progress, Num(40)))
      else if kind == Str("section_processing") then s.(message := OrEmpty(msg), progress := Or(progress, Num(50)))
      else if kind == Str("section_skip") then
        var s1 := s.(message := Str("Skipping " + ToJsString(section) + " section - " + ToJsString(msg)));
        if section == Str("certifications") then s1.(completed := s.completed + [section]) else s1
      else if kind == Str("section_complete") then
        s.(completed := s.completed + [section], message := OrEmpty(msg), progress := Or(progress, Num(70)))
      else if kind == Str("final_data") then FinalData(s, data)
      else if kind == Str("error") then s.(error := Or(msg, Str("Unknown streaming error")))
      else s
  }

  /** Events handled one after another. */
  function Run(s: StreamState, events: seq<Json>): StreamState
    decreases |events|
  {
    if events == [] then s else Run(Reduce(s, events[0]), events[1..])
  }

  /** What an event adds to the completed sections: its section for `section_complete`, and for
      `section_skip` only when the skipped section is the certifications. */
  function Completion(data: Json): seq<Json> {
    var kind := Get(data, "type");
    var section := Get(data, "section");
    if kind == Str("section_complete") || (kind == Str("section_skip") && section == Str("certifications"))
    then [section] else []
  }

  function Completions(events: seq<Json>): seq<Json>
    decreases |events|
  {
    if events == [] then [] else Completion(events[0]) + Completions(events[1..])
  }

  /** One event appends its completion to the completed sections and removes nothing. */
  lemma ReduceCompleted(s: StreamState, data: Json)
    ensures Reduce(s, data).completed == s.completed + Completion(data)
  {
    if Nullish(data) {
      assert Get(data, "type") == Undef;
    }
  }

  /** Over a run, the completed sections are the earlier ones followed by the completions of the events,
      in event order. */
  lemma {:induction false} RunCompleted(s: StreamState, events: seq<Json>)
    ensures Run(s, events).completed == s.completed + Completions(events)
    decreases |events|
  {
    if events != [] {
      ReduceCompleted(s, events[0]);
      RunCompleted(Reduce(s, events[0]), events[1..]);
    }
  }

  /** Only an `error` event sets the error, and it always sets something truthy. */
  lemma ErrorOnlyFromErrorEvents(s: StreamState, data: Json)
    ensures Reduce(s, data).error != s.error ==> Get(data, "type") == Str("error")
    ensures Get(data, "type") == Str("error") ==> Truthy(Reduce(s, data).error)
  {
  }

  /** A `final_data` event is handled by `FinalData`, and no other event changes the delivered records. */
  lemma ReduceDispatch(s: StreamState, data: Json)
    ensures Get(data, "type") == Str("final_data") ==> Reduce(s, data) == FinalData(s, data)
    ensures Get(data, "type") != Str("final_data") ==> Reduce(s, data).delivered == s.delivered
  {
    if Nullish(data) {
      assert Get(data, "type") == Undef;
    }
  }

  lemma PrefixOfAppend(a: string, b: string)
    ensures StartsWith(a + b, a)
  {
    assert (a + b)[..|a|] == a;
  }

  /** A `final_data` event always brings progress to 100 and a completion message. */
  lemma FinalDataCompletes(s: StreamState, data: Json)
    requires Get(data, "type") == Str("final_data")
    ensures Reduce(s, data).progress == Num(100)
    ensures Reduce(s, data).message.Str? && StartsWith(Reduce(s, data).message.s, Done)
  {
    ReduceDispatch(s, data);
    FinalMessageStarts(data);
  }

  lemma FinalMessageStarts(data: Json)
    ensures StartsWith(FinalMessage(data), Done)
  {
    PrefixOfAppend(Done, MissingNote(data));
  }

  /** With a record and truthy missing points whose two counts read as numbers `a` and `b`, the note
      names their sum exactly when one of them is positive. */
  lemma MissingNoteCount(data: Json, a: int, b: int)
    requires Truthy(Get(data, "data")) && Truthy(Get(data, "missingPoints"))
    requires LengthOf(Get(Get(data, "missingPoints"), "summary")) == Some(Some(a))
    requires LengthOf(Get(Get(data, "missingPoints"), "experience")) == Some(Some(b))
    ensures a > 0 || b > 0 ==> MissingNote(data) == " (Found " + IntToString(a + b) + " missing points)"
    ensures a <= 0 && b <= 0 ==> MissingNote(data) == ""
  {
  }

  /** A count that is `undefined`, such as the `length` of a number, never makes the note appear on its
      own, and when the other count is positive the sum shows as `NaN`. */
  lemma MissingNoteNaN(data: Json, b: int)
    requires Truthy(Get(data, "data")) && Truthy(Get(data, "missingPoints"))
    requires LengthOf(Get(Get(data, "missingPoints"), "summary")) == Some(None)
    requires LengthOf(Get(Get(data, "missingPoints"), "experience")) == Some(Some(b))
    ensures b > 0 ==> MissingNote(data) == " (Found NaN missing points)"
    ensures b <= 0 ==> MissingNote(data) == ""
  {
  }

  /** The note appears only when the final-data step hands a record over. */
  lemma NoteOnlyOnHandover(data: Json)
    ensures MissingNote(data) != "" ==> Handover(data).Some?
  {
  }

  /** `{summary: {length: true}, experience: [1]}`: `true` counts as 1, so two points are reported. */
  lemma MissingNoteBoolLength(record: Json)
    requires Truthy(record)
    ensures MissingNote(Fields(["data", "missingPoints"], [record, BoolLengthPoints])) == " (Found 2 missing points)"
  {
    var data := Fields(["data", "missingPoints"], [record, BoolLengthPoints]);
    BoolLengthCounts();
    RecordWithPoints(record, BoolLengthPoints);
    MissingNoteCount(data, 1, 1);
    FoundTwo();
  }

  lemma FoundTwo()
    ensures " (Found " + IntToString(2) + " missing points)" == " (Found 2 missing points)"
  {
    assert IntToString(2) == "2";
  }

  const BoolLengthPoints: Json :=
    Fields(["summary", "experience"], [Fields(["length"], [Bool(true)]), Arr([Num(1)])])

  lemma BoolLengthCounts()
    ensures Truthy(BoolLengthPoints)
    ensures LengthOf(Get(BoolLengthPoints, "summary")) == Some(Some(1))
    ensures LengthOf(Get(BoolLengthPoints, "experience")) == Some(Some(1))
  {
    var summary := Fields(["length"], [Bool(true)]);
    GetFields(["length"], [Bool(true)], 0);
    GetFields(["summary", "experience"], [summary, Arr([Num(1)])], 0);
    GetFields(["summary", "experience"], [summary, Arr([Num(1)])], 1);
  }

  lemma RecordWithPoints(record: Json, points: Json)
    ensures Get(Fields(["data", "missingPoints"], [record, points]), "data") == record
    ensures Get(Fields(["data", "missingPoints"], [record, points]), "missingPoints") == points
  {
    GetFields(["data", "missingPoints"], [record, points], 0);
    GetFields(["data", "missingPoints"], [record, points], 1);
  }

  /** When a `final_data` event hands a record over, and what that record is. */
  lemma FinalDelivery(s: StreamState, data: Json)
    ensures var t := FinalData(s, data);
      && (t.delivered == s.delivered || t.delivered == s.delivered + [t.delivered[|s.delivered|]])
      && (t.delivered != s.delivered <==>
            && Truthy(Get(data, "data"))
            && (Truthy(Get(data, "missingPoints")) ==>
                  LengthOf(Get(Get(data, "missingPoints"), "summary")).Some?
                  && LengthOf(Get(Get(data, "missingPoints"), "experience")).Some?))
      && (t.delivered != s.delivered ==>
            var x := t.delivered[|s.delivered|];
            && (forall k :: k != "missingPoints" ==> Get(x, k) == Get(Sanitize(Get(data, "data")), k))
            && Get(x, "missingPoints") == (if Truthy(Get(data, "missingPoints")) then Get(data, "missingPoints") else Undef))
  {
    var d := Get(data, "data");
    if Truthy(d) {
      MissingPointsNotSanitized(d);
    }
  }

  /** A record is handed over only by a `final_data` event whose `data` is truthy and, when it carries
      truthy missing points, whose two counts can be read. The record is the normalised `data`, with
      `missingPoints` attached when present; the earlier records stay as they were. */
  lemma Delivery(s: StreamState, data: Json)
    ensures var t := Reduce(s, data);
      && (t.delivered == s.delivered || t.delivered == s.delivered + [t.delivered[|s.delivered|]])
      && (t.delivered != s.delivered <==>
            && Get(data, "type") == Str("final_data") && Truthy(Get(data, "data"))
            && (Truthy(Get(data, "missingPoints")) ==>
                  LengthOf(Get(Get(data, "missingPoints"), "summary")).Some?
                  && LengthOf(Get(Get(data, "missingPoints"), "experience")).Some?))
      && (t.delivered != s.delivered ==>
            var x := t.delivered[|s.delivered|];
            && (forall k :: k != "missingPoints" ==> Get(x, k) == Get(Sanitize(Get(data, "data")), k))
            && Get(x, "missingPoints") == (if Truthy(Get(data, "missingPoints")) then Get(data, "missingPoints") else Undef))
  {
    ReduceDispatch(s, data);
    FinalDelivery(s, data);
  }

  /** The normaliser's output has no `missingPoints` property of its own. */
  lemma MissingPointsNotSanitized(d: Json)
    ensures Get(Sanitize(d), "missingPoints") == Undef
  {
    SanitizeOnlyResumeKeys(d, "missingPoints");
  }
}

=== FILE: form.dfy ===
/** The edit form's handlers as functions from record to record. Every handler copies the record and
    changes one slot: a top-level text, one field of one list entry, one item of a nested list, or the
    length of one list by one. Field names passed as strings in the form are modelled as enumerations
    of the names it passes; list positions come from the rendered lists and so are in range. */
module Form {
  import opened Base
  import opened Strings
  import opened JsonModel
  import opened Records
  import opened SkillText

  // ---------------------------------------------------------------------------------------------
  // Field names and their values

  /** The three top-level inputs. */
  datatype TopField = Name | Title | RequisitionNumber

  datatype EducationField = Degree | AreaOfStudy | School | SchoolLocation | Date | WasAwarded

  datatype CertificationField = CertName | IssuedBy | DateObtained | CertificationNumber | ExpirationDate

  datatype JobField =
    | CompanyName | RoleName | Description | WorkPeriod | JobLocation | Project | Client | Customer
    | ProjectRole | ProjectDescription | ProjectEnvironment | KeyTechnologies | Environment

  datatype ProjectField = ClientName | ProjectName | ClientProjectDescription | Period

  function TopValue(r: Resume, f: TopField): string {
    match f
    case Name => r.name
    case Title => r.title
    case RequisitionNumber => r.requisitionNumber
  }

  /** An education field as the form stores it: text, or the flag `wasAwarded`. */
  function EducationValue(e: Education, f: EducationField): Json {
    match f
    case Degree => Str(e.degree)
    case AreaOfStudy => Str(e.areaOfStudy)
    case School => Str(e.school)
    case SchoolLocation => Str(e.location)
    case Date => Str(e.date)
    case WasAwarded => Bool(e.wasAwarded)
  }

  function CertificationValue(c: Certification, f: CertificationField): string {
    match f
    case CertName => c.name
    case IssuedBy => c.issuedBy
    case DateObtained => c.dateObtained
    case CertificationNumber => c.certificationNumber
    case ExpirationDate => c.expirationDate
  }

  function JobValue(j: Job, f: JobField): string {
    match f
    case CompanyName => j.companyName
    case RoleName => j.roleName
    case Description => j.description
    case WorkPeriod => j.workPeriod
    case JobLocation => j.location
    case Project => j.project
    case Client => j.client
    case Customer => j.customer
    case ProjectRole => j.projectRole
    case ProjectDescription => j.projectDescription
    case ProjectEnvironment => j.projectEnvironment
    case KeyTechnologies => j.keyTechnologies
    case Environment => j.environment
  }

  function ProjectValue(p: ClientProject, f: ProjectField): string {
    match f
    case ClientName => p.clientName
    case ProjectName => p.projectName
    case ClientProjectDescription => p.projectDescription
    case Period => p.period
  }

  /** `{...e, [field]: field === 'wasAwarded' ? value === 'true' : value}`. */
  function WithEducation(e: Education, f: EducationField, value: string): Education {
    match f
    case Degree => e.(degree := value)
    case AreaOfStudy => e.(areaOfStudy := value)
    case School => e.(school := value)
    case SchoolLocation => e.(location := value)
    case Date => e.(date := value)
    case WasAwarded => e.(wasAwarded := value == "true")
  }

  function WithCertification(c: Certification, f: CertificationField, value: string): Certification {
    match f
    case CertName => c.(name := value)
    case IssuedBy => c.(issuedBy := value)
    case DateObtained => c.(dateObtained := value)
    case CertificationNumber => c.(certificationNumber := value)
    case ExpirationDate => c.(expirationDate := value)
  }

  function WithJob(j: Job, f: JobField, value: string): Job {
    match f
    case CompanyName => j.(companyName := value)
    case RoleName => j.(roleName := value)
    case Description => j.(description := value)
    case WorkPeriod => j.(workPeriod := value)
    case JobLocation => j.(location := value)
    case Project => j.(project := value)
    case Client => j.(client := value)
    case Customer => j.(customer := value)
    case ProjectRole => j.(projectRole := value)
    case ProjectDescription => j.(projectDescription := value)
    case ProjectEnvironment => j.(projectEnvironment := value)
    case KeyTechnologies => j.(keyTechnologies := value)
    case Environment => j.(environment := value)
  }

  function WithProject(p: ClientProject, f: ProjectField, value: string): ClientProject {
    match f
    case ClientName => p.(clientName := value)
    case ProjectName => p.(projectName := value)
    case ClientProjectDescription => p.(projectDescription := value)
    case Period => p.(period := value)
  }

  // ---------------------------------------------------------------------------------------------
  // The blank entries the add buttons append

  const NewEducation := Education("", "", "", "", "", false)

  const NewCertification := Certification("", "", "", "", "")

  const NewJob := Job("", "", "", "", "", "", "", "", "", "", [""], "", [], [], "", "", [])

  const NewClientProject := ClientProject("", "", "", [], "")

  const NewSubsection := Subsection("", [])

  // ---------------------------------------------------------------------------------------------
  // What a handler may change

  /** Only employment entry `i` differs, and nothing outside the employment history. */
  ghost predicate JobEdited(r: Resume, r': Resume, i: nat) {
    && i < |r.employmentHistory|
    && OnlyAt(r.employmentHistory, r'.employmentHistory, i)
    && r' == r.(employmentHistory := r'.employmentHistory)
  }

  /** Only client project `p` of the job differs. */
  ghost predicate ProjectEdited(j: Job, j': Job, p: nat) {
    && p < |j.clientProjects|
    && OnlyAt(j.clientProjects, j'.clientProjects, p)
    && j' == j.(clientProjects := j'.clientProjects)
  }

  /** Only subsection `k` of a list of subsections differs. */
  ghost predicate SubsectionEdited(a: seq<Subsection>, b: seq<Subsection>, k: nat) {
    OnlyAt(a, b, k)
  }

  /** Only skill category `c` differs, and nothing outside the skill categories. */
  ghost predicate CategoryEdited(r: Resume, r': Resume, c: nat) {
    && c < |r.skillCategories|
    && OnlyAt(r.skillCategories, r'.skillCategories, c)
    && r' == r.(skillCategories := r'.skillCategories)
  }

  /** `b` is `a` after `splice(i, 1)`: one entry fewer when `i` is in range, the same list otherwise. */
  ghost predicate Spliced<T>(a: seq<T>, b: seq<T>, i: nat) {
    if i < |a| then RemovedAt(a, b, i) else b == a
  }

  /** `b` is `a` with one entry appended. */
  ghost predicate Extended<T>(a: seq<T>, b: seq<T>) {
    |b| == |a| + 1 && b[..|a|] == a
  }

  /** `b` is `a` with `x` appended. */
  ghost predicate Appended<T>(a: seq<T>, b: seq<T>, x: T) {
    Extended(a, b) && b[|a|] == x
  }

  // ---------------------------------------------------------------------------------------------
  // Top-level inputs (handleChange)

  function Change(r: Resume, f: TopField, value: string): (r': Resume)
    ensures TopValue(r', f) == value
    ensures forall g :: g != f ==> TopValue(r', g) == TopValue(r, g)
    ensures r' == r.(name := r'.name, title := r'.title, requisitionNumber := r'.requisitionNumber)
  {
    match f
    case Name => r.(name := value)
    case Title => r.(title := value)
    case RequisitionNumber => r.(requisitionNumber := value)
  }

  // ---------------------------------------------------------------------------------------------
  // Education

  function ChangeEducation(r: Resume, i: nat, f: EducationField, value: string): (r': Resume)
    requires i < |r.education|
    ensures |r'.education| == |r.education|
    ensures OnlyAt(r.education, r'.education, i)
    ensures EducationValue(r'.education[i], f) == (if f == WasAwarded then Bool(value == "true") else Str(value))
    ensures forall g :: g != f ==> EducationValue(r'.education[i], g) == EducationValue(r.education[i], g)
    ensures r' == r.(education := r'.education)
  {
    r.(education := r.education[i := WithEducation(r.education[i], f, value)])
  }

  function AddEducation(r: Resume): (r': Resume)
    ensures Extended(r.education, r'.education)
    ensures forall f :: f != WasAwarded ==> EducationValue(r'.education[|r.education|], f) == Str("")
    ensures !r'.education[|r.education|].wasAwarded
    ensures r' == r.(education := r'.education)
  {
    r.(education := r.education + [NewEducation])
  }

  function RemoveEducation(r: Resume, i: nat): (r': Resume)
    ensures Spliced(r.education, r'.education, i)
    ensures r' == r.(education := r'.education)
  {
    r.(education := RemoveAt(r.education, i))
  }

  // ---------------------------------------------------------------------------------------------
  // Certifications

  function ChangeCertification(r: Resume, i: nat, f: CertificationField, value: string): (r': Resume)
    requires i < |r.certifications|
    ensures |r'.certifications| == |r.certifications|
    ensures OnlyAt(r.certifications, r'.certifications, i)
    ensures CertificationValue(r'.certifications[i], f) == value
    ensures forall g :: g != f ==> CertificationValue(r'.certifications[i], g) == CertificationValue(r.certifications[i], g)
    ensures r' == r.(certifications := r'.certifications)
  {
    r.(certifications := r.certifications[i := WithCertification(r.certifications[i], f, value)])
  }

  function AddCertification(r: Resume): (r': Resume)
    ensures Extended(r.certifications, r'.certifications)
    ensures forall f :: CertificationValue(r'.certifications[|r.certifications|], f) == ""
    ensures r' == r.(certifications := r'.certifications)
  {
    r.(certifications := r.certifications + [NewCertification])
  }

  function RemoveCertification(r: Resume, i: nat): (r': Resume)
    ensures Spliced(r.certifications, r'.certifications, i)
    ensures r' == r.(certifications := r'.certifications)
  {
    r.(certifications := RemoveAt(r.certifications, i))
  }

  // ---------------------------------------------------------------------------------------------
  // Employment entries and their lists

  function ChangeEmployment(r: Resume, i: nat, f: JobField, value: string): (r': Resume)
    requires i < |r.employmentHistory|
    ensures JobEdited(r, r', i)
    ensures JobValue(r'.employmentHistory[i], f) == value
    ensures forall g :: g != f ==> JobValue(r'.employmentHistory[i], g) == JobValue(r.employmentHistory[i], g)
    ensures var j, j' := r.employmentHistory[i], r'.employmentHistory[i];
      && j'.responsibilities == j.responsibilities && j'.achievements == j.achievements
      && j'.clientProjects == j.clientProjects && j'.subsections == j.subsections
  {
    r.(employmentHistory := r.employmentHistory[i := WithJob(r.employmentHistory[i], f, value)])
  }

  function AddEmployment(r: Resume): (r': Resume)
    ensures Extended(r.employmentHistory, r'.employmentHistory)
    ensures var j := r'.employmentHistory[|r.employmentHistory|];
      && (forall f :: JobValue(j, f) == "")
      && j.responsibilities == [""] && j.clientProjects == [] && j.subsections == [] && j.achievements == []
    ensures r' == r.(employmentHistory := r'.employmentHistory)
  {
    r.(employmentHistory := r.employmentHistory + [NewJob])
  }

  function RemoveEmployment(r: Resume, i: nat): (r': Resume)
    ensures Spliced(r.employmentHistory, r'.employmentHistory, i)
    ensures r' == r.(employmentHistory := r'.employmentHistory)
  {
    r.(employmentHistory := RemoveAt(r.employmentHistory, i))
  }

  /** The record with employment entry `i` replaced by `j`. */
  function WithEntry(r: Resume, i: nat, j: Job): (r': Resume)
    requires i < |r.employmentHistory|
    ensures JobEdited(r, r', i) && r'.employmentHistory[i] == j
  {
    r.(employmentHistory := r.employmentHistory[i := j])
  }

  function ChangeResponsibility(r: Resume, i: nat, k: nat, value: string): (r': Resume)
    requires i < |r.employmentHistory| && k < |r.employmentHistory[i].responsibilities|
    ensures JobEdited(r, r', i)
    ensures var j, j' := r.employmentHistory[i], r'.employmentHistory[i];
      j' == j.(responsibilities := j'.responsibilities) && ReplacedAt(j.responsibilities, j'.responsibilities, k, value)
  {
    var j := r.employmentHistory[i];
    WithEntry(r, i, j.(responsibilities := j.responsibilities[k := value]))
  }

  function AddResponsibility(r: Resume, i: nat): (r': Resume)
    requires i < |r.employmentHistory|
    ensures JobEdited(r, r', i)
    ensures var j, j' := r.employmentHistory[i], r'.employmentHistory[i];
      j' == j.(responsibilities := j'.responsibilities) && Appended(j.responsibilities, j'.responsibilities, "")
  {
    var j := r.employmentHistory[i];
    WithEntry(r, i, j.(responsibilities := j.responsibilities + [""]))
  }

  function RemoveResponsibility(r: Resume, i: nat, k: nat): (r': Resume)
    requires i < |r.employmentHistory|
    ensures JobEdited(r, r', i)
    ensures var j, j' := r.employmentHistory[i], r'.employmentHistory[i];
      j' == j.(responsibilities := j'.responsibilities) && Spliced(j.responsibilities, j'.responsibilities, k)
  {
    var j := r.employmentHistory[i];
    WithEntry(r, i, j.(responsibilities := RemoveAt(j.responsibilities, k)))
  }

  function ChangeAchievement(r: Resume, i: nat, k: nat, value: string): (r': Resume)
    requires i < |r.employmentHistory| && k < |r.employmentHistory[i].achievements|
    ensures JobEdited(r, r', i)
    ensures var j, j' := r.employmentHistory[i], r'.employmentHistory[i];
      j' == j.(achievements := j'.achievements) && ReplacedAt(j.achievements, j'.achievements, k, value)
  {
    var j := r.employmentHistory[i];
    WithEntry(r, i, j.(achievements := j.achievements[k := value]))
  }

  function AddAchievement(r: Resume, i: nat): (r': Resume)
    requires i < |r.employmentHistory|
    ensures JobEdited(r, r', i)
    ensures var j, j' := r.employmentHistory[i], r'.employmentHistory[i];
      j' == j.(achievements := j'.achievements) && Appended(j.achievements, j'.achievements, "")
  {
    var j := r.employmentHistory[i];
    WithEntry(r, i, j.(achievements := j.achievements + [""]))
  }

  function RemoveAchievement(r: Resume, i: nat, k: nat): (r': Resume)
    requires i < |r.employmentHistory|
    ensures JobEdited(r, r', i)
    ensures var j, j' := r.employmentHistory[i], r'.employmentHistory[i];
      j' == j.(achievements := j'.achievements) && Spliced(j.achievements, j'.achievements, k)
  {
    var j := r.employmentHistory[i];
    WithEntry(r, i, j.(achievements := RemoveAt(j.achievements, k)))
  }

  // ---------------------------------------------------------------------------------------------
  // Subsections of an employment entry

  function ChangeSubsection(r: Resume, i: nat, k: nat, title: string): (r': Resume)
    requires i < |r.employmentHistory| && k < |r.employmentHistory[i].subsections|
    ensures JobEdited(r, r', i)
    ensures var j, j' := r.employmentHistory[i], r'.employmentHistory[i];
      && j' == j.(subsections := j'.subsections) && SubsectionEdited(j.subsections, j'.subsections, k)
      && j'.subsections[k] == j.subsections[k].(title := title)
  {
    WithSubsection(r, i, k, r.employmentHistory[i].subsections[k].(title := title))
  }

  function AddSubsection(r: Resume, i: nat): (r': Resume)
    requires i < |r.employmentHistory|
    ensures JobEdited(r, r', i)
    ensures var j, j' := r.employmentHistory[i], r'.employmentHistory[i];
      j' == j.(subsections := j'.subsections) && Appended(j.subsections, j'.subsections, NewSubsection)
  {
    var j := r.employmentHistory[i];
    WithEntry(r, i, j.(subsections := j.subsections + [NewSubsection]))
  }

  function RemoveSubsection(r: Resume, i: nat, k: nat): (r': Resume)
    requires i < |r.employmentHistory|
    ensures JobEdited(r, r', i)
    ensures var j, j' := r.employmentHistory[i], r'.employmentHistory[i];
      j' == j.(subsections := j'.subsections) && Spliced(j.subsections, j'.subsections, k)
  {
    var j := r.employmentHistory[i];
    WithEntry(r, i, j.(subsections := RemoveAt(j.subsections, k)))
  }

  /** The subsection `k` of entry `i` replaced by `sub`. */
  function WithSubsection(r: Resume, i: nat, k: nat, sub: Subsection): (r': Resume)
    requires i < |r.employmentHistory| && k < |r.employmentHistory[i].subsections|
    ensures JobEdited(r, r', i)
    ensures var j, j' := r.employmentHistory[i], r'.employmentHistory[i];
      && j' == j.(subsections := j'.subsections) && SubsectionEdited(j.subsections, j'.subsections, k)
      && j'.subsections[k] == sub
  {
    var j := r.employmentHistory[i];
    WithEntry(r, i, j.(subsections := j.subsections[k := sub]))
  }

  function ChangeSubsectionItem(r: Resume, i: nat, k: nat, n: nat, value: string): (r': Resume)
    requires i < |r.employmentHistory| && k < |r.employmentHistory[i].subsections|
    requires n < |r.employmentHistory[i].subsections[k].content|
    ensures JobEdited(r, r', i)
    ensures var s, s' := r.employmentHistory[i].subsections, r'.employmentHistory[i].subsections;
      && SubsectionEdited(s, s', k) && s'[k].title == s[k].title
      && ReplacedAt(s[k].content, s'[k].content, n, value)
  {
    var sub := r.employmentHistory[i].subsections[k];
    WithSubsection(r, i, k, sub.(content := sub.content[n := value]))
  }

  function AddSubsectionItem(r: Resume, i: nat, k: nat): (r': Resume)
    requires i < |r.employmentHistory| && k < |r.employmentHistory[i].subsections|
    ensures JobEdited(r, r', i)
    ensures var s, s' := r.employmentHistory[i].subsections, r'.employmentHistory[i].subsections;
      && SubsectionEdited(s, s', k) && s'[k].title == s[k].title
      && Appended(s[k].content, s'[k].content, "")
  {
    var sub := r.employmentHistory[i].subsections[k];
    WithSubsection(r, i, k, sub.(content := sub.content + [""]))
  }

  function RemoveSubsectionItem(r: Resume, i: nat, k: nat, n: nat): (r': Resume)
    requires i < |r.employmentHistory| && k < |r.employmentHistory[i].subsections|
    ensures JobEdited(r, r', i)
    ensures var s, s' := r.employmentHistory[i].subsections, r'.employmentHistory[i].subsections;
      && SubsectionEdited(s, s', k) && s'[k].title == s[k].title
      && Spliced(s[k].content, s'[k].content, n)
  {
    var sub := r.employmentHistory[i].subsections[k];
    WithSubsection(r, i, k, sub.(content := RemoveAt(sub.content, n)))
  }

  // ---------------------------------------------------------------------------------------------
  // Client projects of an employment entry

  function ChangeClientProject(r: Resume, i: nat, p: nat, f: ProjectField, value: string): (r': Resume)
    requires i < |r.employmentHistory| && p < |r.employmentHistory[i].clientProjects|
    ensures JobEdited(r, r', i)
    ensures var j, j' := r.employmentHistory[i], r'.employmentHistory[i];
      && ProjectEdited(j, j', p)
      && ProjectValue(j'.clientProjects[p], f) == value
      && (forall g :: g != f ==> ProjectValue(j'.clientProjects[p], g) == ProjectValue(j.clientProjects[p], g))
      && j'.clientProjects[p].responsibilities == j.clientProjects[p].responsibilities
  {
    var j := r.employmentHistory[i];
    WithEntry(r, i, j.(clientProjects := j.clientProjects[p := WithProject(j.clientProjects[p], f, value)]))
  }

  function AddClientProject(r: Resume, i: nat): (r': Resume)
    requires i < |r.employmentHistory|
    ensures JobEdited(r, r', i)
    ensures var j, j' := r.employmentHistory[i], r'.employmentHistory[i];
      && j' == j.(clientProjects := j'.clientProjects)
      && Extended(j.clientProjects, j'.clientProjects)
      && (forall f :: ProjectValue(j'.clientProjects[|j.clientProjects|], f) == "")
      && j'.clientProjects[|j.clientProjects|].responsibilities == []
  {
    var j := r.employmentHistory[i];
    WithEntry(r, i, j.(clientProjects := j.clientProjects + [NewClientProject]))
  }

  function RemoveClientProject(r: Resume, i: nat, p: nat): (r': Resume)
    requires i < |r.employmentHistory|
    ensures JobEdited(r, r', i)
    ensures var j, j' := r.employmentHistory[i], r'.employmentHistory[i];
      j' == j.(clientProjects := j'.clientProjects) && Spliced(j.clientProjects, j'.clientProjects, p)
  {
    var j := r.employmentHistory[i];
    WithEntry(r, i, j.(clientProjects := RemoveAt(j.clientProjects, p)))
  }

  /** Client project `p` of entry `i` with its responsibilities replaced. */
  function WithProjectDuties(r: Resume, i: nat, p: nat, duties: seq<string>): (r': Resume)
    requires i < |r.employmentHistory| && p < |r.employmentHistory[i].clientProjects|
    ensures JobEdited(r, r', i)
    ensures var j, j' := r.employmentHistory[i], r'.employmentHistory[i];
      && ProjectEdited(j, j', p)
      && j'.clientProjects[p] == j.clientProjects[p].(responsibilities := duties)
  {
    var j := r.employmentHistory[i];
    WithEntry(r, i, j.(clientProjects := j.clientProjects[p := j.clientProjects[p].(responsibilities := duties)]))
  }

  function ChangeClientProjectResponsibility(r: Resume, i: nat, p: nat, k: nat, value: string): (r': Resume)
    requires i < |r.employmentHistory| && p < |r.employmentHistory[i].clientProjects|
    requires k < |r.employmentHistory[i].clientProjects[p].responsibilities|
    ensures JobEdited(r, r', i)
    ensures var j, j' := r.employmentHistory[i], r'.employmentHistory[i];
      && ProjectEdited(j, j', p)
      && (forall f :: ProjectValue(j'.clientProjects[p], f) == ProjectValue(j.clientProjects[p], f))
      && ReplacedAt(j.clientProjects[p].responsibilities, j'.clientProjects[p].responsibilities, k, value)
  {
    var duties := r.employmentHistory[i].clientProjects[p].responsibilities;
    WithProjectDuties(r, i, p, duties[k := value])
  }

  function AddClientProjectResponsibility(r: Resume, i: nat, p: nat): (r': Resume)
    requires i < |r.employmentHistory| && p < |r.employmentHistory[i].clientProjects|
    ensures JobEdited(r, r', i)
    ensures var j, j' := r.employmentHistory[i], r'.employmentHistory[i];
      && ProjectEdited(j, j', p)
      && (forall f :: ProjectValue(j'.clientProjects[p], f) == ProjectValue(j.clientProjects[p], f))
      && Appended(j.clientProjects[p].responsibilities, j'.clientProjects[p].responsibilities, "")
  {
    var duties := r.employmentHistory[i].clientProjects[p].responsibilities;
    WithProjectDuties(r, i, p, duties + [""])
  }

  function RemoveClientProjectResponsibility(r: Resume, i: nat, p: nat, k: nat): (r': Resume)
    requires i < |r.employmentHistory| && p < |r.employmentHistory[i].clientProjects|
    ensures JobEdited(r, r', i)
    ensures var j, j' := r.employmentHistory[i], r'.employmentHistory[i];
      && ProjectEdited(j, j', p)
      && (forall f :: ProjectValue(j'.clientProjects[p], f) == ProjectValue(j.clientProjects[p], f))
      && Spliced(j.clientProjects[p].responsibilities, j'.clientProjects[p].responsibilities, k)
  {
    var duties := r.employmentHistory[i].clientProjects[p].responsibilities;
    WithProjectDuties(r, i, p, RemoveAt(duties, k))
  }

  // ---------------------------------------------------------------------------------------------
  // Professional summary and summary sections

  function ChangeSummary(r: Resume, k: nat, value: string): (r': Resume)
    requires k < |r.professionalSummary|
    ensures ReplacedAt(r.professionalSummary, r'.professionalSummary, k, value)
    ensures r' == r.(professionalSummary := r'.professionalSummary)
  {
    r.(professionalSummary := r.professionalSummary[k := value])
  }

  function AddSummaryPoint(r: Resume): (r': Resume)
    ensures Appended(r.professionalSummary, r'.professionalSummary, "")
    ensures r' == r.(professionalSummary := r'.professionalSummary)
  {
    r.(professionalSummary := r.professionalSummary + [""])
  }

  function RemoveSummaryPoint(r: Resume, k: nat): (r': Resume)
    ensures Spliced(r.professionalSummary, r'.professionalSummary, k)
    ensures r' == r.(professionalSummary := r'.professionalSummary)
  {
    r.(professionalSummary := RemoveAt(r.professionalSummary, k))
  }

  function ChangeSummarySection(r: Resume, k: nat, title: string): (r': Resume)
    requires k < |r.summarySections|
    ensures SubsectionEdited(r.summarySections, r'.summarySections, k)
    ensures r'.summarySections[k] == r.summarySections[k].(title := title)
    ensures r' == r.(summarySections := r'.summarySections)
  {
    WithSummarySection(r, k, r.summarySections[k].(title := title))
  }

  function AddSummarySection(r: Resume): (r': Resume)
    ensures Appended(r.summarySections, r'.summarySections, NewSubsection)
    ensures r' == r.(summarySections := r'.summarySections)
  {
    r.(summarySections := r.summarySections + [NewSubsection])
  }

  function RemoveSummarySection(r: Resume, k: nat): (r': Resume)
    ensures Spliced(r.summarySections, r'.summarySections, k)
    ensures r' == r.(summarySections := r'.summarySections)
  {
    r.(summarySections := RemoveAt(r.summarySections, k))
  }

  /** Summary section `k` replaced by `sub`. */
  function WithSummarySection(r: Resume, k: nat, sub: Subsection): (r': Resume)
    requires k < |r.summarySections|
    ensures SubsectionEdited(r.summarySections, r'.summarySections, k)
    ensures r'.summarySections[k] == sub
    ensures r' == r.(summarySections := r'.summarySections)
  {
    r.(summarySections := r.summarySections[k := sub])
  }

  function ChangeSummarySectionItem(r: Resume, k: nat, n: nat, value: string): (r': Resume)
    requires k < |r.summarySections| && n < |r.summarySections[k].content|
    ensures SubsectionEdited(r.summarySections, r'.summarySections, k)
    ensures r'.summarySections[k].title == r.summarySections[k].title
    ensures ReplacedAt(r.summarySections[k].content, r'.summarySections[k].content, n, value)
    ensures r' == r.(summarySections := r'.summarySections)
  {
    var sub := r.summarySections[k];
    WithSummarySection(r, k, sub.(content := sub.content[n := value]))
  }

  function AddSummarySectionItem(r: Resume, k: nat): (r': Resume)
    requires k < |r.summarySections|
    ensures SubsectionEdited(r.summarySections, r'.summarySections, k)
    ensures r'.summarySections[k].title == r.summarySections[k].title
    ensures Appended(r.summarySections[k].content, r'.summarySections[k].content, "")
    ensures r' == r.(summarySections := r'.summarySections)
  {
    var sub := r.summarySections[k];
    WithSummarySection(r, k, sub.(content := sub.content + [""]))
  }

  function RemoveSummarySectionItem(r: Resume, k: nat, n: nat): (r': Resume)
    requires k < |r.summarySections|
    ensures SubsectionEdited(r.summarySections, r'.summarySections, k)
    ensures r'.summarySections[k].title == r.summarySections[k].title
    ensures Spliced(r.summarySections[k].content, r'.summarySections[k].content, n)
    ensures r' == r.(summarySections := r'.summarySections)
  {
    var sub := r.summarySections[k];
    WithSummarySection(r, k, sub.(content := RemoveAt(sub.content, n)))
  }

  // ---------------------------------------------------------------------------------------------
  // Legacy skills: an object from category name to skills

  /** `technicalSkills[k]` as an own property. */
  function Lookup(groups: seq<SkillGroup>, k: string): Option<seq<string>>
    decreases |groups|
  {
    if groups == [] then None
    else if groups[0].category == k then Some(groups[0].skills)
    else Lookup(groups[1..], k)
  }

  lemma CategoriesCons(groups: seq<SkillGroup>)
    requires groups != []
    ensures Categories(groups) == [groups[0].category] + Categories(groups[1..])
  {
  }

  /** A category is listed exactly when it can be looked up. */
  lemma {:induction false} LookupListed(groups: seq<SkillGroup>, k: string)
    ensures Lookup(groups, k).Some? <==> k in Categories(groups)
    decreases |groups|
  {
    if groups != [] {
      CategoriesCons(groups);
      LookupListed(groups[1..], k);
    }
  }

  /** `{...groups, [k]: skills}`: an existing category keeps its place, a new one goes last. */
  function SetGroup(groups: seq<SkillGroup>, k: string, skills: seq<string>): (r: seq<SkillGroup>)
    ensures Lookup(r, k) == Some(skills)
    ensures forall c :: c != k ==> Lookup(r, c) == Lookup(groups, c)
    ensures k in Categories(groups) ==> Categories(r) == Categories(groups)
    ensures k !in Categories(groups) ==> Categories(r) == Categories(groups) + [k]
    decreases |groups|
  {
    if groups == [] then [SkillGroup(k, skills)]
    else if groups[0].category == k then
      CategoriesCons(groups);
      CategoriesCons([SkillGroup(k, skills)] + groups[1..]);
      assert ([SkillGroup(k, skills)] + groups[1..])[1..] == groups[1..];
      [SkillGroup(k, skills)] + groups[1..]
    else
      var rest := SetGroup(groups[1..], k, skills);
      CategoriesCons(groups);
      CategoriesCons([groups[0]] + rest);
      assert ([groups[0]] + rest)[1..] == rest;
      [groups[0]] + rest
  }

  /** `const {[k]: removed, ...rest} = groups`: the category is gone, the others keep their order. */
  function DeleteGroup(groups: seq<SkillGroup>, k: string): (r: seq<SkillGroup>)
    ensures Lookup(r, k) == None
    ensures forall c :: c != k ==> Lookup(r, c) == Lookup(groups, c)
    ensures Categories(r) == Filter(Categories(groups), c => c != k)
    decreases |groups|
  {
    if groups == [] then []
    else
      var rest := DeleteGroup(groups[1..], k);
      CategoriesCons(groups);
      FilterAppend([groups[0].category], Categories(groups[1..]), c => c != k);
      if groups[0].category == k then rest
      else
        CategoriesCons([groups[0]] + rest);
        assert ([groups[0]] + rest)[1..] == rest;
        [groups[0]] + rest
  }

  /** The names every object inherits from `Object.prototype`; looking one up yields a truthy value. */
  const InheritedNames: set<string> := {
    "constructor", "hasOwnProperty", "isPrototypeOf", "propertyIsEnumerable", "toString", "toLocaleString",
    "valueOf", "__proto__", "__defineGetter__", "__defineSetter__", "__lookupGetter__", "__lookupSetter__"}

  function ChangeSkillCategory(r: Resume, k: string, text: string): (r': Resume)
    ensures Lookup(r'.technicalSkills, k) == Some(ParseSkills(text))
    ensures forall c :: c != k ==> Lookup(r'.technicalSkills, c) == Lookup(r.technicalSkills, c)
    ensures k in Categories(r.technicalSkills) ==> Categories(r'.technicalSkills) == Categories(r.technicalSkills)
    ensures r' == r.(technicalSkills := r'.technicalSkills)
  {
    r.(technicalSkills := SetGroup(r.technicalSkills, k, ParseSkills(text)))
  }

  /** The prompt's answer names a category that `addSkillCategory` adds: it is non-empty and the lookup
      `technicalSkills[name]` is falsy, that is, it is neither a category already nor an inherited name. */
  predicate AddsCategory(r: Resume, answer: Option<string>) {
    answer.Some? && answer.value != "" && answer.value !in Categories(r.technicalSkills)
    && answer.value !in InheritedNames
  }

  /** `addSkillCategory` with the answer to its prompt (`None` when cancelled): a new category starts with
      no skills and goes last. */
  function AddSkillCategory(r: Resume, answer: Option<string>): (r': Resume)
    ensures AddsCategory(r, answer) ==>
      && Lookup(r'.technicalSkills, answer.value) == Some([])
      && Categories(r'.technicalSkills) == Categories(r.technicalSkills) + [answer.value]
      && forall c :: c != answer.value ==> Lookup(r'.technicalSkills, c) == Lookup(r.technicalSkills, c)
    ensures !AddsCategory(r, answer) ==> r' == r
    ensures r' == r.(technicalSkills := r'.technicalSkills)
  {
    match answer
    case Some(k) =>
      LookupListed(r.technicalSkills, k);
      if k != "" && Lookup(r.technicalSkills, k).None? && k !in InheritedNames
      then r.(technicalSkills := SetGroup(r.technicalSkills, k, []))
      else r
    case None => r
  }

  function RemoveSkillCategory(r: Resume, k: string): (r': Resume)
    ensures Lookup(r'.technicalSkills, k) == None
    ensures forall c :: c != k ==> Lookup(r'.technicalSkills, c) == Lookup(r.technicalSkills, c)
    ensures r' == r.(technicalSkills := r'.technicalSkills)
  {
    r.(technicalSkills := DeleteGroup(r.technicalSkills, k))
  }

  // ---------------------------------------------------------------------------------------------
  // Skill categories with subcategories

  function RenameSkillCategory(r: Resume, c: nat, name: string): (r': Resume)
    requires c < |r.skillCategories|
    ensures CategoryEdited(r, r', c)
    ensures r'.skillCategories[c] == r.skillCategories[c].(categoryName := name)
  {
    r.(skillCategories := r.skillCategories[c := r.skillCategories[c].(categoryName := name)])
  }

  function ChangeNestedSkillCategory(r: Resume, c: nat, text: string): (r': Resume)
    requires c < |r.skillCategories|
    ensures CategoryEdited(r, r', c)
    ensures r'.skillCategories[c] == r.skillCategories[c].(skills := ParseSkills(text))
  {
    r.(skillCategories := r.skillCategories[c := r.skillCategories[c].(skills := ParseSkills(text))])
  }

  /** `addNestedSkillCategory`: a truthy answer appends a category of that name with no skills. */
  function AddNestedSkillCategory(r: Resume, answer: Option<string>): (r': Resume)
    ensures answer.Some? && answer.value != "" ==>
      Appended(r.skillCategories, r'.skillCategories, SkillCategory(answer.value, [], []))
    ensures !(answer.Some? && answer.value != "") ==> r' == r
    ensures r' == r.(skillCategories := r'.skillCategories)
  {
    if answer.Some? && answer.value != "" then
      r.(skillCategories := r.skillCategories + [SkillCategory(answer.value, [], [])])
    else r
  }

  function RemoveNestedSkillCategory(r: Resume, c: nat): (r': Resume)
    ensures Spliced(r.skillCategories, r'.skillCategories, c)
    ensures r' == r.(skillCategories := r'.skillCategories)
  {
    r.(skillCategories := RemoveAt(r.skillCategories, c))
  }

  /** Category `c` with its subcategories replaced. */
  function WithSubcategories(r: Resume, c: nat, subs: seq<SkillSubcategory>): (r': Resume)
    requires c < |r.skillCategories|
    ensures CategoryEdited(r, r', c)
    ensures r'.skillCategories[c] == r.skillCategories[c].(subCategories := subs)
  {
    r.(skillCategories := r.skillCategories[c := r.skillCategories[c].(subCategories := subs)])
  }

  function AddSkillSubcategory(r: Resume, c: nat, answer: Option<string>): (r': Resume)
    requires c < |r.skillCategories|
    ensures answer.Some? && answer.value != "" ==>
      && CategoryEdited(r, r', c)
      && r'.skillCategories[c] == r.skillCategories[c].(subCategories := r'.skillCategories[c].subCategories)
      && Appended(r.skillCategories[c].subCategories, r'.skillCategories[c].subCategories,
                  SkillSubcategory(answer.value, []))
    ensures !(answer.Some? && answer.value != "") ==> r' == r
  {
    if answer.Some? && answer.value != "" then
      WithSubcategories(r, c, r.skillCategories[c].subCategories + [SkillSubcategory(answer.value, [])])
    else r
  }

  function RemoveSkillSubcategory(r: Resume, c: nat, k: nat): (r': Resume)
    requires c < |r.skillCategories|
    ensures CategoryEdited(r, r', c)
    ensures r'.skillCategories[c] == r.skillCategories[c].(subCategories := r'.skillCategories[c].subCategories)
    ensures Spliced(r.skillCategories[c].subCategories, r'.skillCategories[c].subCategories, k)
  {
    WithSubcategories(r, c, RemoveAt(r.skillCategories[c].subCategories, k))
  }

  function ChangeSkillSubcategory(r: Resume, c: nat, k: nat, name: string): (r': Resume)
    requires c < |r.skillCategories| && k < |r.skillCategories[c].subCategories|
    ensures CategoryEdited(r, r', c)
    ensures var s, s' := r.skillCategories[c].subCategories, r'.skillCategories[c].subCategories;
      ReplacedAt(s, s', k, s[k].(name := name))
  {
    var subs := r.skillCategories[c].subCategories;
    WithSubcategories(r, c, subs[k := subs[k].(name := name)])
  }

  function ChangeSubcategorySkills(r: Resume, c: nat, k: nat, text: string): (r': Resume)
    requires c < |r.skillCategories| && k < |r.skillCategories[c].subCategories|
    ensures CategoryEdited(r, r', c)
    ensures var s, s' := r.skillCategories[c].subCategories, r'.skillCategories[c].subCategories;
      ReplacedAt(s, s', k, s[k].(skills := ParseSkills(text)))
  {
    var subs := r.skillCategories[c].subCategories;
    WithSubcategories(r, c, subs[k := subs[k].(skills := ParseSkills(text))])
  }

  // ---------------------------------------------------------------------------------------------
  // Properties across handlers

  lemma DistinctCons(x: string, xs: seq<string>)
    ensures Distinct([x] + xs) <==> x !in xs && Distinct(xs)
  {
    var s := [x] + xs;
    if x !in xs && Distinct(xs) {
      forall a, b | 0 <= a < b < |s|
        ensures s[a] != s[b]
      {
        if a == 0 {
          assert s[b] == xs[b - 1];
        } else {
          assert s[a] == xs[a - 1] && s[b] == xs[b - 1];
        }
      }
    }
    if Distinct(s) {
      assert forall a, b :: 0 <= a < b < |xs| ==> xs[a] == s[a + 1] && xs[b] == s[b + 1];
      forall b | 0 <= b < |xs|
        ensures xs[b] != x
      {
        assert s[0] == x && s[b + 1] == xs[b];
      }
    }
  }

  lemma DistinctSnoc(xs: seq<string>, x: string)
    requires Distinct(xs) && x !in xs
    ensures Distinct(xs + [x])
  {
    var s := xs + [x];
    forall a, b | 0 <= a < b < |s|
      ensures s[a] != s[b]
    {
      assert s[a] == xs[a];
    }
  }

  /** Dropping names from a list of distinct names keeps them distinct. */
  lemma {:induction false} FilterDistinct(xs: seq<string>, f: string -> bool)
    requires Distinct(xs)
    ensures Distinct(Filter(xs, f))
    decreases |xs|
  {
    if xs != [] {
      assert xs == [xs[0]] + xs[1..];
      DistinctCons(xs[0], xs[1..]);
      FilterDistinct(xs[1..], f);
      FilterMembers(xs[1..], f);
      if f(xs[0]) {
        DistinctCons(xs[0], Filter(xs[1..], f));
      }
    }
  }

  /** No edit of the legacy skills can list a category twice: the object they stand for stays an
      object. */
  lemma SkillEditsKeepValid(r: Resume, k: string, text: string, answer: Option<string>)
    requires Valid(r)
    ensures Valid(ChangeSkillCategory(r, k, text))
    ensures Valid(AddSkillCategory(r, answer))
    ensures Valid(RemoveSkillCategory(r, k))
  {
    var cs := Categories(r.technicalSkills);
    if k !in cs {
      DistinctSnoc(cs, k);
    }
    if AddsCategory(r, answer) {
      DistinctSnoc(cs, answer.value);
    }
    FilterDistinct(cs, c => c != k);
  }

  /** Setting a category to the skills it already has changes nothing. */
  lemma {:induction false} SetGroupSame(groups: seq<SkillGroup>, k: string)
    requires Lookup(groups, k).Some?
    ensures SetGroup(groups, k, Lookup(groups, k).value) == groups
    decreases |groups|
  {
    if groups[0].category != k {
      SetGroupSame(groups[1..], k);
    }
  }

  /** Deleting a category just added gives the categories back. */
  lemma {:induction false} DeleteSetFresh(groups: seq<SkillGroup>, k: string, skills: seq<string>)
    requires k !in Categories(groups)
    ensures DeleteGroup(SetGroup(groups, k, skills), k) == groups
    decreases |groups|
  {
    if groups != [] {
      CategoriesCons(groups);
      DeleteSetFresh(groups[1..], k, skills);
      var rest := SetGroup(groups[1..], k, skills);
      assert SetGroup(groups, k, skills) == [groups[0]] + rest;
      assert ([groups[0]] + rest)[1..] == rest;
    }
  }

  /** Removing a category added through the prompt restores the record. */
  lemma AddThenRemoveCategory(r: Resume, answer: Option<string>)
    requires AddsCategory(r, answer)
    ensures RemoveSkillCategory(AddSkillCategory(r, answer), answer.value) == r
  {
    LookupListed(r.technicalSkills, answer.value);
    DeleteSetFresh(r.technicalSkills, answer.value, []);
  }

  lemma SpliceLast<T>(s: seq<T>, x: T)
    ensures RemoveAt(s + [x], |s|) == s
  {
    assert (s + [x])[..|s|] == s;
  }

  /** Every add button followed by the remove button of the entry it added restores the record. */
  lemma AddThenRemove(r: Resume, answer: Option<string>)
    ensures RemoveEducation(AddEducation(r), |r.education|) == r
    ensures RemoveCertification(AddCertification(r), |r.certifications|) == r
    ensures RemoveEmployment(AddEmployment(r), |r.employmentHistory|) == r
    ensures RemoveSummaryPoint(AddSummaryPoint(r), |r.professionalSummary|) == r
    ensures RemoveSummarySection(AddSummarySection(r), |r.summarySections|) == r
    ensures RemoveNestedSkillCategory(AddNestedSkillCategory(r, answer), |r.skillCategories|) == r
  {
    SpliceLast(r.education, NewEducation);
    SpliceLast(r.certifications, NewCertification);
    SpliceLast(r.employmentHistory, NewJob);
    SpliceLast(r.professionalSummary, "");
    SpliceLast(r.summarySections, NewSubsection);
    if answer.Some? && answer.value != "" {
      SpliceLast(r.skillCategories, SkillCategory(answer.value, [], []));
    }
  }

  /** The same inside an employment entry. */
  lemma AddThenRemoveInEntry(r: Resume, i: nat)
    requires i < |r.employmentHistory|
    ensures RemoveResponsibility(AddResponsibility(r, i), i, |r.employmentHistory[i].responsibilities|) == r
    ensures RemoveAchievement(AddAchievement(r, i), i, |r.employmentHistory[i].achievements|) == r
    ensures RemoveSubsection(AddSubsection(r, i), i, |r.employmentHistory[i].subsections|) == r
    ensures RemoveClientProject(AddClientProject(r, i), i, |r.employmentHistory[i].clientProjects|) == r
  {
    var j := r.employmentHistory[i];
    SpliceLast(j.responsibilities, "");
    SpliceLast(j.achievements, "");
    SpliceLast(j.subsections, NewSubsection);
    SpliceLast(j.clientProjects, NewClientProject);
    assert r.employmentHistory[i := j] == r.employmentHistory;
  }

  /** Plain skills shown in a box and typed back unchanged leave the record as it was, in both kinds of
      skill category. */
  lemma RetypeUnchanged(r: Resume, c: nat, k: string)
    requires c < |r.skillCategories|
    requires var xs := r.skillCategories[c].skills; xs != [] && forall n :: 0 <= n < |xs| ==> Plain(xs[n])
    ensures ChangeNestedSkillCategory(r, c, ShowSkills(r.skillCategories[c].skills)) == r
  {
    ParseShow(r.skillCategories[c].skills);
    assert r.skillCategories[c := r.skillCategories[c]] == r.skillCategories;
  }

  lemma RetypeLegacyUnchanged(r: Resume, k: string)
    requires Lookup(r.technicalSkills, k).Some?
    requires var xs := Lookup(r.technicalSkills, k).value; xs != [] && forall n :: 0 <= n < |xs| ==> Plain(xs[n])
    ensures ChangeSkillCategory(r, k, ShowSkills(Lookup(r.technicalSkills, k).value)) == r
  {
    ParseShow(Lookup(r.technicalSkills, k).value);
    SetGroupSame(r.technicalSkills, k);
  }

  /** After one edit the box is settled: showing the parsed skills and typing that back is a no-op. */
  lemma EditSettles(r: Resume, c: nat, text: string)
    requires c < |r.skillCategories|
    ensures var r1 := ChangeNestedSkillCategory(r, c, text);
      ChangeNestedSkillCategory(r1, c, ShowSkills(r1.skillCategories[c].skills)) == r1
  {
    var r1 := ChangeNestedSkillCategory(r, c, text);
    ParsedPlain(text);
    RetypeUnchanged(r1, c, "");
  }
}

=== FILE: forminit.dfy ===
/** What the edit form does with the record it is given, before and after the user edits it: the
    effect that normalises the incoming record when it arrives, and the submit handler that carries the
    missing-points report over to the submitted record. Both work on the record as a JSON value. */
module FormInit {
  import opened Base
  import opened Strings
  import opened JsonModel

  // ---------------------------------------------------------------------------------------------
  // Spreads

  /** The object `{...xs}` for an array or a string's characters: index keys in order. */
  function IndexObject(xs: seq<Json>): JsonObject
    decreases |xs|
  {
    if xs == [] then EmptyObj
    else SetProp(IndexObject(xs[..|xs| - 1]), NatToString(|xs| - 1), xs[|xs| - 1])
  }

  function Chars(s: string): (r: seq<Json>)
    ensures |r| == |s| && forall i :: 0 <= i < |s| ==> r[i] == Str([s[i]])
  {
    seq(|s|, i requires 0 <= i < |s| => Str([s[i]]))
  }

  /** `{...j}`: an object is copied, an array or a string gives its indices, anything else nothing. */
  function Spread(j: Json): (r: JsonObject)
    ensures j.Obj? ==> r == j
  {
    match j
    case Obj(_, _) => j
    case Arr(xs) => IndexObject(xs)
    case Str(s) => IndexObject(Chars(s))
    case _ => EmptyObj
  }

  /** `[...j]`: the elements of an array or the characters of a string; `None` when `j` is not iterable
      (the spread throws). */
  function SpreadArray(j: Json): (r: Option<seq<Json>>)
    ensures r.Some? <==> j.Arr? || j.Str?
    ensures j.Arr? ==> r == Some(j.items)
  {
    match j
    case Arr(xs) => Some(xs)
    case Str(s) => Some(Chars(s))
    case _ => None
  }

  /** `j.length` of a truthy value: the length of a string or an array, the `length` property of an
      object, `undefined` for a number or a boolean. */
  function LengthProp(j: Json): Json {
    match j
    case Str(s) => Num(|s|)
    case Arr(xs) => Num(|xs|)
    case Obj(_, _) => Get(j, "length")
    case _ => Undef
  }

  // ---------------------------------------------------------------------------------------------
  // The initialising effect

  /** The form's first state: `initialData || {}`. */
  function Start(initial: Json): (r: Json)
    ensures Truthy(initial) ==> r == initial
    ensures !Truthy(initial) ==> r == EmptyObj
  {
    Or(initial, EmptyObj)
  }

  /** The effect copies the flat `subsections` into `summarySections` when there are subsections and no
      summary sections (missing, falsy, or of length zero). */
  predicate CopiesSummary(initial: Json) {
    var ss := Get(initial, "summarySections");
    Truthy(Get(initial, "subsections")) && (!Truthy(ss) || LengthProp(ss) == Num(0))
  }

  /** One skill category after the effect: a copy whose `subCategories` is an array, the one it had
      or an empty one. Reading a property of `null` or `undefined` throws. */
  function NormCategory(c: Json): (r: Option<Json>)
    ensures r.Some? <==> !Nullish(c)
    ensures r.Some? ==> r.value.Obj? && Get(r.value, "subCategories").Arr?
    ensures r.Some? && c.Obj? ==> forall k :: k != "subCategories" ==> Get(r.value, k) == Get(c, k)
    ensures r.Some? && Get(c, "subCategories").Arr? ==> Get(r.value, "subCategories") == Get(c, "subCategories")
  {
    if Nullish(c) then None
    else Some(SetProp(Spread(c), "subCategories", ArrayOrEmpty(Get(c, "subCategories"))))
  }

  function NormCategories(cs: seq<Json>): (r: Option<seq<Json>>)
    ensures r.Some? <==> forall i :: 0 <= i < |cs| ==> !Nullish(cs[i])
    ensures r.Some? ==> |r.value| == |cs| && forall i :: 0 <= i < |cs| ==> Some(r.value[i]) == NormCategory(cs[i])
  {
    var os := seq(|cs|, i requires 0 <= i < |cs| => NormCategory(cs[i]));
    assert forall i :: 0 <= i < |cs| ==> (os[i].None? <==> Nullish(cs[i]));
    AllSome(os)
  }

  /** `skillCategories` after the effect: each category normalised, or an empty list when there were
      none. A truthy value that is not an array has no `map` to call, and the call throws. */
  function NormSkillCategories(v: Json): (r: Option<Json>)
  {
    if !Truthy(v) then Some(Arr([]))
    else if !v.Arr? then None
    else
      var cs :- NormCategories(v.items);
      Some(Arr(cs))
  }

  /** The effect that runs when the record given to the form changes. A falsy record leaves the form as
      it is; `None` is a throw while normalising. */
  function InitEffect(current: Json, initial: Json): (r: Option<Json>)
    ensures !Truthy(initial) ==> r == Some(current)
  {
    if !Truthy(initial) then Some(current)
    else
      var copy := Spread(initial);
      var withSummary :- if CopiesSummary(initial) then
          var items :- SpreadArray(Get(initial, "subsections"));
          Some(SetProp(copy, "summarySections", Arr(items)))
        else Some(copy);
      var cats :- NormSkillCategories(Get(initial, "skillCategories"));
      Some(SetProp(withSummary, "skillCategories", cats))
  }

  /** The effect throws exactly when the summary copy meets subsections that cannot be spread into an
      array, or the skill categories are truthy but not an array, or one of them is `null` or
      `undefined`. */
  lemma InitThrows(current: Json, initial: Json)
    ensures InitEffect(current, initial).None? <==>
      && Truthy(initial)
      && (|| (CopiesSummary(initial) && SpreadArray(Get(initial, "subsections")).None?)
          || var cats := Get(initial, "skillCategories");
             Truthy(cats) && (!cats.Arr? || exists i :: 0 <= i < |cats.items| && Nullish(cats.items[i])))
  {
  }

  /** What the effect makes of a record it accepts: a copy whose summary sections are the copied
      subsections when the copy applies, whose skill categories are a list of objects that all have a list
      of subcategories, and which agrees with the record on every other property. */
  lemma InitShape(current: Json, initial: Json)
    requires Truthy(initial) && InitEffect(current, initial).Some?
    ensures var out := InitEffect(current, initial).value;
      && out.Obj?
      && (CopiesSummary(initial) ==> Get(out, "summarySections") == Arr(SpreadArray(Get(initial, "subsections")).value))
      && (!CopiesSummary(initial) ==> Get(out, "summarySections") == Get(Spread(initial), "summarySections"))
      && Get(out, "skillCategories").Arr?
      && (forall c :: c in Get(out, "skillCategories").items ==> c.Obj? && Get(c, "subCategories").Arr?)
      && (!Truthy(Get(initial, "skillCategories")) ==> Get(out, "skillCategories") == Arr([]))
      && (forall k :: k != "summarySections" && k != "skillCategories" ==> Get(out, k) == Get(Spread(initial), k))
  {
    var cats := Get(initial, "skillCategories");
    if Truthy(cats) {
      var cs := NormCategories(cats.items).value;
      forall c | c in cs
        ensures c.Obj? && Get(c, "subCategories").Arr?
      {
        var i :| 0 <= i < |cs| && cs[i] == c;
        assert Some(cs[i]) == NormCategory(cats.items[i]);
      }
    }
  }

  /** `{...o, [k]: o[k]}` is `o`. */
  lemma SetPropSame(o: JsonObject, k: string)
    requires k in o.props
    ensures SetProp(o, k, o.props[k]) == o
  {
    assert o.props[k := o.props[k]] == o.props;
  }

  /** A normalised category is normalised already. */
  lemma NormCategoryFixed(c: Json)
    requires c.Obj? && Get(c, "subCategories").Arr?
    ensures NormCategory(c) == Some(c)
  {
    SetPropSame(c, "subCategories");
  }

  lemma NormCategoriesFixed(cs: seq<Json>)
    requires forall c :: c in cs ==> c.Obj? && Get(c, "subCategories").Arr?
    ensures NormCategories(cs) == Some(cs)
  {
    forall i | 0 <= i < |cs|
      ensures NormCategory(cs[i]) == Some(cs[i])
    {
      NormCategoryFixed(cs[i]);
    }
    AllSomeValues(seq(|cs|, i requires 0 <= i < |cs| => NormCategory(cs[i])), cs);
  }

  /** The summary copy does not apply a second time with a different result: after the copy, the
      summary sections are the spread subsections, and copying again gives the same list. */
  lemma SummaryCopySettles(initial: Json, out: Json)
    requires out.Obj? && Get(out, "subsections") == Get(initial, "subsections")
    requires CopiesSummary(initial) ==>
      (SpreadArray(Get(initial, "subsections")).Some?
       && Get(out, "summarySections") == Arr(SpreadArray(Get(initial, "subsections")).value))
    requires !CopiesSummary(initial) ==> Get(out, "summarySections") == Get(initial, "summarySections")
    ensures CopiesSummary(out) ==>
      "summarySections" in out.props && SpreadArray(Get(out, "subsections")) == Some(Get(out, "summarySections").items)
  {
    var subs := Get(initial, "subsections");
    if CopiesSummary(initial) && subs.Str? {
      assert LengthProp(Get(out, "summarySections")) == Num(|subs.s|);
    }
  }

  /** Running the effect on its own output changes nothing: the record it produces is already in the
      normal form. */
  lemma InitIdempotent(current: Json, initial: Json, later: Json)
    requires initial.Obj? && InitEffect(current, initial).Some?
    ensures var out := InitEffect(current, initial).value;
      InitEffect(later, out) == Some(out)
  {
    var out := InitEffect(current, initial).value;
    InitShape(current, initial);
    assert Spread(out) == out;
    SummaryCopySettles(initial, out);
    var cats := Get(out, "skillCategories");
    NormCategoriesFixed(cats.items);
    assert NormSkillCategories(cats) == Some(cats);
    var withSummary := if CopiesSummary(out) then
        SetProp(out, "summarySections", Arr(SpreadArray(Get(out, "subsections")).value))
      else out;
    if CopiesSummary(out) {
      SetPropSame(out, "summarySections");
    }
    assert withSummary == out;
    assert "skillCategories" in out.props;
    SetPropSame(out, "skillCategories");
  }

  // ---------------------------------------------------------------------------------------------
  // Submit

  /** `handleSubmit`: the missing-points report of the original record is attached to the form's
      record when the form's own is falsy. Reading it from a `null` record throws. */
  function Submit(initial: Json, form: JsonObject): (r: Option<JsonObject>)
    ensures r.None? <==> Nullish(initial)
  {
    var points :- Member(initial, "missingPoints");
    if Truthy(points) && !Truthy(Get(form, "missingPoints")) then Some(SetProp(form, "missingPoints", points))
    else Some(form)
  }

  /** The submitted record has a truthy missing-points report exactly when the form's or the original
      record's is; the form's own report wins; nothing else changes. */
  lemma SubmitCarriesPoints(initial: Json, form: JsonObject)
    requires !Nullish(initial)
    ensures var out := Submit(initial, form).value;
      && (Truthy(Get(out, "missingPoints")) <==> Truthy(Get(form, "missingPoints")) || Truthy(Get(initial, "missingPoints")))
      && (Truthy(Get(form, "missingPoints")) ==> Get(out, "missingPoints") == Get(form, "missingPoints"))
      && (!Truthy(Get(form, "missingPoints")) && Truthy(Get(initial, "missingPoints")) ==>
            Get(out, "missingPoints") == Get(initial, "missingPoints"))
      && (forall k :: k != "missingPoints" ==> Get(out, k) == Get(form, k))
  {
  }

  /** Submitting twice gives what submitting once gave. */
  lemma SubmitIdempotent(initial: Json, form: JsonObject)
    requires !Nullish(initial)
    ensures Submit(initial, Submit(initial, form).value) == Submit(initial, form)
  {
  }

  /** The report survives the form: an object record with a report, normalised by the effect and
      submitted unedited, is submitted with that very report. */
  lemma PointsSurviveForm(current: Json, initial: Json)
    requires initial.Obj? && Truthy(Get(initial, "missingPoints")) && InitEffect(current, initial).Some?
    ensures var out := InitEffect(current, initial).value;
      out.Obj? && Submit(initial, out).Some? && Get(Submit(initial, out).value, "missingPoints") == Get(initial, "missingPoints")
  {
    InitShape(current, initial);
  }
}

=== FILE: json.dfy ===
/** Parsed JSON values as JavaScript sees them, with `undefined` for a missing property and
    JavaScript truthiness spelled out. Numbers are integers. */
module JsonModel {
  import opened Base
  import opened Strings

  /** An object keeps its properties in a map and their insertion order in `keys`. */
  datatype Json =
    | Undef
    | Null
    | Bool(b: bool)
    | Num(n: int)
    | Str(s: string)
    | Arr(items: seq<Json>)
    | Obj(props: map<string, Json>, keys: seq<string>)

  type JsonObject = j: Json | j.Obj? witness Obj(map[], [])

  const EmptyObj: JsonObject := Obj(map[], [])

  /** JavaScript truthiness: `undefined`, `null`, `false`, `0` and `''` are falsy; arrays and objects,
      even empty ones, are truthy. */
  predicate Truthy(j: Json) {
    match j
    case Undef => false
    case Null => false
    case Bool(b) => b
    case Num(n) => n != 0
    case Str(s) => s != []
    case Arr(_) => true
    case Obj(_, _) => true
  }

  /** Reading a property of these throws a TypeError. */
  predicate Nullish(j: Json) {
    j.Undef? || j.Null?
  }

  /** `typeof j === 'object'`. */
  predicate IsObjectType(j: Json) {
    j.Null? || j.Arr? || j.Obj?
  }

  /** An own property of an object, `undefined` when absent or when `j` is not an object. Only used
      with the record's field names, none of which is inherited from a prototype. */
  function Get(j: Json, k: string): (r: Json)
    ensures !j.Obj? ==> r == Undef
    ensures j.Obj? && k !in j.props ==> r == Undef
  {
    if j.Obj? && k in j.props then j.props[k] else Undef
  }

  /** `j.k`: `None` when `j` is `null` or `undefined`, which throws in JavaScript. */
  function Member(j: Json, k: string): (r: Option<Json>)
    ensures r.None? <==> Nullish(j)
    ensures r.Some? ==> r.value == Get(j, k)
  {
    if Nullish(j) then None else Some(Get(j, k))
  }

  /** `a || b`. */
  function Or(a: Json, b: Json): (r: Json)
    ensures Truthy(a) ==> r == a
    ensures !Truthy(a) ==> r == b
  {
    if Truthy(a) then a else b
  }

  /** `a || ''`. */
  function OrEmpty(a: Json): (r: Json)
    ensures Truthy(a) ==> r == a
    ensures !Truthy(a) ==> r == Str("")
  {
    Or(a, Str(""))
  }

  /** `Array.isArray(j) ? j : []`. */
  function ArrayOrEmpty(j: Json): (r: Json)
    ensures r.Arr?
    ensures j.Arr? ==> r == j
    ensures !j.Arr? ==> r == Arr([])
  {
    if j.Arr? then j else Arr([])
  }

  /** Keys listed once each, exactly the keys of the map. */
  ghost predicate WellFormedObject(j: Json) {
    && j.Obj?
    && (forall a, b :: 0 <= a < b < |j.keys| ==> j.keys[a] != j.keys[b])
    && (forall k :: k in j.props <==> k in j.keys)
  }

  /** `{...o, [k]: v}` and `o[k] = v`: an existing key keeps its place, a new one goes last. */
  function SetProp(o: JsonObject, k: string, v: Json): (r: JsonObject)
    ensures Get(r, k) == v
    ensures forall k' :: k' != k ==> Get(r, k') == Get(o, k')
    ensures WellFormedObject(o) ==> WellFormedObject(r)
  {
    Obj(o.props[k := v], if k in o.props then o.keys else o.keys + [k])
  }

  /** No key listed twice. */
  predicate Distinct(ks: seq<string>) {
    forall a, b :: 0 <= a < b < |ks| ==> ks[a] != ks[b]
  }

  /** Two lists of distinct keys with no key in common make one list of distinct keys. */
  lemma DistinctAppend(a: seq<string>, b: seq<string>)
    requires Distinct(a) && Distinct(b)
    requires forall i :: 0 <= i < |a| ==> a[i] !in b
    ensures Distinct(a + b)
  {
    forall i, j | 0 <= i < j < |a + b|
      ensures (a + b)[i] != (a + b)[j]
    {
      if j < |a| {
        assert (a + b)[i] == a[i] && (a + b)[j] == a[j];
      } else if i < |a| {
        assert (a + b)[j] == b[j - |a|];
      } else {
        assert (a + b)[i] == b[i - |a|] && (a + b)[j] == b[j - |a|];
      }
    }
  }

  /** The object literal `{ks[0]: vs[0], ks[1]: vs[1], ...}`, keys in the order written. */
  function Fields(ks: seq<string>, vs: seq<Json>): (r: JsonObject)
    requires |ks| == |vs| && Distinct(ks)
    ensures r.keys == ks
  {
    Obj(map i | 0 <= i < |ks| :: ks[i] := vs[i], ks)
  }

  /** Reading back a property of an object literal gives the value written for it. */
  lemma GetFields(ks: seq<string>, vs: seq<Json>, i: nat)
    requires |ks| == |vs| && Distinct(ks) && i < |ks|
    ensures Get(Fields(ks, vs), ks[i]) == vs[i]
  {
  }

  /** An object built from a key list has no other properties. */
  lemma FieldsOnly(ks: seq<string>, vs: seq<Json>, k: string)
    requires |ks| == |vs| && Distinct(ks) && k !in ks
    ensures Get(Fields(ks, vs), k) == Undef
  {
  }

  /** `String(j)`, as a template literal renders a value. */
  function ToJsString(j: Json): string {
    match j
    case Undef => "undefined"
    case Null => "null"
    case Bool(b) => if b then "true" else "false"
    case Num(n) => IntToString(n)
    case Str(s) => s
    case Arr(xs) => JoinElements(xs)
    case Obj(_, _) => "[object Object]"
  }

  /** `Array.prototype.toString`: elements joined by commas, `null` and `undefined` as empty. */
  function JoinElements(xs: seq<Json>): string
    decreases xs
  {
    if xs == [] then ""
    else
      var head := if Nullish(xs[0]) then "" else ToJsString(xs[0]);
      if |xs| == 1 then head else head + "," + JoinElements(xs[1..])
  }
}

=== FILE: preview.dfy ===
/** The on-screen preview `GeneratedResume` renders from a résumé record, as a tree of abstract nodes:
    headings with their level, paragraphs, caption/value pairs, bullet lists and grouping boxes. Class
    names and layout wrappers that only place their children side by side are not part of the model. */
module Preview {
  import opened Base
  import opened Strings
  import opened Records
  import Document

  datatype Node =
    | Heading(level: nat, text: string)      // `<h1>` … `<h5>`
    | Para(text: string)                     // a `<p>` of plain text
    | Pair(caption: string, value: string)   // a `<p>` holding a caption span and a value span
    | List(items: seq<string>)               // a `<ul>` with one `<li>` per item
    | Group(children: seq<Node>)             // a `<div>` box

  /** The sections of the preview, in page order. */
  datatype Part = Summary | Employment | Schooling | Certifications | Skills

  /** The `<h2>` title of a section. */
  function TitleOf(p: Part): string {
    match p
    case Summary => "Professional Summary"
    case Employment => "Employment History"
    case Schooling => "Education"
    case Certifications => "Certifications"
    case Skills => "Technical Skills"
  }

  datatype Section = Section(part: Part, body: seq<Node>)

  datatype Page = Page(header: seq<Node>, sections: seq<Section>)

  /** The centred header: the name, the title, and the requisition number when there is one. */
  function Header(r: Resume): seq<Node> {
    [Heading(1, OrElse(r.name, "Full Name")), Para(OrElse(r.title, "Professional Title"))]
    + (if r.requisitionNumber != "" then [Para("Requisition Number: " + r.requisitionNumber)] else [])
  }

  // ---------------------------------------------------------------- professional summary

  /** The summary section shows when any of the three summary collections is non-empty. */
  predicate HasSummary(r: Resume) {
    r.professionalSummary != [] || r.summarySections != [] || r.subsections != []
  }

  /** One summary section box: its title when it has one, then every item, blank ones included. */
  function SummaryCard(s: Subsection): Node {
    Group((if s.title != "" then [Heading(4, s.title)] else []) + (if s.content != [] then [List(s.content)] else []))
  }

  /** The sections listed are those of `summarySections || subsections`, which is always
      `summarySections` since an array is truthy; the box that holds them is drawn when either list is
      non-empty. */
  function SummarySection(r: Resume): Section {
    var ss := r.summarySections;
    Section(Summary,
      (if r.professionalSummary != [] then [List(r.professionalSummary)] else [])
      + (if ss != [] || r.subsections != [] then [Group(seq(|ss|, i requires 0 <= i < |ss| => SummaryCard(ss[i])))] else []))
  }

  // ---------------------------------------------------------------- employment history

  /** A caption/value line, present only when the value is. */
  function PairIf(caption: string, value: string): seq<Node> {
    if value != "" then [Pair(caption, value)] else []
  }

  /** The heading of client project number `index` (from 0). */
  function ProjectHeading(p: ClientProject, index: nat): (t: string)
    ensures t != ""
  {
    if p.clientName != "" && p.projectName != "" then p.clientName + " - " + p.projectName
    else OrElse(p.clientName, OrElse(p.projectName, "Project " + NatToString(index + 1)))
  }

  function ProjectCard(p: ClientProject, index: nat): Node {
    Group([Heading(5, ProjectHeading(p, index))]
      + (if p.period != "" then [Para("Duration: " + p.period)] else [])
      + (if p.projectDescription != "" then [Para(p.projectDescription)] else [])
      + (if p.responsibilities != [] then [List(p.responsibilities)] else []))
  }

  function SubsectionCard(s: Subsection): Node {
    Group((if s.title != "" then [Para(s.title + ":")] else []) + (if s.content != [] then [List(s.content)] else []))
  }

  /** The company, role, period and location of an entry, each with its fallback. */
  function JobHeader(j: Job): seq<Node> {
    [Heading(3, OrElse(j.companyName, "Company Name")), Para(OrElse(j.roleName, "Role")),
     Para(OrElse(j.workPeriod, "Period")), Para(OrElse(j.location, "Location"))]
  }

  function JobDetails(j: Job): seq<Node> {
    PairIf("Project: ", j.project) + PairIf("Project Role: ", j.projectRole)
    + PairIf("Project Description: ", j.projectDescription) + PairIf("Project Environment: ", j.projectEnvironment)
    + PairIf("Client: ", j.client) + PairIf("Customer: ", j.customer)
    + (if j.description != "" then [Para(j.description)] else [])
  }

  function ClientProjectsBox(ps: seq<ClientProject>): seq<Node> {
    if ps == [] then []
    else [Group([Para("Client Projects:")] + seq(|ps|, i requires 0 <= i < |ps| => ProjectCard(ps[i], i)))]
  }

  /** Every responsibility gets a bullet, blank ones included. */
  function ResponsibilitiesBox(rs: seq<string>): seq<Node> {
    if rs == [] then [] else [Group([Para("General Responsibilities:"), List(rs)])]
  }

  function AchievementsBox(a: seq<string>): seq<Node> {
    if a == [] then [] else [Group([Para("Achievements:"), List(a)])]
  }

  function JobCard(j: Job): Node {
    var ss := j.subsections;
    Group(JobHeader(j) + JobDetails(j) + ClientProjectsBox(j.clientProjects) + ResponsibilitiesBox(j.responsibilities)
      + seq(|ss|, i requires 0 <= i < |ss| => SubsectionCard(ss[i]))
      + PairIf("Key Technologies/Skills: ", j.keyTechnologies) + PairIf("Environment: ", j.environment)
      + AchievementsBox(j.achievements))
  }

  // ---------------------------------------------------------------- education and certifications

  /** `{degree || 'Degree'} {areaOfStudy ? 'in ' + areaOfStudy : ''}`: the space between the two parts
      is always there. */
  function DegreeLine(e: Education): string {
    OrElse(e.degree, "Degree") + " " + (if e.areaOfStudy != "" then "in " + e.areaOfStudy else "")
  }

  function AwardLine(e: Education): string {
    if e.wasAwarded then "Degree awarded" else "Degree in progress"
  }

  function EducationCard(e: Education): Node {
    Group([Heading(3, DegreeLine(e)), Para(OrElse(e.school, "Institution")), Para(OrElse(e.date, "Date")),
           Para(OrElse(e.location, "Location")), Para(AwardLine(e))])
  }

  /** The issuer and the date obtained, each with its caption, on one line. */
  function IssuedLine(c: Certification): string {
    (if c.issuedBy != "" then "Issued by: " + c.issuedBy else "")
    + (if c.dateObtained != "" then "  Obtained: " + c.dateObtained else "")
  }

  function CertificationCard(c: Certification): Node {
    Group([Heading(3, OrElse(c.name, "Certification")), Para(IssuedLine(c))]
      + (if c.expirationDate != "" then [Para("Expires: " + c.expirationDate)] else [])
      + (if c.certificationNumber != "" then [Para("Certification #: " + c.certificationNumber)] else []))
  }

  // ---------------------------------------------------------------- technical skills

  function LegacyCard(g: SkillGroup): Node {
    Group([Heading(3, g.category), Para(Join(g.skills, ", "))])
  }

  /** A subcategory lists its skills one per bullet. */
  function SubcategoryCard(s: SkillSubcategory): Node {
    Group([Heading(4, OrElse(s.name, "Subcategory"))] + (if s.skills != [] then [List(s.skills)] else []))
  }

  /** A category shows its skills joined on one line, then a box of its subcategories. */
  function CategoryCard(c: SkillCategory): Node {
    var subs := c.subCategories;
    Group([Heading(3, OrElse(c.categoryName, "Category"))]
      + (if c.skills != [] then [Para(Join(c.skills, ", "))] else [])
      + (if subs != [] then [Group(seq(|subs|, k requires 0 <= k < |subs| => SubcategoryCard(subs[k])))] else []))
  }

  function SkillsSection(r: Resume): Section {
    var gs := r.technicalSkills;
    var cs := r.skillCategories;
    Section(Skills,
      (if gs != [] then [Group(seq(|gs|, i requires 0 <= i < |gs| => LegacyCard(gs[i])))] else [])
      + (if cs != [] then [Group(seq(|cs|, i requires 0 <= i < |cs| => CategoryCard(cs[i])))] else []))
  }

  // ---------------------------------------------------------------- the page

  function EmploymentSection(jobs: seq<Job>): Section {
    Section(Employment, seq(|jobs|, i requires 0 <= i < |jobs| => JobCard(jobs[i])))
  }

  function EducationSection(es: seq<Education>): Section {
    Section(Schooling, seq(|es|, i requires 0 <= i < |es| => EducationCard(es[i])))
  }

  function CertificationsSection(cs: seq<Certification>): Section {
    Section(Certifications, seq(|cs|, i requires 0 <= i < |cs| => CertificationCard(cs[i])))
  }

  /** The preview: the header, then each section whose data is present, in page order. */
  function Render(r: Resume): Page {
    Page(Header(r),
      Optional(HasSummary(r), SummarySection(r))
      + (Optional(r.employmentHistory != [], EmploymentSection(r.employmentHistory))
      + (Optional(r.education != [], EducationSection(r.education))
      + (Optional(r.certifications != [], CertificationsSection(r.certifications))
      + Optional(r.technicalSkills != [] || r.skillCategories != [], SkillsSection(r))))))
  }

  const PageOrder: seq<Part> := [Summary, Employment, Schooling, Certifications, Skills]

  /** Whether the data behind a section is present. */
  predicate Shown(r: Resume, p: Part) {
    match p
    case Summary => HasSummary(r)
    case Employment => r.employmentHistory != []
    case Schooling => r.education != []
    case Certifications => r.certifications != []
    case Skills => r.technicalSkills != [] || r.skillCategories != []
  }

  function Parts(ss: seq<Section>): (ps: seq<Part>)
    ensures |ps| == |ss| && forall i :: 0 <= i < |ss| ==> ps[i] == ss[i].part
  {
    seq(|ss|, i requires 0 <= i < |ss| => ss[i].part)
  }

  /** A section when its flag is set, nothing otherwise. */
  function Optional(b: bool, s: Section): seq<Section> {
    if b then [s] else []
  }

  /** One optional section in front of the rest: its part leads the rest's parts when its flag is set. */
  lemma OptionalStep(s: Section, rest: seq<Section>, keep: Part -> bool, order: seq<Part>)
    requires Parts(rest) == Filter(order, keep)
    ensures Parts(Optional(keep(s.part), s) + rest) == Filter([s.part] + order, keep)
  {
    assert ([s.part] + order)[1..] == order;
  }

  /** Five optional sections in a row show the parts whose flags are set, in order. */
  lemma OptionalParts(s1: Section, s2: Section, s3: Section, s4: Section, s5: Section, keep: Part -> bool)
    requires [s1.part, s2.part, s3.part, s4.part, s5.part] == PageOrder
    ensures Parts(Optional(keep(s1.part), s1) + (Optional(keep(s2.part), s2) + (Optional(keep(s3.part), s3)
                  + (Optional(keep(s4.part), s4) + Optional(keep(s5.part), s5))))) == Filter(PageOrder, keep)
  {
    var o2, o3, o4, o5 := Optional(keep(s2.part), s2), Optional(keep(s3.part), s3),
      Optional(keep(s4.part), s4), Optional(keep(s5.part), s5);
    assert Filter([], keep) == [];
    OptionalStep(s5, [], keep, []);
    assert o5 + [] == o5 && [s5.part] + [] == [s5.part];
    OptionalStep(s4, o5, keep, [s5.part]);
    OptionalStep(s3, o4 + o5, keep, [s4.part, s5.part]);
    OptionalStep(s2, o3 + (o4 + o5), keep, [s3.part, s4.part, s5.part]);
    OptionalStep(s1, o2 + (o3 + (o4 + o5)), keep, [s2.part, s3.part, s4.part, s5.part]);
  }

  /** The page shows exactly the sections whose data is present, each once, in the fixed order summary,
      employment, education, certifications, skills; there is no empty-skills placeholder. */
  lemma SectionOrder(r: Resume)
    ensures Parts(Render(r).sections) == Filter(PageOrder, p => Shown(r, p))
  {
    OptionalParts(SummarySection(r), EmploymentSection(r.employmentHistory), EducationSection(r.education),
                  CertificationsSection(r.certifications), SkillsSection(r), p => Shown(r, p));
  }

  /** The preview places the summary before the employment history; the Word document places it
      after. */
  lemma SummaryPlacementDiffers(r: Resume)
    requires r.professionalSummary != [] && r.employmentHistory != []
    ensures Render(r).sections[0].part == Summary && Render(r).sections[1].part == Employment
    ensures var hs := Filter(Document.WordDocument(r), Document.IsHeading);
      |hs| == 5 && hs[2] == Document.Heading("Employment History:") && hs[3] == Document.Heading("Professional Summary")
  {
    PreviewSummaryFirst(r);
    Document.DocumentHeadings(r);
  }

  lemma PreviewSummaryFirst(r: Resume)
    requires HasSummary(r) && r.employmentHistory != []
    ensures Render(r).sections[0].part == Summary && Render(r).sections[1].part == Employment
  {
  }

  /** With an empty `summarySections` but a non-empty `subsections` the summary section shows its title
      over an empty box: the condition looks at both lists, the listing at the first only. */
  lemma SummaryMayBeBare(r: Resume)
    requires r.professionalSummary == [] && r.summarySections == [] && r.subsections != []
    ensures Render(r).sections[0] == Section(Summary, [Group([])])
  {
    var ss := r.summarySections;
    assert seq(|ss|, i requires 0 <= i < |ss| => SummaryCard(ss[i])) == [];
  }

  /** Both builders show the name, with the same fallback. */
  lemma NameAgrees(r: Resume)
    ensures Render(r).header[0].text == Document.WordDocument(r)[0].text
    ensures r.name == "" ==> Render(r).header[0].text == "Full Name"
  {
    Document.DocumentStart(r);
  }

  /** A named client project gets the same heading in the preview as in the document; an unnamed one is
      numbered in the preview and called 'Client Project' in the document. */
  lemma ProjectHeadingAgrees(p: ClientProject, index: nat)
    ensures p.clientName != "" || p.projectName != "" ==> ProjectHeading(p, index) == Document.ProjectTitle(p)
    ensures p.clientName == "" && p.projectName == "" ==>
      ProjectHeading(p, index) == "Project " + NatToString(index + 1) && Document.ProjectTitle(p) == "Client Project"
  {
  }

  /** The preview lists responsibilities whenever there are any, blank ones included; the document
      drops the blank ones and, when nothing is left, the label too. */
  lemma BlankResponsibilitiesDiffer(rs: seq<string>)
    requires rs != [] && NonBlank(rs) == []
    ensures ResponsibilitiesBox(rs) == [Group([Para("General Responsibilities:"), List(rs)])]
    ensures Document.ResponsibilityBlocks(rs) == []
  {
    Document.AnyTextNonBlank(rs);
  }

  /** The award line of the preview and the Yes/No cell of the document table say the same thing. */
  lemma AwardAgrees(e: Education)
    ensures AwardLine(e) == "Degree awarded" <==> Document.EducationRow(e)[4] == Document.Text("Yes")
    ensures AwardLine(e) == "Degree in progress" <==> Document.EducationRow(e)[4] == Document.Text("No")
  {
  }

  /** The issue line starts with its issuer caption or with the spaces before the date caption. */
  lemma IssuedLineStart(c: Certification)
    ensures IssuedLine(c) == "" || IssuedLine(c)[0] == 'I' || IssuedLine(c)[0] == ' '
  {
  }

  /** For an expiration date other than a dash, the preview shows it exactly when the document's cell for
      it holds something other than a dash. */
  lemma ExpiryAgrees(c: Certification)
    requires c.expirationDate != "-"
    ensures Para("Expires: " + c.expirationDate) in CertificationCard(c).children <==>
      Document.CertificationRow(c)[4] != Document.Text("-")
  {
    var shown := Para("Expires: " + c.expirationDate);
    var num := if c.certificationNumber != "" then [Para("Certification #: " + c.certificationNumber)] else [];
    assert CertificationCard(c).children ==
      [Heading(3, OrElse(c.name, "Certification")), Para(IssuedLine(c))]
      + (if c.expirationDate != "" then [shown] else []) + num;
    assert shown.text[0] == 'E';
    IssuedLineStart(c);
    if num != [] {
      assert num[0].text[0] == 'C';
    }
  }

  /** The same for a certification number other than a dash. */
  lemma NumberAgrees(c: Certification)
    requires c.certificationNumber != "-"
    ensures Para("Certification #: " + c.certificationNumber) in CertificationCard(c).children <==>
      Document.CertificationRow(c)[3] != Document.Text("-")
  {
    var shown := Para("Certification #: " + c.certificationNumber);
    var exp := if c.expirationDate != "" then [Para("Expires: " + c.expirationDate)] else [];
    assert CertificationCard(c).children ==
      [Heading(3, OrElse(c.name, "Certification")), Para(IssuedLine(c))]
      + exp + (if c.certificationNumber != "" then [shown] else []);
    assert shown.text[0] == 'C';
    IssuedLineStart(c);
    if exp != [] {
      assert exp[0].text[0] == 'E';
    }
  }

  /** An expiry written as a dash is where the two views part: the preview shows "Expires: -" while the
      document's cell holds the same dash it uses for a missing date. */
  lemma DashExpiryDiffers(c: Certification)
    requires c.expirationDate == "-"
    ensures Para("Expires: -") in CertificationCard(c).children
    ensures Document.CertificationRow(c)[4] == Document.Text("-")
  {
    assert CertificationCard(c).children[2] == Para("Expires: -");
  }

  /** The same for a certification number written as a dash. */
  lemma DashNumberDiffers(c: Certification)
    requires c.certificationNumber == "-"
    ensures Para("Certification #: -") in CertificationCard(c).children
    ensures Document.CertificationRow(c)[3] == Document.Text("-")
  {
    var children := CertificationCard(c).children;
    assert children[|children| - 1] == Para("Certification #: -");
  }

  /** A legacy skill group shows the same joined skills as its line in the document. */
  lemma LegacySkillsAgree(gs: seq<SkillGroup>, i: nat)
    requires i < |gs|
    ensures LegacyCard(gs[i]).children[1].text == Document.LegacyLines(gs)[i].value
    ensures LegacyCard(gs[i]).children[0].text == gs[i].category
  {
  }

  /** A subcategory's skills are one bullet each in the preview and one joined line in the document; an
      empty list shows no bullets in the preview and an empty value in the document. */
  lemma SubcategorySkillsDiffer(c: SkillCategory, k: nat)
    requires k < |c.subCategories|
    ensures var s := c.subCategories[k];
      && (List(s.skills) in SubcategoryCard(s).children <==> s.skills != [])
      && Document.CategoryPart(c)[k + 1].value == Join(s.skills, ", ")
  {
  }
}

=== FILE: record.dfy ===
/** The résumé record as the form, the document builder and the preview read it: every text is a
    string, every list a list. The one value carried without interpretation is `missingPoints`. */
module Records {
  import opened JsonModel

  /** A titled list of bullet texts: a summary section or a subsection of an employment entry. */
  datatype Subsection = Subsection(title: string, content: seq<string>)

  datatype ClientProject = ClientProject(
    clientName: string,
    projectName: string,
    projectDescription: string,
    responsibilities: seq<string>,
    period: string)

  datatype Job = Job(
    companyName: string,
    roleName: string,
    workPeriod: string,
    location: string,
    description: string,
    project: string,
    customer: string,
    projectRole: string,
    projectDescription: string,
    projectEnvironment: string,
    responsibilities: seq<string>,
    client: string,
    clientProjects: seq<ClientProject>,
    subsections: seq<Subsection>,
    keyTechnologies: string,
    environment: string,
    achievements: seq<string>)

  datatype Education = Education(
    degree: string,
    areaOfStudy: string,
    school: string,
    location: string,
    date: string,
    wasAwarded: bool)

  datatype Certification = Certification(
    name: string,
    issuedBy: string,
    dateObtained: string,
    certificationNumber: string,
    expirationDate: string)

  datatype SkillSubcategory = SkillSubcategory(name: string, skills: seq<string>)

  datatype SkillCategory = SkillCategory(categoryName: string, skills: seq<string>, subCategories: seq<SkillSubcategory>)

  /** One entry of the legacy `technicalSkills` object: a category name and its skills, in the object's
      key order. */
  datatype SkillGroup = SkillGroup(category: string, skills: seq<string>)

  datatype Resume = Resume(
    name: string,
    title: string,
    requisitionNumber: string,
    professionalSummary: seq<string>,
    summarySections: seq<Subsection>,
    subsections: seq<Subsection>,
    employmentHistory: seq<Job>,
    education: seq<Education>,
    certifications: seq<Certification>,
    technicalSkills: seq<SkillGroup>,
    skillCategories: seq<SkillCategory>,
    missingPoints: Json)

  /** The legacy skill categories, in key order. */
  function Categories(groups: seq<SkillGroup>): (r: seq<string>)
    ensures |r| == |groups| && forall i :: 0 <= i < |groups| ==> r[i] == groups[i].category
  {
    seq(|groups|, i requires 0 <= i < |groups| => groups[i].category)
  }

  /** The legacy skills are an object, so no category name occurs twice. */
  ghost predicate Valid(r: Resume) {
    Distinct(Categories(r.technicalSkills))
  }
}

=== FILE: sanitize.dfy ===
/** The ingestion normaliser (`sanitizeResumeData`): an arbitrary parsed JSON value becomes a résumé
    record whose every property has a known shape. Each record kind is a schema: its keys in the order
    the normaliser's object literal writes them, each with the rule that normalises that property. */
module Normalise {
  import opened Base
  import opened JsonModel

  /** How the normaliser treats one property. */
  datatype Rule =
    | Text            // `x || ''`
    | List            // `Array.isArray(x) ? x : []`
    | Wrap            // an array is kept, another truthy value becomes `[x]`, anything else `[]`
    | ObjectDefault   // `x || {}`
    | AwardedDefault  // `x !== undefined ? x : true`
    | Each(schema: Schema)  // `Array.isArray(x) ? x.map(entry => ...) : []`, entries normalised by `schema`

  datatype Schema = Schema(keys: seq<string>, rules: seq<Rule>)

  /** One rule per key and no key twice, all the way down. */
  ghost predicate WellFormed(s: Schema)
    decreases s
  {
    && |s.keys| == |s.rules|
    && Distinct(s.keys)
    && forall i :: 0 <= i < |s.rules| ==> WellFormedRule(s.rules[i])
  }

  ghost predicate WellFormedRule(rule: Rule)
    decreases rule
  {
    rule.Each? ==> WellFormed(rule.schema)
  }

  const SubsectionSchema := Schema(["title", "content"], [Text, List])

  const ProjectSchema := Schema(
    ["clientName", "projectName", "projectDescription", "responsibilities", "period"],
    [Text, Text, Text, List, Text])

  const JobKeys: seq<string> := [
    "companyName", "roleName", "workPeriod", "location", "description", "project", "customer",
    "projectRole", "projectDescription", "projectEnvironment", "responsibilities", "client",
    "clientProjects", "subsections", "keyTechnologies", "environment", "achievements", "additionalFields"
  ]

  const JobSchema := Schema(JobKeys, [
    Text, Text, Text, Text, Text, Text, Text, Text, Text, Text, Wrap, Text,
    Each(ProjectSchema), Each(SubsectionSchema), Text, Text, List, ObjectDefault
  ])

  const SubcategorySchema := Schema(["name", "skills"], [Text, List])

  const CategorySchema := Schema(["categoryName", "skills", "subCategories"], [Text, List, Each(SubcategorySchema)])

  const EducationSchema := Schema(
    ["degree", "areaOfStudy", "school", "location", "date", "wasAwarded"],
    [Text, Text, Text, Text, Text, AwardedDefault])

  const CertificationSchema := Schema(
    ["name", "issuedBy", "dateObtained", "certificationNumber", "expirationDate"],
    [Text, Text, Text, Text, Text])

  lemma JobKeysDistinct()
    ensures Distinct(JobKeys)
  {
    var texts := JobKeys[..9];
    var rest := JobKeys[9..];
    assert texts == ["companyName", "roleName", "workPeriod", "location", "description", "project", "customer",
                     "projectRole", "projectDescription"];
    assert rest == ["projectEnvironment", "responsibilities", "client", "clientProjects", "subsections",
                    "keyTechnologies", "environment", "achievements", "additionalFields"];
    assert Distinct(texts);
    assert Distinct(rest);
    assert forall i :: 0 <= i < |texts| ==> texts[i] !in rest;
    DistinctAppend(texts, rest);
    assert texts + rest == JobKeys;
  }

  lemma LeafSchemasWellFormed()
    ensures WellFormed(SubsectionSchema) && WellFormed(ProjectSchema) && WellFormed(SubcategorySchema)
    ensures WellFormed(EducationSchema) && WellFormed(CertificationSchema)
  {
    SmallSchemasWellFormed();
    ProjectSchemaWellFormed();
    EducationSchemaWellFormed();
    CertificationSchemaWellFormed();
  }

  lemma SmallSchemasWellFormed()
    ensures WellFormed(SubsectionSchema) && WellFormed(SubcategorySchema)
  {
  }

  lemma ProjectSchemaWellFormed()
    ensures WellFormed(ProjectSchema)
  {
  }

  lemma EducationSchemaWellFormed()
    ensures WellFormed(EducationSchema)
  {
  }

  lemma CertificationSchemaWellFormed()
    ensures WellFormed(CertificationSchema)
  {
  }

  lemma JobSchemaWellFormed()
    ensures WellFormed(JobSchema)
  {
    JobKeysDistinct();
    LeafSchemasWellFormed();
    assert WellFormedRule(Each(ProjectSchema)) && WellFormedRule(Each(SubsectionSchema));
  }

  lemma CategorySchemaWellFormed()
    ensures WellFormed(CategorySchema)
  {
    LeafSchemasWellFormed();
    assert WellFormedRule(Each(SubcategorySchema));
  }

  /** One property normalised by its rule; `None` when the JavaScript would throw. */
  function Apply(rule: Rule, v: Json): (r: Option<Json>)
    requires WellFormedRule(rule)
    ensures rule.Text? ==> r == Some(if Truthy(v) then v else Str(""))
    ensures rule.List? ==> r == Some(if v.Arr? then v else Arr([]))
    ensures rule.Wrap? ==> r == Some(if v.Arr? then v else if Truthy(v) then Arr([v]) else Arr([]))
    ensures rule.ObjectDefault? ==> r == Some(if Truthy(v) then v else EmptyObj)
    ensures rule.AwardedDefault? ==> r == Some(if v.Undef? then Bool(true) else v)
    ensures rule.Each? && !v.Arr? ==> r == Some(Arr([]))
    ensures rule.Each? && v.Arr? && r.Some? ==>
      r.value.Arr? && |r.value.items| == |v.items|
      && forall i :: 0 <= i < |v.items| ==> NormRecord(rule.schema, v.items[i]) == Some(r.value.items[i])
    ensures rule.Each? && v.Arr? ==>
      (r.None? <==> exists i :: 0 <= i < |v.items| && NormRecord(rule.schema, v.items[i]).None?)
    decreases rule, 0
  {
    match rule
    case Text => Some(OrEmpty(v))
    case List => Some(ArrayOrEmpty(v))
    case Wrap => Some(if v.Arr? then v else if Truthy(v) then Arr([v]) else Arr([]))
    case ObjectDefault => Some(Or(v, EmptyObj))
    case AwardedDefault => Some(if v.Undef? then Bool(true) else v)
    case Each(s) =>
      if v.Arr? then
        var ys :- AllSome(seq(|v.items|, i requires 0 <= i < |v.items| => NormRecord(s, v.items[i])));
        Some(Arr(ys))
      else Some(Arr([]))
  }

  /** One record normalised: an object literal with the schema's keys in order, each property
      normalised by its rule. `None` when `x` is `null`/`undefined` (reading its properties throws)
      or when normalising one of its properties throws. */
  function NormRecord(s: Schema, x: Json): (r: Option<Json>)
    requires WellFormed(s)
    ensures Nullish(x) ==> r.None?
    ensures r.Some? ==> exists vs :: (|vs| == |s.keys| && r.value == Fields(s.keys, vs)
      && forall i :: 0 <= i < |s.keys| ==> Apply(s.rules[i], Get(x, s.keys[i])) == Some(vs[i]))
    ensures !Nullish(x) ==>
      (r.None? <==> exists i :: 0 <= i < |s.keys| && Apply(s.rules[i], Get(x, s.keys[i])).None?)
    decreases s, 1
  {
    if Nullish(x) then None
    else
      var vs :- AllSome(seq(|s.keys|, i requires 0 <= i < |s.keys| => Apply(s.rules[i], Get(x, s.keys[i]))));
      Some(Fields(s.keys, vs))
  }

  /** The properties of `x` read in the schema's key order. */
  function Slots(s: Schema, x: Json): (r: seq<Json>)
    ensures |r| == |s.keys| && forall i :: 0 <= i < |s.keys| ==> r[i] == Get(x, s.keys[i])
  {
    seq(|s.keys|, i requires 0 <= i < |s.keys| => Get(x, s.keys[i]))
  }

  lemma SlotsFields(s: Schema, vs: seq<Json>)
    requires WellFormed(s) && |vs| == |s.keys|
    ensures Slots(s, Fields(s.keys, vs)) == vs
  {
    forall i | 0 <= i < |vs|
      ensures Slots(s, Fields(s.keys, vs))[i] == vs[i]
    {
      GetFields(s.keys, vs, i);
    }
  }

  /** The shapes the normaliser produces: `x || ''` leaves a truthy value or `''`, the list rules an array,
      `x || {}` a truthy value, the `wasAwarded` rule anything but `undefined`, and a list of records an
      array of objects with exactly the schema's keys, each property again of its rule's shape. */
  ghost predicate Conforms(rule: Rule, v: Json)
    requires WellFormedRule(rule)
    decreases rule, 0
  {
    match rule
    case Text => Truthy(v) || v == Str("")
    case List => v.Arr?
    case Wrap => v.Arr?
    case ObjectDefault => Truthy(v)
    case AwardedDefault => !v.Undef?
    case Each(s) => v.Arr? && forall i :: 0 <= i < |v.items| ==> RecordConforms(s, v.items[i])
  }

  ghost predicate RecordConforms(s: Schema, x: Json)
    requires WellFormed(s)
    decreases s, 1
  {
    && x == Fields(s.keys, Slots(s, x))
    && forall i :: 0 <= i < |s.keys| ==> Conforms(s.rules[i], Get(x, s.keys[i]))
  }

  /** A value of the shape its rule produces is left unchanged by the rule. */
  lemma {:induction false} ConformsFixed(rule: Rule, v: Json)
    requires WellFormedRule(rule) && Conforms(rule, v)
    ensures Apply(rule, v) == Some(v)
    decreases rule, 0
  {
    if rule.Each? {
      var os := seq(|v.items|, i requires 0 <= i < |v.items| => NormRecord(rule.schema, v.items[i]));
      forall i | 0 <= i < |v.items|
        ensures os[i] == Some(v.items[i])
      {
        RecordConformsFixed(rule.schema, v.items[i]);
      }
      AllSomeValues(os, v.items);
    }
  }

  lemma {:induction false} RecordConformsFixed(s: Schema, x: Json)
    requires WellFormed(s) && RecordConforms(s, x)
    ensures NormRecord(s, x) == Some(x)
    decreases s, 1
  {
    var vs := Slots(s, x);
    var os := seq(|s.keys|, i requires 0 <= i < |s.keys| => Apply(s.rules[i], Get(x, s.keys[i])));
    forall i | 0 <= i < |s.keys|
      ensures os[i] == Some(vs[i])
    {
      ConformsFixed(s.rules[i], Get(x, s.keys[i]));
    }
    AllSomeValues(os, vs);
  }

  /** What a rule produces has the rule's shape. */
  lemma {:induction false} ApplyConforms(rule: Rule, v: Json)
    requires WellFormedRule(rule) && Apply(rule, v).Some?
    ensures Conforms(rule, Apply(rule, v).value)
    decreases rule, 0
  {
    if rule.Each? && v.Arr? {
      var w := Apply(rule, v).value;
      forall i | 0 <= i < |w.items|
        ensures RecordConforms(rule.schema, w.items[i])
      {
        NormRecordConforms(rule.schema, v.items[i]);
      }
    }
  }

  lemma {:induction false} NormRecordConforms(s: Schema, x: Json)
    requires WellFormed(s) && NormRecord(s, x).Some?
    ensures RecordConforms(s, NormRecord(s, x).value)
    decreases s, 1
  {
    var vs :| |vs| == |s.keys| && NormRecord(s, x).value == Fields(s.keys, vs)
      && forall i :: 0 <= i < |s.keys| ==> Apply(s.rules[i], Get(x, s.keys[i])) == Some(vs[i]);
    var y := Fields(s.keys, vs);
    SlotsFields(s, vs);
    forall i | 0 <= i < |s.keys|
      ensures Conforms(s.rules[i], Get(y, s.keys[i]))
    {
      GetFields(s.keys, vs, i);
      ApplyConforms(s.rules[i], Get(x, s.keys[i]));
    }
  }

  /** Normalising a property twice gives what normalising it once gave. */
  lemma ApplyIdempotent(rule: Rule, v: Json)
    requires WellFormedRule(rule) && Apply(rule, v).Some?
    ensures Apply(rule, Apply(rule, v).value) == Apply(rule, v)
  {
    ApplyConforms(rule, v);
    ConformsFixed(rule, Apply(rule, v).value);
  }

  /** A property or entry reached through array-valued list properties is `null`/`undefined`:
      reading one of its properties is what makes the normaliser throw. */
  ghost predicate RuleThrows(rule: Rule, v: Json)
    decreases rule, 0
  {
    rule.Each? && v.Arr? && exists i :: 0 <= i < |v.items| && RecordThrows(rule.schema, v.items[i])
  }

  ghost predicate RecordThrows(s: Schema, x: Json)
    decreases s, 1
  {
    Nullish(x) || exists i :: 0 <= i < |s.keys| && i < |s.rules| && RuleThrows(s.rules[i], Get(x, s.keys[i]))
  }

  /** Normalisation fails exactly when some entry the normaliser maps over is `null`/`undefined`. */
  lemma {:induction false} ApplyThrows(rule: Rule, v: Json)
    requires WellFormedRule(rule)
    ensures Apply(rule, v).None? <==> RuleThrows(rule, v)
    decreases rule, 0
  {
    if rule.Each? && v.Arr? {
      forall i | 0 <= i < |v.items|
        ensures NormRecord(rule.schema, v.items[i]).None? <==> RecordThrows(rule.schema, v.items[i])
      {
        NormRecordThrows(rule.schema, v.items[i]);
      }
    }
  }

  lemma {:induction false} NormRecordThrows(s: Schema, x: Json)
    requires WellFormed(s)
    ensures NormRecord(s, x).None? <==> RecordThrows(s, x)
    decreases s, 1
  {
    if !Nullish(x) {
      forall i | 0 <= i < |s.keys|
        ensures Apply(s.rules[i], Get(x, s.keys[i])).None? <==> RuleThrows(s.rules[i], Get(x, s.keys[i]))
      {
        ApplyThrows(s.rules[i], Get(x, s.keys[i]));
      }
    }
  }

  const ResumeKeys: seq<string> := [
    "name", "title", "requisitionNumber", "professionalSummary", "summarySections", "subsections",
    "employmentHistory", "education", "certifications", "technicalSkills", "skillCategories"
  ]

  lemma ResumeKeysDistinct()
    ensures Distinct(ResumeKeys)
  {
  }

  /** The eleven top-level properties, in key order. */
  datatype ResumeFields = ResumeFields(
    name: Json, title: Json, requisitionNumber: Json, professionalSummary: Json, summarySections: Json,
    subsections: Json, employmentHistory: Json, education: Json, certifications: Json,
    technicalSkills: Json, skillCategories: Json)

  function Values(f: ResumeFields): (r: seq<Json>)
    ensures |r| == |ResumeKeys|
  {
    [f.name, f.title, f.requisitionNumber, f.professionalSummary, f.summarySections, f.subsections,
     f.employmentHistory, f.education, f.certifications, f.technicalSkills, f.skillCategories]
  }

  /** The top-level object literal, properties in the order the normaliser writes them. */
  function ResumeObject(f: ResumeFields): (r: JsonObject)
    ensures r.keys == ResumeKeys
  {
    ResumeKeysDistinct();
    Fields(ResumeKeys, Values(f))
  }

  /** The top-level properties of a value, `undefined` where missing. */
  function Read(data: Json): ResumeFields {
    ResumeFields(
      Get(data, "name"), Get(data, "title"), Get(data, "requisitionNumber"), Get(data, "professionalSummary"),
      Get(data, "summarySections"), Get(data, "subsections"), Get(data, "employmentHistory"),
      Get(data, "education"), Get(data, "certifications"), Get(data, "technicalSkills"),
      Get(data, "skillCategories"))
  }

  lemma ResumeField(f: ResumeFields, i: nat)
    requires i < |ResumeKeys|
    ensures Get(ResumeObject(f), ResumeKeys[i]) == Values(f)[i]
  {
    ResumeKeysDistinct();
    GetFields(ResumeKeys, Values(f), i);
  }

  /** Reading the properties of the object literal gives back what was written. */
  lemma ReadResumeObject(f: ResumeFields)
    ensures Read(ResumeObject(f)) == f
  {
    ResumeField(f, 0);
    ResumeField(f, 1);
    ResumeField(f, 2);
    ResumeField(f, 3);
    ResumeField(f, 4);
    ResumeField(f, 5);
    ResumeField(f, 6);
    ResumeField(f, 7);
    ResumeField(f, 8);
    ResumeField(f, 9);
    ResumeField(f, 10);
  }

  /** `technicalSkills` survives when it is truthy and of type `'object'` (an array or an object), and
      becomes `{}` otherwise. */
  function SkillsObject(v: Json): (r: Json)
    ensures Truthy(v) && (v.Arr? || v.Obj?) ==> r == v
    ensures !(v.Arr? || v.Obj?) ==> r == EmptyObj
    ensures Truthy(r) && (r.Arr? || r.Obj?)
  {
    if Truthy(v) && IsObjectType(v) then v else EmptyObj
  }

  /** A list of summary sections normalised entry by entry. */
  function NormSubsections(v: Json): (r: Option<Json>)
  {
    LeafSchemasWellFormed();
    Apply(Each(SubsectionSchema), v)
  }

  /** The normaliser's `try` block on the raw top-level properties; `None` when it throws. The summary
      sections come from the raw `summarySections` when that is an array and otherwise from the raw
      `subsections` (the legacy name), which in that case is replaced by the same normalised list. */
  function NormFields(raw: ResumeFields): (r: Option<ResumeFields>)
  {
    JobSchemaWellFormed();
    CategorySchemaWellFormed();
    LeafSchemasWellFormed();
    var jobs :- Apply(Each(JobSchema), raw.employmentHistory);
    var bridged := !raw.summarySections.Arr? && raw.subsections.Arr?;
    var summary :- NormSubsections(SummaryList(raw));
    var categories :- Apply(Each(CategorySchema), raw.skillCategories);
    var education :- Apply(Each(EducationSchema), raw.education);
    var certifications :- Apply(Each(CertificationSchema), raw.certifications);
    Some(ResumeFields(
      OrEmpty(raw.name), OrEmpty(raw.title), OrEmpty(raw.requisitionNumber),
      ArrayOrEmpty(raw.professionalSummary), summary, if bridged then summary else ArrayOrEmpty(raw.subsections),
      jobs, education, certifications, SkillsObject(raw.technicalSkills), categories))
  }

  /** The normaliser's `try` block; `None` when it throws. */
  function TrySanitize(data: Json): (r: Option<Json>)
    ensures Nullish(data) ==> r.None?
    ensures r.Some? ==> r.value.Obj? && r.value.keys == ResumeKeys
  {
    if Nullish(data) then None
    else
      var f :- NormFields(Read(data));
      Some(ResumeObject(f))
  }

  const DefaultFields :=
    ResumeFields(Str(""), Str(""), Str(""), Arr([]), Arr([]), Arr([]), Arr([]), Arr([]), Arr([]), EmptyObj, Arr([]))

  /** The record the `catch` block returns: every text empty, every list empty, `technicalSkills` `{}`. */
  const DefaultRecord: Json := ResumeObject(DefaultFields)

  /** `sanitizeResumeData`: never throws; a throw inside yields the default record. */
  function Sanitize(data: Json): (r: Json)
    ensures r.Obj? && r.keys == ResumeKeys
  {
    match TrySanitize(data)
    case Some(v) => v
    case None => DefaultRecord
  }

  /** The normaliser writes its eleven properties and no other. */
  lemma SanitizeOnlyResumeKeys(data: Json, k: string)
    requires k !in ResumeKeys
    ensures Get(Sanitize(data), k) == Undef
  {
    ResumeKeysDistinct();
    match TrySanitize(data)
    case Some(v) =>
      var f := NormFields(Read(data)).value;
      assert v == ResumeObject(f);
      FieldsOnly(ResumeKeys, Values(f), k);
    case None =>
      FieldsOnly(ResumeKeys, Values(DefaultFields), k);
  }

  /** Property values every one of which has the shape the normaliser gives its field. */
  ghost predicate Normal(f: ResumeFields) {
    JobSchemaWellFormed();
    CategorySchemaWellFormed();
    LeafSchemasWellFormed();
    && OrEmpty(f.name) == f.name && OrEmpty(f.title) == f.title && OrEmpty(f.requisitionNumber) == f.requisitionNumber
    && f.professionalSummary.Arr?
    && Conforms(Each(SubsectionSchema), f.summarySections)
    && f.subsections.Arr?
    && Conforms(Each(JobSchema), f.employmentHistory)
    && Conforms(Each(EducationSchema), f.education)
    && Conforms(Each(CertificationSchema), f.certifications)
    && SkillsObject(f.technicalSkills) == f.technicalSkills
    && Conforms(Each(CategorySchema), f.skillCategories)
  }

  /** A record whose property values are all normal is its own normal form. */
  lemma SanitizeFixed(f: ResumeFields)
    requires Normal(f)
    ensures Sanitize(ResumeObject(f)) == ResumeObject(f)
  {
    ReadResumeObject(f);
    NormFieldsFixed(f);
  }

  lemma NormFieldsFixed(f: ResumeFields)
    requires Normal(f)
    ensures NormFields(f) == Some(f)
  {
    NormalListsFixed(f);
    assert !(!f.summarySections.Arr? && f.subsections.Arr?);
  }

  lemma NormalListsFixed(f: ResumeFields)
    requires Normal(f)
    ensures (JobSchemaWellFormed(); Apply(Each(JobSchema), f.employmentHistory) == Some(f.employmentHistory))
    ensures (LeafSchemasWellFormed(); NormSubsections(f.summarySections) == Some(f.summarySections))
    ensures (LeafSchemasWellFormed(); Apply(Each(EducationSchema), f.education) == Some(f.education))
    ensures (LeafSchemasWellFormed(); Apply(Each(CertificationSchema), f.certifications) == Some(f.certifications))
    ensures (CategorySchemaWellFormed(); Apply(Each(CategorySchema), f.skillCategories) == Some(f.skillCategories))
  {
    JobSchemaWellFormed();
    CategorySchemaWellFormed();
    LeafSchemasWellFormed();
    ConformsFixed(Each(SubsectionSchema), f.summarySections);
    ConformsFixed(Each(JobSchema), f.employmentHistory);
    ConformsFixed(Each(EducationSchema), f.education);
    ConformsFixed(Each(CertificationSchema), f.certifications);
    ConformsFixed(Each(CategorySchema), f.skillCategories);
  }

  /** Normalised property values are normal. */
  lemma NormFieldsNormal(raw: ResumeFields)
    requires NormFields(raw).Some?
    ensures Normal(NormFields(raw).value)
  {
    JobSchemaWellFormed();
    CategorySchemaWellFormed();
    LeafSchemasWellFormed();
    ApplyConforms(Each(SubsectionSchema), SummaryList(raw));
    ApplyConforms(Each(JobSchema), raw.employmentHistory);
    ApplyConforms(Each(EducationSchema), raw.education);
    ApplyConforms(Each(CertificationSchema), raw.certifications);
    ApplyConforms(Each(CategorySchema), raw.skillCategories);
  }

  /** Normalising an already normalised record returns it unchanged. */
  lemma SanitizeIdempotent(data: Json)
    ensures Sanitize(Sanitize(data)) == Sanitize(data)
  {
    match TrySanitize(data)
    case None => DefaultFixed();
    case Some(_) => NormalisedFixed(data);
  }

  /** The default record is its own normal form. */
  lemma DefaultFixed()
    ensures Sanitize(DefaultRecord) == DefaultRecord
  {
    assert Normal(DefaultFields);
    SanitizeFixed(DefaultFields);
  }

  lemma NormalisedFixed(data: Json)
    requires TrySanitize(data).Some?
    ensures Sanitize(Sanitize(data)) == Sanitize(data)
  {
    var f := NormFields(Read(data)).value;
    assert Sanitize(data) == ResumeObject(f);
    NormFieldsNormal(Read(data));
    SanitizeFixed(f);
  }

  /** The list the summary sections are normalised from. */
  function SummaryList(raw: ResumeFields): (r: Json)
    ensures raw.summarySections.Arr? ==> r == raw.summarySections
    ensures !raw.summarySections.Arr? ==> r == raw.subsections
  {
    if raw.summarySections.Arr? then raw.summarySections else raw.subsections
  }

  /** When the normaliser throws: the input is `null`/`undefined`, or some entry it maps over, at any
      depth, is. */
  ghost predicate Throws(data: Json) {
    || Nullish(data)
    || RuleThrows(Each(JobSchema), Read(data).employmentHistory)
    || RuleThrows(Each(SubsectionSchema), SummaryList(Read(data)))
    || RuleThrows(Each(CategorySchema), Read(data).skillCategories)
    || RuleThrows(Each(EducationSchema), Read(data).education)
    || RuleThrows(Each(CertificationSchema), Read(data).certifications)
  }

  /** The `catch` path is taken exactly when `Throws` holds, and it yields the default record. */
  lemma SanitizeFallback(data: Json)
    ensures TrySanitize(data).None? <==> Throws(data)
    ensures Throws(data) ==> Sanitize(data) == DefaultRecord
  {
    JobSchemaWellFormed();
    CategorySchemaWellFormed();
    LeafSchemasWellFormed();
    var raw := Read(data);
    ApplyThrows(Each(JobSchema), raw.employmentHistory);
    ApplyThrows(Each(SubsectionSchema), SummaryList(raw));
    ApplyThrows(Each(CategorySchema), raw.skillCategories);
    ApplyThrows(Each(EducationSchema), raw.education);
    ApplyThrows(Each(CertificationSchema), raw.certifications);
  }

  /** `null` input, or a `null` employment entry, gives the default record. */
  lemma NullFallback(data: Json, i: nat)
    requires Nullish(data) || (Read(data).employmentHistory.Arr? && i < |Read(data).employmentHistory.items|
                               && Nullish(Read(data).employmentHistory.items[i]))
    ensures Sanitize(data) == DefaultRecord
  {
    SanitizeFallback(data);
    if !Nullish(data) {
      assert RecordThrows(JobSchema, Read(data).employmentHistory.items[i]);
    }
  }

  /** A `null` client project inside an employment entry gives the default record. */
  lemma NullProjectFallback(data: Json, i: nat, j: nat)
    requires Read(data).employmentHistory.Arr? && i < |Read(data).employmentHistory.items|
    requires var projects := Get(Read(data).employmentHistory.items[i], "clientProjects");
      projects.Arr? && j < |projects.items| && Nullish(projects.items[j])
    ensures Sanitize(data) == DefaultRecord
  {
    var job := Read(data).employmentHistory.items[i];
    JobSchemaAt();
    assert RuleThrows(Each(ProjectSchema), Get(job, "clientProjects"));
    assert RecordThrows(JobSchema, job);
    SanitizeFallback(data);
  }

  /** The summary bridge: a raw `summarySections` array is normalised and the raw `subsections` is kept
      as it is when it is an array; failing that, a raw `subsections` array is normalised into both; failing both, both are
      empty. */
  lemma SummaryBridge(raw: ResumeFields)
    requires NormFields(raw).Some?
    ensures var out := NormFields(raw).value;
      && (raw.summarySections.Arr? ==>
            Some(out.summarySections) == NormSubsections(raw.summarySections)
            && out.subsections == (if raw.subsections.Arr? then raw.subsections else Arr([])))
      && (!raw.summarySections.Arr? && raw.subsections.Arr? ==>
            Some(out.summarySections) == NormSubsections(raw.subsections)
            && out.subsections == out.summarySections)
      && (!raw.summarySections.Arr? && !raw.subsections.Arr? ==>
            out.summarySections == Arr([]) && out.subsections == Arr([]))
  {
    NormFieldsValue(raw);
    LeafSchemasWellFormed();
  }

  /** Top-level texts keep a truthy value and otherwise become `''`; lists are kept only when they
      are arrays; `technicalSkills` is kept only when it is a truthy array or object. */
  lemma SanitizeTopFields(raw: ResumeFields)
    requires NormFields(raw).Some?
    ensures var out := NormFields(raw).value;
      && out.name == (if Truthy(raw.name) then raw.name else Str(""))
      && out.title == (if Truthy(raw.title) then raw.title else Str(""))
      && out.requisitionNumber == (if Truthy(raw.requisitionNumber) then raw.requisitionNumber else Str(""))
      && out.professionalSummary == (if raw.professionalSummary.Arr? then raw.professionalSummary else Arr([]))
      && out.technicalSkills ==
           (if Truthy(raw.technicalSkills) && (raw.technicalSkills.Arr? || raw.technicalSkills.Obj?)
            then raw.technicalSkills else EmptyObj)
      && out.employmentHistory.Arr? && out.education.Arr? && out.certifications.Arr?
      && out.skillCategories.Arr? && out.summarySections.Arr? && out.subsections.Arr?
  {
    NormFieldsValue(raw);
    JobSchemaWellFormed();
    CategorySchemaWellFormed();
    LeafSchemasWellFormed();
    ListsAreArrays(raw);
  }

  /** The normalised record assembled from the five normalised lists and the top-level properties. */
  lemma NormFieldsValue(raw: ResumeFields)
    requires NormFields(raw).Some?
    ensures (JobSchemaWellFormed(); CategorySchemaWellFormed(); LeafSchemasWellFormed();
      var jobs := Apply(Each(JobSchema), raw.employmentHistory);
      var summary := NormSubsections(SummaryList(raw));
      var categories := Apply(Each(CategorySchema), raw.skillCategories);
      var education := Apply(Each(EducationSchema), raw.education);
      var certifications := Apply(Each(CertificationSchema), raw.certifications);
      var bridged := !raw.summarySections.Arr? && raw.subsections.Arr?;
      && jobs.Some? && summary.Some? && categories.Some? && education.Some? && certifications.Some?
      && NormFields(raw).value == ResumeFields(
           OrEmpty(raw.name), OrEmpty(raw.title), OrEmpty(raw.requisitionNumber),
           ArrayOrEmpty(raw.professionalSummary), summary.value,
           if bridged then summary.value else ArrayOrEmpty(raw.subsections),
           jobs.value, education.value, certifications.value, SkillsObject(raw.technicalSkills), categories.value))
  {
  }

  /** Each list rule yields an array. */
  lemma EachIsArray(rule: Rule, v: Json)
    requires WellFormedRule(rule) && rule.Each? && Apply(rule, v).Some?
    ensures Apply(rule, v).value.Arr?
  {
  }

  lemma ListsAreArrays(raw: ResumeFields)
    requires NormFields(raw).Some?
    ensures (JobSchemaWellFormed(); CategorySchemaWellFormed(); LeafSchemasWellFormed();
      && Apply(Each(JobSchema), raw.employmentHistory).value.Arr?
      && NormSubsections(SummaryList(raw)).value.Arr?
      && Apply(Each(CategorySchema), raw.skillCategories).value.Arr?
      && Apply(Each(EducationSchema), raw.education).value.Arr?
      && Apply(Each(CertificationSchema), raw.certifications).value.Arr?)
  {
    NormFieldsValue(raw);
    JobSchemaWellFormed();
    CategorySchemaWellFormed();
    LeafSchemasWellFormed();
    EachIsArray(Each(JobSchema), raw.employmentHistory);
    EachIsArray(Each(SubsectionSchema), SummaryList(raw));
    EachIsArray(Each(CategorySchema), raw.skillCategories);
    EachIsArray(Each(EducationSchema), raw.education);
    EachIsArray(Each(CertificationSchema), raw.certifications);
  }

  /** Reading property `i` of a normalised record gives the raw property normalised by rule `i`. */
  lemma RecordField(s: Schema, x: Json, i: nat)
    requires WellFormed(s) && NormRecord(s, x).Some? && i < |s.keys|
    ensures Apply(s.rules[i], Get(x, s.keys[i])) == Some(Get(NormRecord(s, x).value, s.keys[i]))
  {
    var vs :| |vs| == |s.keys| && NormRecord(s, x).value == Fields(s.keys, vs)
      && forall i :: 0 <= i < |s.keys| ==> Apply(s.rules[i], Get(x, s.keys[i])) == Some(vs[i]);
    GetFields(s.keys, vs, i);
  }

  lemma JobSchemaAt()
    ensures JobSchema.keys[10] == "responsibilities" && JobSchema.rules[10] == Wrap
    ensures JobSchema.keys[12] == "clientProjects" && JobSchema.rules[12] == Each(ProjectSchema)
    ensures JobSchema.keys[17] == "additionalFields" && JobSchema.rules[17] == ObjectDefault
  {
  }

  /** Employment `responsibilities`: an array is kept, another truthy value is wrapped in a one-element
      array, anything else becomes `[]`; `additionalFields` defaults to `{}`. */
  lemma JobResponsibilities(job: Json)
    requires (JobSchemaWellFormed(); NormRecord(JobSchema, job).Some?)
    ensures var raw := Get(job, "responsibilities");
      && Get(NormRecord(JobSchema, job).value, "responsibilities")
         == (if raw.Arr? then raw else if Truthy(raw) then Arr([raw]) else Arr([]))
      && Get(NormRecord(JobSchema, job).value, "additionalFields")
         == (if Truthy(Get(job, "additionalFields")) then Get(job, "additionalFields") else EmptyObj)
  {
    JobSchemaWellFormed();
    JobSchemaAt();
    RecordField(JobSchema, job, 10);
    RecordField(JobSchema, job, 17);
  }

  /** Client-project `responsibilities` is kept only when it is an array: no wrapping. */
  lemma ProjectResponsibilities(project: Json)
    requires (ProjectSchemaWellFormed(); NormRecord(ProjectSchema, project).Some?)
    ensures var raw := Get(project, "responsibilities");
      Get(NormRecord(ProjectSchema, project).value, "responsibilities") == (if raw.Arr? then raw else Arr([]))
  {
    ProjectSchemaWellFormed();
    assert ProjectSchema.keys[3] == "responsibilities" && ProjectSchema.rules[3] == List;
    RecordField(ProjectSchema, project, 3);
  }

  /** `wasAwarded` is `true` exactly when the raw property is `undefined` and otherwise the raw value,
      not cast to a boolean. */
  lemma EducationAwarded(edu: Json)
    requires (EducationSchemaWellFormed(); NormRecord(EducationSchema, edu).Some?)
    ensures var raw := Get(edu, "wasAwarded");
      Get(NormRecord(EducationSchema, edu).value, "wasAwarded") == (if raw.Undef? then Bool(true) else raw)
  {
    EducationSchemaWellFormed();
    assert EducationSchema.keys[5] == "wasAwarded" && EducationSchema.rules[5] == AwardedDefault;
    RecordField(EducationSchema, edu, 5);
  }
}

=== FILE: skilltext.dfy ===
/** The text box in which the form edits a list of skills: the list is shown joined by `", "`, and
    what the user types is split at every comma with each piece trimmed. */
module SkillText {
  import opened Base
  import opened Strings

  /** `value.split(',').map(skill => skill.trim())`: one skill per piece, so never an empty list. The
      second ensures only names each skill by its piece, for the proofs below; what parsing means is
      stated by ParsedPlain, ParseShow and ParseNormal. */
  function ParseSkills(text: string): (r: seq<string>)
    ensures |r| == |Split(text, ',')| >= 1
    ensures forall i :: 0 <= i < |r| ==> r[i] == Trim(Split(text, ',')[i])
  {
    var pieces := Split(text, ',');
    seq(|pieces|, i requires 0 <= i < |pieces| => Trim(pieces[i]))
  }

  /** `skills.join(', ')`. */
  function ShowSkills(skills: seq<string>): string {
    Join(skills, ", ")
  }

  /** A skill the box can show and read back unchanged: no comma and no white space at either end. */
  predicate Plain(skill: string) {
    IsTrimmed(skill) && ',' !in skill
  }

  /** Trimming keeps a subsequence of the characters. */
  lemma TrimKeeps(s: string, c: char)
    requires c in Trim(s)
    ensures c in s
  {
    var a := TrimStart(s);
    var r := TrimEnd(a);
    assert r == a[..|r|];
    assert a == s[|s| - |a|..];
  }

  lemma TrimTwice(s: string)
    ensures IsTrimmed(Trim(s))
  {
    var t := Trim(s);
    if t == [] {
      assert IsBlank(t);
    }
  }

  /** One leading blank does not survive trimming. */
  lemma TrimSpace(s: string)
    ensures Trim(" " + s) == Trim(s)
  {
    TrimStartSpace(s);
  }

  lemma TrimStartSpace(s: string)
    ensures TrimStart(" " + s) == TrimStart(s)
  {
    var t := " " + s;
    assert t[0] == ' ' && t[1..] == s;
    assert IsSpace(t[0]);
  }

  /** A piece without commas ends at the leftmost comma after it. */
  lemma CommaFreeClean(e: string)
    requires ',' !in e
    ensures Clean(e, ",")
  {
    forall j: nat | j < |e|
      ensures !StartsAt(e + ",", j, ",")
    {
      assert (e + ",")[j..j + 1] == [e[j]];
    }
  }

  /** Every piece but the first is shown after a blank. */
  function Spaced(xs: seq<string>): (r: seq<string>)
    ensures |r| == |xs|
    ensures forall i :: 0 <= i < |xs| ==> r[i] == " " + xs[i]
  {
    seq(|xs|, i requires 0 <= i < |xs| => " " + xs[i])
  }

  lemma {:induction false} JoinSpaced(xs: seq<string>)
    requires xs != []
    ensures Join(Spaced(xs), ",") == " " + Join(xs, ", ")
    decreases |xs|
  {
    if |xs| > 1 {
      var rest := xs[1..];
      JoinSpaced(rest);
      assert Spaced(xs) == [" " + xs[0]] + Spaced(rest);
      JoinCons(" " + xs[0], Spaced(rest), ",");
      JoinCons(xs[0], rest, ", ");
      assert xs == [xs[0]] + rest;
      assert " " + xs[0] + "," + (" " + Join(rest, ", ")) == " " + (xs[0] + ", " + Join(rest, ", "));
    }
  }

  /** Joining with `", "` is joining with `","` pieces that, after the first, start with a blank. */
  lemma JoinWiden(xs: seq<string>)
    requires xs != []
    ensures ShowSkills(xs) == Join([xs[0]] + Spaced(xs[1..]), ",")
  {
    var rest := xs[1..];
    if rest == [] {
      assert xs == [xs[0]];
      assert [xs[0]] + Spaced(rest) == [xs[0]];
    } else {
      JoinSpaced(rest);
      JoinCons(xs[0], Spaced(rest), ",");
      JoinCons(xs[0], rest, ", ");
      assert xs == [xs[0]] + rest;
      assert xs[0] + "," + (" " + Join(rest, ", ")) == xs[0] + ", " + Join(rest, ", ");
    }
  }

  /** The pieces a comma-free string splits into: itself alone. */
  lemma SplitCommaFree(s: string)
    requires ',' !in s
    ensures Split(s, ',') == [s]
  {
    forall k: nat
      ensures !StartsAt(s, k, ",")
    {
      if k + 1 <= |s| {
        assert s[k..k + 1] == [s[k]];
      }
    }
    assert FindFrom(s, ",", 0).None?;
  }

  /** Splitting the shown text at commas gives the skills back, every one after the first with the blank
      the separator left in front of it. */
  lemma SplitShown(xs: seq<string>)
    requires xs != [] && forall i :: 0 <= i < |xs| ==> ',' !in xs[i]
    ensures Split(ShowSkills(xs), ',') == [xs[0]] + Spaced(xs[1..])
  {
    var ps := [xs[0]] + Spaced(xs[1..]);
    JoinWiden(xs);
    forall i | 0 <= i < |ps|
      ensures ',' !in ps[i]
    {
      if i > 0 {
        assert ps[i] == " " + xs[i];
      }
    }
    var init, last := ps[..|ps| - 1], ps[|ps| - 1];
    forall i | 0 <= i < |init|
      ensures Clean(init[i], ",")
    {
      CommaFreeClean(init[i]);
    }
    FrontLast(ps, []);
    assert init + [last] == ps;
    SplitOnJoinClean(init, last, ",");
    SplitCommaFree(last);
  }

  /** For a non-empty list of plain skills, reading back the shown text gives the list. */
  lemma ParseShow(xs: seq<string>)
    requires xs != [] && forall i :: 0 <= i < |xs| ==> Plain(xs[i])
    ensures ParseSkills(ShowSkills(xs)) == xs
  {
    SplitShown(xs);
    var ps := [xs[0]] + Spaced(xs[1..]);
    var r := ParseSkills(ShowSkills(xs));
    assert |r| == |xs|;
    forall i | 0 <= i < |xs|
      ensures r[i] == xs[i]
    {
      PieceReadsBack(xs, i);
    }
  }

  lemma PieceReadsBack(xs: seq<string>, i: nat)
    requires i < |xs| && Plain(xs[i])
    ensures Trim(([xs[0]] + Spaced(xs[1..]))[i]) == xs[i]
  {
    var p := ([xs[0]] + Spaced(xs[1..]))[i];
    if i > 0 {
      assert p == " " + xs[i];
      SpacedReadsBack(xs[i], p);
    } else {
      assert p == xs[i];
    }
  }

  lemma SpacedReadsBack(x: string, p: string)
    requires Plain(x) && p == " " + x
    ensures Trim(p) == x
  {
    TrimSpace(x);
  }

  /** What the parser returns is always a non-empty list of plain skills. */
  lemma ParsedPlain(text: string)
    ensures ParseSkills(text) != []
    ensures forall i :: 0 <= i < |ParseSkills(text)| ==> Plain(ParseSkills(text)[i])
  {
    var ps := Split(text, ',');
    PiecesHaveNoComma(text);
    forall i | 0 <= i < |ps|
      ensures Plain(Trim(ps[i]))
    {
      TrimTwice(ps[i]);
      if ',' in Trim(ps[i]) {
        TrimKeeps(ps[i], ',');
      }
    }
  }

  lemma PiecesHaveNoComma(text: string)
    ensures forall i :: 0 <= i < |Split(text, ',')| ==> ',' !in Split(text, ',')[i]
  {
    var ps := Split(text, ',');
    SplitOnPieces(text, ",");
    forall i | 0 <= i < |ps|
      ensures ',' !in ps[i]
    {
      if ',' in ps[i] {
        var k :| 0 <= k < |ps[i]| && ps[i][k] == ',';
        assert ps[i][k..k + 1] == ",";
        if i < |ps| - 1 {
          assert (ps[i] + ",")[k..k + 1] == ",";
          assert StartsAt(ps[i] + ",", k, ",");
        } else {
          assert StartsAt(ps[i], k, ",");
        }
      }
    }
  }

  /** Showing what was parsed and parsing it again changes nothing: after one edit the box holds its
      normal form. */
  lemma ParseNormal(text: string)
    ensures ParseSkills(ShowSkills(ParseSkills(text))) == ParseSkills(text)
  {
    ParsedPlain(text);
    ParseShow(ParseSkills(text));
  }

  /** Clearing the box leaves one empty skill, not an empty list. */
  lemma EmptyBoxOneSkill()
    ensures ParseSkills("") == [""]
  {
    assert FindFrom("", ",", 0).None?;
  }
}

=== FILE: sse.dfy ===
/** The server-sent-event framing of the streaming upload: decoded text is appended to a buffer, the
    buffer is split on blank lines, every piece but the last is a complete event, and the last piece
    stays in the buffer for the next chunk. Events of the form `data: <json>` are parsed and handed to
    the event reducer; other events and unparsable payloads are ignored. */
module Sse {
  import opened Base
  import opened Strings
  import opened JsonModel
  import opened StreamEvents

  const Separator: string := "\n\n"

  const DataPrefix: string := "data: "

  /** The payloads a list of events yields: the text after `data: ` of each event that starts so, when it
      parses. */
  function Payloads(events: seq<string>, parse: string -> Option<Json>): (r: seq<Json>)
    ensures |r| <= |events|
    decreases |events|
  {
    if events == [] then [] else Payload(events[0], parse) + Payloads(events[1..], parse)
  }

  /** The payload of one event: none, or the parsed text after `data: `. */
  function Payload(event: string, parse: string -> Option<Json>): (r: seq<Json>)
    ensures |r| <= 1
  {
    if StartsWith(event, DataPrefix) && parse(event[|DataPrefix|..]).Some?
    then [parse(event[|DataPrefix|..]).value] else []
  }

  /** What the whole stream, read at once, does to the state: every complete event is handled in order;
      the text after the last separator is not. */
  function Handled(input: string, parse: string -> Option<Json>, s0: StreamState): StreamState {
    var pieces := SplitOn(input, Separator);
    Run(s0, Payloads(pieces[..|pieces| - 1], parse))
  }

  /** Re-splitting the buffer with a new chunk appended continues the split of the whole stream. */
  lemma FrameStep(events: seq<string>, buffer: string, chunk: string, whole: string)
    requires events + [buffer] == SplitOn(whole, Separator)
    ensures events + SplitOn(buffer + chunk, Separator) == SplitOn(whole + chunk, Separator)
  {
    SplitOnJoin(whole, Separator);
    JoinExtendLast(events, buffer, chunk, Separator);
    SplitOnPieces(whole, Separator);
    var r := events + [buffer];
    forall i | 0 <= i < |events|
      ensures Clean(events[i], Separator)
    {
      assert events[i] == r[i];
    }
    SplitOnJoinClean(events, buffer + chunk, Separator);
  }

  lemma {:induction false} RunAppend(s: StreamState, xs: seq<Json>, ys: seq<Json>)
    ensures Run(s, xs + ys) == Run(Run(s, xs), ys)
    decreases |xs|
  {
    if xs == [] {
      assert xs + ys == ys;
    } else {
      assert (xs + ys)[1..] == xs[1..] + ys;
      RunAppend(Reduce(s, xs[0]), xs[1..], ys);
    }
  }

  lemma {:induction false} PayloadsAppend(xs: seq<string>, ys: seq<string>, parse: string -> Option<Json>)
    ensures Payloads(xs + ys, parse) == Payloads(xs, parse) + Payloads(ys, parse)
    decreases |xs|
  {
    if xs == [] {
      assert xs + ys == ys;
    } else {
      assert (xs + ys)[1..] == xs[1..] + ys;
      PayloadsAppend(xs[1..], ys, parse);
    }
  }

  /** Handling one event: its payload, when it has one that parses, goes to the reducer. */
  method Dispatch(s: StreamState, event: string, parse: string -> Option<Json>) returns (t: StreamState)
    ensures t == Run(s, Payloads([event], parse))
  {
    t := s;
    if StartsWith(event, DataPrefix) {
      var parsed := parse(event[|DataPrefix|..]);
      if parsed.Some? {
        t := Reduce(s, parsed.value);
        assert Payloads([event], parse) == [parsed.value];
      }
    }
  }

  /** The inner loop over the complete events of one chunk. */
  method DispatchAll(s: StreamState, events: seq<string>, parse: string -> Option<Json>) returns (t: StreamState)
    ensures t == Run(s, Payloads(events, parse))
  {
    t := s;
    var j := 0;
    while j < |events|
      invariant 0 <= j <= |events|
      invariant t == Run(s, Payloads(events[..j], parse))
    {
      t := Dispatch(t, events[j], parse);
      PayloadsAppend(events[..j], [events[j]], parse);
      RunAppend(s, Payloads(events[..j], parse), Payloads([events[j]], parse));
      assert events[..j + 1] == events[..j] + [events[j]];
      j := j + 1;
    }
    assert events[..j] == events;
  }

  /** The split of the stream so far, continued by one chunk: the complete pieces of the new buffer
      join the events and its last piece is the new buffer. */
  lemma ChunkStep(chunks: seq<string>, i: nat, events: seq<string>, buffer: string, pieces: seq<string>)
    requires i < |chunks|
    requires events + [buffer] == SplitOn(Concat(chunks[..i]), Separator)
    requires pieces == SplitOn(buffer + chunks[i], Separator)
    ensures (events + pieces[..|pieces| - 1]) + [pieces[|pieces| - 1]] == SplitOn(Concat(chunks[..i + 1]), Separator)
  {
    FrameStep(events, buffer, chunks[i], Concat(chunks[..i]));
    ConcatPrefix(chunks, i);
    FrontLast(pieces, events);
  }

  /** Handling the events of one chunk after those of the earlier ones. */
  lemma HandleStep(s0: StreamState, events: seq<string>, complete: seq<string>, parse: string -> Option<Json>)
    ensures Run(s0, Payloads(events + complete, parse)) == Run(Run(s0, Payloads(events, parse)), Payloads(complete, parse))
  {
    PayloadsAppend(events, complete, parse);
    RunAppend(s0, Payloads(events, parse), Payloads(complete, parse));
  }

  /** The read loop: for each chunk, append it to the buffer, split, handle each complete event and
      keep the last piece. The events it handles and the buffer it keeps are exactly the pieces of the
      whole stream split at once, so how the stream is cut into chunks does not matter. */
  method Receive(chunks: seq<string>, parse: string -> Option<Json>, s0: StreamState)
    returns (s: StreamState, events: seq<string>, buffer: string)
    ensures events + [buffer] == SplitOn(Concat(chunks), Separator)
    ensures s == Run(s0, Payloads(events, parse))
  {
    s, events, buffer := s0, [], "";
    var i := 0;
    while i < |chunks|
      invariant 0 <= i <= |chunks|
      invariant events + [buffer] == SplitOn(Concat(chunks[..i]), Separator)
      invariant s == Run(s0, Payloads(events, parse))
    {
      var pieces := SplitOn(buffer + chunks[i], Separator);
      var complete := pieces[..|pieces| - 1];
      HandleStep(s0, events, complete, parse);
      s := DispatchAll(s, complete, parse);
      ChunkStep(chunks, i, events, buffer, pieces);
      events := events + complete;
      buffer := pieces[|pieces| - 1];
      i := i + 1;
    }
    assert chunks[..i] == chunks;
  }

  /** The state the read loop reaches is the one the whole stream yields when read at once. */
  lemma ReceiveAgrees(chunks: seq<string>, parse: string -> Option<Json>, s0: StreamState,
                      events: seq<string>, buffer: string)
    requires events + [buffer] == SplitOn(Concat(chunks), Separator)
    ensures Run(s0, Payloads(events, parse)) == Handled(Concat(chunks), parse, s0)
  {
    var pieces := SplitOn(Concat(chunks), Separator);
    assert pieces[..|pieces| - 1] == events;
  }

  /** No piece of a split contains the separator. */
  lemma PiecesHaveNoSeparator(input: string)
    ensures forall p :: p in SplitOn(input, Separator) ==> !Contains(p, Separator)
  {
    var r := SplitOn(input, Separator);
    SplitOnPieces(input, Separator);
    forall i | 0 <= i < |r| - 1
      ensures !Contains(r[i], Separator)
    {
      forall k: nat
        ensures !StartsAt(r[i], k, Separator)
      {
        if StartsAt(r[i], k, Separator) {
          assert (r[i] + Separator)[k..k + |Separator|] == r[i][k..k + |Separator|];
          assert StartsAt(r[i] + Separator, k, Separator);
        }
      }
    }
  }

  /** A stream without any blank line handles nothing: the last event must be followed by a blank line,
      and text left in the buffer when the stream ends is dropped. */
  lemma UnterminatedIgnored(input: string, parse: string -> Option<Json>, s0: StreamState)
    requires !Contains(input, Separator)
    ensures Handled(input, parse, s0) == s0
  {
    assert FindFrom(input, Separator, 0).None?;
    assert SplitOn(input, Separator) == [input];
  }

  /** A blank line at the end makes the last event count: a complete event followed by a separator is
      handled exactly as its payload dictates. */
  lemma TerminatedHandled(e: string, parse: string -> Option<Json>, s0: StreamState)
    requires Clean(e, Separator)
    ensures Handled(e + Separator, parse, s0) == Run(s0, Payloads([e], parse))
  {
    SplitOnPrefix(e, Separator, "");
    assert e + Separator + "" == e + Separator;
    assert FindFrom("", Separator, 0).None?;
    assert SplitOn(e + Separator, Separator) == [e, ""];
  }
}

=== FILE: strings.dfy ===
/** The JavaScript string operations the application relies on: `trim`, `split`, `join`,
    `toLowerCase` (ASCII part), `startsWith` and the decimal rendering of integers. */
module Strings {
  import opened Base

  /** ECMAScript WhiteSpace and LineTerminator code points: what `String.prototype.trim` removes. */
  predicate IsSpace(c: char) {
    || c == '\t' || c == '\n' || c == '\U{000B}' || c == '\U{000C}' || c == '\r' || c == ' '
    || c == '\U{00A0}' || c == '\U{1680}' || ('\U{2000}' <= c <= '\U{200A}')
    || c == '\U{2028}' || c == '\U{2029}' || c == '\U{202F}' || c == '\U{205F}'
    || c == '\U{3000}' || c == '\U{FEFF}'
  }

  /** Every character of `s` is white space (the empty string included). */
  ghost predicate IsBlank(s: string) {
    forall i :: 0 <= i < |s| ==> IsSpace(s[i])
  }

  /** Leading white space removed. */
  function TrimStart(s: string): (r: string)
    ensures |r| <= |s| && r == s[|s| - |r|..]
    ensures forall j :: 0 <= j < |s| - |r| ==> IsSpace(s[j])
    ensures r != [] ==> !IsSpace(r[0])
  {
    if s != [] && IsSpace(s[0]) then TrimStart(s[1..]) else s
  }

  /** Trailing white space removed. */
  function TrimEnd(s: string): (r: string)
    ensures |r| <= |s| && r == s[..|r|]
    ensures forall j :: |r| <= j < |s| ==> IsSpace(s[j])
    ensures r != [] ==> !IsSpace(r[|r| - 1])
  {
    if s != [] && IsSpace(s[|s| - 1]) then TrimEnd(s[..|s| - 1]) else s
  }

  lemma TrimStartBlank(s: string)
    ensures TrimStart(s) == [] <==> IsBlank(s)
  {
    var r := TrimStart(s);
    if r != [] {
      assert r[0] == s[|s| - |r|];
    }
  }

  lemma TrimEndBlank(s: string)
    ensures TrimEnd(s) == [] <==> IsBlank(s)
  {
    var r := TrimEnd(s);
    if r != [] {
      assert r[|r| - 1] == s[|r| - 1];
    }
  }

  /** `s.trim()`. */
  function Trim(s: string): (r: string)
    ensures r != [] ==> !IsSpace(r[0]) && !IsSpace(r[|r| - 1])
    ensures r == [] <==> IsBlank(s)
    ensures s != [] && !IsSpace(s[0]) && !IsSpace(s[|s| - 1]) ==> r == s
  {
    var a := TrimStart(s);
    TrimEndBlank(a);
    TrimStartBlank(s);
    TrimStartBlank(a);
    TrimEnd(a)
  }

  /** `s.trim()` is truthy: the string holds something other than white space. */
  predicate HasText(s: string)
    ensures HasText(s) <==> !IsBlank(s)
  {
    Trim(s) != []
  }

  /** The items that hold text after trimming, in order (`xs.filter(x => x.trim())`). */
  function NonBlank(xs: seq<string>): (r: seq<string>)
    ensures |r| <= |xs|
  {
    Filter(xs, HasText)
  }

  /** `s || d` for a string `s`: the empty string is the only falsy one. */
  function OrElse(s: string, d: string): string {
    if s != "" then s else d
  }

  /** A string whose trimmed form is itself. */
  predicate IsTrimmed(s: string) {
    Trim(s) == s
  }

  /** `xs.join(sep)`. */
  function Join(xs: seq<string>, sep: string): (r: string)
    ensures xs == [] ==> r == []
    ensures |xs| == 1 ==> r == xs[0]
  {
    if xs == [] then []
    else if |xs| == 1 then xs[0]
    else xs[0] + sep + Join(xs[1..], sep)
  }

  lemma JoinCons(p: string, tail: seq<string>, sep: string)
    requires |tail| >= 1
    ensures Join([p] + tail, sep) == p + sep + Join(tail, sep)
  {
    assert ([p] + tail)[1..] == tail;
  }

  /** Joining with one more item at the end. */
  lemma {:induction false} JoinSnoc(xs: seq<string>, y: string, sep: string)
    requires xs != []
    ensures Join(xs + [y], sep) == Join(xs, sep) + sep + y
    decreases |xs|
  {
    if |xs| == 1 {
      assert xs + [y] == [xs[0], y];
    } else {
      JoinSnoc(xs[1..], y, sep);
      assert (xs + [y])[1..] == xs[1..] + [y];
      JoinCons(xs[0], xs[1..] + [y], sep);
    }
  }

  /** Joining a list whose last item is itself a join of a non-empty list. */
  lemma {:induction false} JoinFlatten(xs: seq<string>, ys: seq<string>, sep: string)
    requires ys != []
    ensures Join(xs + [Join(ys, sep)], sep) == Join(xs + ys, sep)
    decreases |xs|
  {
    if xs == [] {
      assert xs + [Join(ys, sep)] == [Join(ys, sep)];
      assert xs + ys == ys;
    } else {
      JoinFlatten(xs[1..], ys, sep);
      assert (xs + [Join(ys, sep)])[1..] == xs[1..] + [Join(ys, sep)];
      assert (xs + ys)[1..] == xs[1..] + ys;
      JoinCons(xs[0], xs[1..] + [Join(ys, sep)], sep);
      JoinCons(xs[0], xs[1..] + ys, sep);
      assert xs + [Join(ys, sep)] == [xs[0]] + (xs[1..] + [Join(ys, sep)]);
      assert xs + ys == [xs[0]] + (xs[1..] + ys);
    }
  }

  /** Appending to the last item of a join. */
  lemma JoinExtendLast(xs: seq<string>, y: string, z: string, sep: string)
    ensures Join(xs + [y], sep) + z == Join(xs + [y + z], sep)
  {
    if xs != [] {
      JoinSnoc(xs, y, sep);
      JoinSnoc(xs, y + z, sep);
    } else {
      assert xs + [y] == [y] && xs + [y + z] == [y + z];
    }
  }

  lemma Recompose(s: string, i: nat, j: nat)
    requires i <= j <= |s|
    ensures s == s[..i] + s[i..j] + s[j..]
  {
  }

  /** `t` occurs in `s` at offset `k`. */
  predicate StartsAt(s: string, k: nat, t: string) {
    k + |t| <= |s| && s[k..k + |t|] == t
  }

  ghost predicate Contains(s: string, t: string) {
    exists k: nat :: StartsAt(s, k, t)
  }

  /** `s.startsWith(t)`. */
  predicate StartsWith(s: string, t: string) {
    StartsAt(s, 0, t)
  }

  predicate EndsWith(s: string, t: string) {
    |t| <= |s| && s[|s| - |t|..] == t
  }

  /** The first offset at or after `from` where `t` occurs in `s`, if any. */
  function FindFrom(s: string, t: string, from: nat): (r: Option<nat>)
    requires |t| > 0
    ensures r.Some? ==> from <= r.value && StartsAt(s, r.value, t)
    ensures r.Some? ==> forall j: nat :: from <= j < r.value ==> !StartsAt(s, j, t)
    ensures r.None? ==> forall j: nat :: from <= j ==> !StartsAt(s, j, t)
    decreases |s| - from
  {
    if from + |t| > |s| then None
    else if StartsAt(s, from, t) then Some(from)
    else FindFrom(s, t, from + 1)
  }

  /** `s.split(sep)` for a non-empty string separator: leftmost, non-overlapping matches. */
  function SplitOn(s: string, sep: string): (r: seq<string>)
    requires |sep| > 0
    ensures |r| >= 1
    decreases |s|
  {
    match FindFrom(s, sep, 0)
    case None => [s]
    case Some(k) => [s[..k]] + SplitOn(s[k + |sep|..], sep)
  }

  /** One step of `SplitOn`: the piece before the first separator, then the split of the rest. */
  lemma SplitOnStep(s: string, sep: string, k: nat)
    requires |sep| > 0 && FindFrom(s, sep, 0) == Some(k)
    ensures k + |sep| <= |s| && s[k..k + |sep|] == sep
    ensures SplitOn(s, sep) == [s[..k]] + SplitOn(s[k + |sep|..], sep)
  {
    assert StartsAt(s, k, sep);
  }

  /** Re-joining the pieces of `SplitOn` with the separator gives the string back. */
  lemma {:induction false} SplitOnJoin(s: string, sep: string)
    requires |sep| > 0
    ensures Join(SplitOn(s, sep), sep) == s
    decreases |s|
  {
    var f := FindFrom(s, sep, 0);
    if f.Some? {
      var k := f.value;
      var rest := s[k + |sep|..];
      SplitOnStep(s, sep, k);
      SplitOnJoin(rest, sep);
      JoinCons(s[..k], SplitOn(rest, sep), sep);
      Recompose(s, k, k + |sep|);
    }
  }

  /** No piece but the last contains the separator, and none reaches into a separator that follows it
      (the match that ends a piece is the leftmost one); the last piece contains no separator at all. */
  lemma {:induction false} SplitOnPieces(s: string, sep: string)
    requires |sep| > 0
    ensures var r := SplitOn(s, sep);
      && (forall i, j: nat :: 0 <= i < |r| - 1 && j < |r[i]| ==> !StartsAt(r[i] + sep, j, sep))
      && !Contains(r[|r| - 1], sep)
    decreases |s|
  {
    var r := SplitOn(s, sep);
    var f := FindFrom(s, sep, 0);
    if f.None? {
      assert r == [s];
    } else {
      var k := f.value;
      var rest := s[k + |sep|..];
      SplitOnStep(s, sep, k);
      SplitOnPieces(rest, sep);
      var tail := SplitOn(rest, sep);
      assert r == [s[..k]] + tail;
      forall i, j: nat | 0 <= i < |r| - 1 && j < |r[i]|
        ensures !StartsAt(r[i] + sep, j, sep)
      {
        if i == 0 {
          var p := s[..k];
          assert p + sep == s[..k + |sep|];
          assert (p + sep)[j..j + |sep|] == s[j..j + |sep|];
          assert !StartsAt(s, j, sep);
        } else {
          assert r[i] == tail[i - 1];
        }
      }
      assert r[|r| - 1] == tail[|tail| - 1];
    }
  }

  /** Splitting a string that begins with a leftmost-clean piece and a separator peels that piece off. */
  lemma SplitOnPrefix(p: string, sep: string, x: string)
    requires |sep| > 0
    requires forall j: nat :: j < |p| ==> !StartsAt(p + sep, j, sep)
    ensures SplitOn(p + sep + x, sep) == [p] + SplitOn(x, sep)
  {
    var s := p + sep + x;
    assert StartsAt(s, |p|, sep) by {
      assert s[|p|..|p| + |sep|] == sep;
    }
    forall j: nat | j < |p|
      ensures !StartsAt(s, j, sep)
    {
      assert s[j..j + |sep|] == (p + sep)[j..j + |sep|];
      assert !StartsAt(p + sep, j, sep);
    }
    assert FindFrom(s, sep, 0) == Some(|p|);
    assert s[..|p|] == p;
    assert s[|p| + |sep|..] == x;
  }

  /** No separator begins inside `e` when it is followed by one: `e` ends at the leftmost match of `sep`. */
  predicate Clean(e: string, sep: string) {
    forall j: nat :: j < |e| ==> !StartsAt(e + sep, j, sep)
  }

  /** A clean piece in front of a join peels off as the first piece of the split. */
  lemma SplitJoinCons(xs: seq<string>, x: string, sep: string)
    requires |sep| > 0 && xs != [] && Clean(xs[0], sep)
    ensures SplitOn(Join(xs + [x], sep), sep) == [xs[0]] + SplitOn(Join(xs[1..] + [x], sep), sep)
  {
    var tail := xs[1..] + [x];
    assert xs + [x] == [xs[0]] + tail;
    JoinCons(xs[0], tail, sep);
    SplitOnPrefix(xs[0], sep, Join(tail, sep));
  }

  lemma CleanTail(xs: seq<string>, sep: string)
    requires xs != [] && forall i :: 0 <= i < |xs| ==> Clean(xs[i], sep)
    ensures Clean(xs[0], sep)
    ensures forall i :: 0 <= i < |xs[1..]| ==> Clean(xs[1..][i], sep)
  {
    assert Clean(xs[0], sep);
  }

  /** Joining pieces that each end at a leftmost separator and splitting again gives them back. */
  lemma {:induction false} SplitOnJoinClean(xs: seq<string>, x: string, sep: string)
    requires |sep| > 0
    requires forall i :: 0 <= i < |xs| ==> Clean(xs[i], sep)
    ensures SplitOn(Join(xs + [x], sep), sep) == xs + SplitOn(x, sep)
    decreases |xs|
  {
    if xs == [] {
      assert xs + [x] == [x];
    } else {
      CleanTail(xs, sep);
      SplitOnJoinClean(xs[1..], x, sep);
      SplitJoinCons(xs, x, sep);
      ConsBack(xs, SplitOn(x, sep));
    }
  }

  lemma ConsBack<T>(xs: seq<T>, ys: seq<T>)
    requires xs != []
    ensures [xs[0]] + (xs[1..] + ys) == xs + ys
  {
    assert xs == [xs[0]] + xs[1..];
  }

  /** `s.split(c)` for a one-character separator. */
  function Split(s: string, c: char): (r: seq<string>)
    ensures |r| >= 1
  {
    SplitOn(s, [c])
  }

  /** ASCII part of `toLowerCase`. */
  function LowerChar(c: char): char {
    if 'A' <= c <= 'Z' then (c as int + 32) as char else c
  }

  function Lower(s: string): (r: string)
    ensures |r| == |s|
    ensures forall i :: 0 <= i < |s| ==> r[i] == LowerChar(s[i])
  {
    if s == [] then [] else [LowerChar(s[0])] + Lower(s[1..])
  }

  /** Decimal digits of a natural number. */
  function NatToString(n: nat): (r: string)
    ensures |r| >= 1
    ensures forall i :: 0 <= i < |r| ==> '0' <= r[i] <= '9'
    decreases n
  {
    var d := ['0' + ((n % 10) as char)];
    if n < 10 then d else NatToString(n / 10) + d
  }

  /** `String(n)` for an integer. */
  function IntToString(n: int): string {
    if n < 0 then "-" + NatToString(-n) else NatToString(n)
  }
}

=== FILE: upload.dfy ===
/** The file-acceptance rule of the upload component: the extension is taken from the last '.'-separated
    segment of the file name, lower-cased, and must be one of four document types; the size must not
    exceed ten mebibytes. */
module Upload {
  import opened Base
  import opened Strings

  /** A dropped file: its name and its size in bytes. */
  datatype File = File(name: string, size: int)

  const ValidTypes: seq<string> := [".pdf", ".docx", ".doc", ".txt"]

  const MaxSize: int := 10 * 1024 * 1024

  const InvalidType: string := "Invalid file type. Please upload PDF, DOCX, DOC, or TXT files."

  const TooLarge: string := "File size exceeds 10MB limit."

  /** `name.split('.').pop()`. */
  function LastSegment(name: string): string {
    var pieces := Split(name, '.');
    pieces[|pieces| - 1]
  }

  /** `'.' + name.split('.').pop().toLowerCase()`. */
  function Extension(name: string): string {
    "." + Lower(LastSegment(name))
  }

  /** `seg` is the text after the last dot of `name`, or all of `name` when it has no dot. */
  ghost predicate IsLastSegment(name: string, seg: string) {
    && |seg| <= |name| && name[|name| - |seg|..] == seg
    && (forall i :: 0 <= i < |seg| ==> seg[i] != '.')
    && (seg == name || name[|name| - |seg| - 1] == '.')
  }

  /** The segment the split yields is the text after the last dot. */
  lemma LastSegmentIsLast(name: string)
    ensures IsLastSegment(name, LastSegment(name))
  {
    var pieces := Split(name, '.');
    var seg := pieces[|pieces| - 1];
    SplitOnJoin(name, ".");
    SplitOnPieces(name, ".");
    forall i | 0 <= i < |seg|
      ensures seg[i] != '.'
    {
      assert !StartsAt(seg, i, ".");
      assert seg[i..i + 1] == [seg[i]];
    }
    if |pieces| > 1 {
      var init := pieces[..|pieces| - 1];
      assert pieces == init + [seg];
      JoinSnoc(init, seg, ".");
      assert name == Join(init, ".") + "." + seg;
      assert name[|name| - |seg| - 1] == '.';
      assert name[|name| - |seg|..] == seg;
    }
  }

  /** At most one segment of a name is its last. */
  lemma LastSegmentUnique(name: string, a: string, b: string)
    requires IsLastSegment(name, a) && IsLastSegment(name, b)
    ensures a == b
  {
  }

  /** The file passes both checks. */
  predicate Acceptable(f: File) {
    Extension(f.name) in ValidTypes && f.size <= MaxSize
  }

  /** What a drop does: nothing when no file was accepted by the drop zone, an error message, or the
      file now selected. */
  datatype Drop = Ignored | Rejected(message: string) | Selected(file: File)

  /** `onDrop`: only the first file is looked at; the type is checked before the size. */
  function OnDrop(files: seq<File>): (d: Drop)
    ensures d.Selected? ==> files != [] && d.file == files[0]
  {
    if files == [] then Ignored
    else if Extension(files[0].name) !in ValidTypes then Rejected(InvalidType)
    else if files[0].size > MaxSize then Rejected(TooLarge)
    else Selected(files[0])
  }

  /** The component state a drop writes: the selected file and the error message. */
  datatype Selection = Selection(file: Option<File>, error: string)

  function ApplyDrop(st: Selection, files: seq<File>): Selection {
    match OnDrop(files)
    case Ignored => st
    case Rejected(m) => st.(error := m)
    case Selected(f) => Selection(Some(f), "")
  }

  /** A file is selected exactly when it is the first one dropped, its extension (the lower-cased text
      after its last dot) is one of the four, and it is at most 10 MiB; a rejection names the check that
      failed. */
  lemma DropRule(st: Selection, files: seq<File>)
    ensures var t := ApplyDrop(st, files);
      (files != [] && t == Selection(Some(files[0]), "")) <==>
        (files != [] && exists seg :: IsLastSegment(files[0].name, seg) && "." + Lower(seg) in ValidTypes
                                     && files[0].size <= MaxSize)
    ensures files != [] && Extension(files[0].name) !in ValidTypes ==> ApplyDrop(st, files).error == InvalidType
    ensures files != [] && Extension(files[0].name) in ValidTypes && files[0].size > MaxSize ==>
      ApplyDrop(st, files).error == TooLarge
  {
    if files != [] {
      var name := files[0].name;
      LastSegmentIsLast(name);
      if exists seg :: IsLastSegment(name, seg) && "." + Lower(seg) in ValidTypes && files[0].size <= MaxSize {
        var seg :| IsLastSegment(name, seg) && "." + Lower(seg) in ValidTypes && files[0].size <= MaxSize;
        LastSegmentUnique(name, seg, LastSegment(name));
      }
      if Acceptable(files[0]) {
        assert IsLastSegment(name, LastSegment(name));
      }
      if ApplyDrop(st, files) == Selection(Some(files[0]), "") {
        assert OnDrop(files).Selected? || (OnDrop(files).Rejected? && false) || OnDrop(files).Ignored?;
      }
    }
  }

  /** An empty drop and a rejected drop leave the selected file in place: after a rejection the
      previously chosen file is still the one that would be uploaded. */
  lemma RejectionKeepsFile(st: Selection, files: seq<File>)
    requires files == [] || !Acceptable(files[0])
    ensures ApplyDrop(st, files).file == st.file
  {
  }

  /** A segment without dots splits to itself. */
  lemma SplitNoDot(p: string)
    requires forall i :: 0 <= i < |p| ==> p[i] != '.'
    ensures Split(p, '.') == [p]
  {
    forall k: nat
      ensures !StartsAt(p, k, ".")
    {
      if k + 1 <= |p| {
        assert p[k..k + 1] == [p[k]];
      }
    }
  }

  /** A dot-free segment and a dot in front of the rest peel off as the first piece. */
  lemma SplitDot(p: string, x: string)
    requires forall i :: 0 <= i < |p| ==> p[i] != '.'
    ensures Split(p + "." + x, '.') == [p] + Split(x, '.')
  {
    forall j: nat | j < |p|
      ensures !StartsAt(p + ".", j, ".")
    {
      assert (p + ".")[j..j + 1] == [p[j]];
    }
    SplitOnPrefix(p, ".", x);
  }

  /** Whatever precedes the last dot does not matter. */
  lemma LastDotDecides(p: string, x: string)
    requires forall i :: 0 <= i < |x| ==> x[i] != '.'
    ensures Extension(p + "." + x) == "." + Lower(x)
  {
    var name := p + "." + x;
    assert name[|name| - |x|..] == x;
    assert name[|name| - |x| - 1] == '.';
    LastSegmentIsLast(name);
    LastSegmentUnique(name, x, LastSegment(name));
  }

  /** Lower-casing commutes with taking a suffix. */
  lemma LowerSuffix(s: string, n: nat)
    requires n <= |s|
    ensures Lower(s)[n..] == Lower(s[n..])
  {
    var a, b := Lower(s)[n..], Lower(s[n..]);
    assert |a| == |b|;
    forall i | 0 <= i < |a|
      ensures a[i] == b[i]
    {
      assert s[n..][i] == s[n + i];
    }
  }

  /** Lower-casing neither makes nor removes a dot. */
  lemma LowerDots(s: string)
    ensures forall i :: 0 <= i < |s| ==> (Lower(s)[i] == '.' <==> s[i] == '.')
  {
  }

  /** Lower-casing maps the last segment of a name to the last segment of the lower-cased name. */
  lemma LowerKeepsLastSegment(name: string, seg: string)
    requires IsLastSegment(name, seg)
    ensures IsLastSegment(Lower(name), Lower(seg))
  {
    LowerSuffix(name, |name| - |seg|);
    LowerDots(seg);
    LowerDots(name);
  }

  lemma LowerIdempotent(s: string)
    ensures Lower(Lower(s)) == Lower(s)
  {
    assert forall i :: 0 <= i < |s| ==> Lower(Lower(s))[i] == Lower(s)[i];
  }

  /** Lower-casing the name first does not change the extension. */
  lemma ExtensionIgnoresCase(name: string)
    ensures Extension(Lower(name)) == Extension(name)
  {
    var seg := LastSegment(name);
    var low := Lower(name);
    LastSegmentIsLast(name);
    LastSegmentIsLast(low);
    LowerKeepsLastSegment(name, seg);
    LastSegmentUnique(low, Lower(seg), LastSegment(low));
    LowerIdempotent(seg);
  }

  /** Text without upper-case letters is its own lower case. */
  lemma LowerKeeps(s: string)
    requires forall i :: 0 <= i < |s| ==> !('A' <= s[i] <= 'Z')
    ensures Lower(s) == s
  {
  }

  /** A name without any dot is its own extension: a file called `pdf` passes the type check. */
  lemma BareNameAccepted()
    ensures Acceptable(File("pdf", 1))
  {
    SplitNoDot("pdf");
    LowerKeeps("pdf");
    assert Extension("pdf") == ".pdf";
  }
}

=== FILE: wizard.dfy ===
/** The three-step wizard of the application shell: upload, review and edit, generated resume. The
    shell keeps the current step and the record, and shows the view the two select. */
module Wizard {
  import opened JsonModel

  datatype App = App(step: int, data: Json)

  /** Step 1 and no record yet. */
  const Start: App := App(1, Null)

  /** The three callbacks the views are given. */
  datatype Event =
    | Extracted(record: Json)   // `handleResumeDataExtracted`, from the upload view
    | Generated(record: Json)   // `handleGenerateResume`, from the form
    | Back                      // `handleBack`, from the form and the preview

  /** The record changes only to the one a callback passes, and going back never leaves step 1 behind. */
  function Handle(a: App, e: Event): (b: App)
    ensures b.data == (if e.Back? then a.data else e.record)
    ensures 1 <= a.step <= 3 ==> 1 <= b.step <= 3
    ensures e.Back? ==> (b.step == a.step || b.step == a.step - 1) && (a.step > 1 ==> b.step < a.step)
    ensures e.Back? && b.step == a.step ==> b == a
  {
    match e
    case Extracted(d) => App(2, d)
    case Generated(d) => App(3, d)
    case Back => if a.step > 1 then a.(step := a.step - 1) else a
  }

  function Run(a: App, events: seq<Event>): App
    decreases |events|
  {
    if events == [] then a else Run(Handle(a, events[0]), events[1..])
  }

  /** What the shell renders below the progress bar. */
  datatype View = UploadView | FormView(initial: Json) | PreviewView(record: Json) | NoView

  function Shown(a: App): (v: View)
    ensures v.UploadView? <==> a.step == 1
    ensures v.FormView? <==> a.step == 2 && Truthy(a.data)
    ensures v.PreviewView? <==> a.step == 3 && Truthy(a.data)
    ensures v.FormView? ==> v.initial == a.data
    ensures v.PreviewView? ==> v.record == a.data
  {
    if a.step == 1 then UploadView
    else if a.step == 2 && Truthy(a.data) then FormView(a.data)
    else if a.step == 3 && Truthy(a.data) then PreviewView(a.data)
    else NoView
  }

  /** The step is 1, 2 or 3 whatever the callbacks do. */
  lemma {:induction false} StepInRange(a: App, events: seq<Event>)
    requires 1 <= a.step <= 3
    ensures 1 <= Run(a, events).step <= 3
    decreases |events|
  {
    if events != [] {
      StepInRange(Handle(a, events[0]), events[1..]);
    }
  }

  /** Starting from the first step, the only way to see nothing is a falsy record on step 2 or 3. */
  lemma NothingShownOnlyWithoutRecord(events: seq<Event>)
    ensures var a := Run(Start, events);
      Shown(a).NoView? <==> (a.step == 2 || a.step == 3) && !Truthy(a.data)
  {
    StepInRange(Start, events);
  }

  /** An extracted object opens the form on it; generating from the form opens the preview on the
      submitted record; going back from the preview reopens the form on that record, and from the form
      returns to the upload with the record kept. */
  lemma Flow(a: App, d: Json, f: Json)
    requires d.Obj? && f.Obj?
    ensures Shown(Handle(a, Extracted(d))) == FormView(d)
    ensures Shown(Handle(a, Generated(f))) == PreviewView(f)
    ensures Shown(Handle(Handle(a, Generated(f)), Back)) == FormView(f)
    ensures Handle(Handle(a, Extracted(d)), Back) == App(1, d)
  {
  }
}
